=== FILE: README.md ===
# A Dafny model of the dexter Solana client layer

The dexter client layer gives test code and tools one vocabulary for three
very different Solana backends: an in-process `Bank`, the blocking
test-service `BanksClient`, and the remote `RpcClient`. Each backend is
exposed as a set of small capabilities:

- `GetAccount`, `GetProgramAccounts`, `GetMultipleAccounts`,
  `GetMinimumBalanceForRentExemption` and `GetLatestBlockhash` read;
- `SetAccount` and `HasRent` write;
- `ProcessTransaction<T>` and `SimulateTransaction<T>` execute, producing a
  signature, an `ExecutionOutput` or an `ExecutionEffect`.

Every capability is forwarded through `&C`, `&mut C`, `Arc<C>` and `Box<C>`.
On top of these sit the following layers:

- derived readers: the all-or-nothing, lossy and array multi-reads;
- transaction compilation with signer de-duplication, and sanitization
  against on-ledger lookup tables;
- typed readers and setters for Anchor accounts, sysvars, feature gates,
  programs, address lookup tables, wallets and the SPL token programs.

The model represents every backend as values and pure functions over them:

- A ledger is a map from public keys to accounts.
- A reading backend is a record of its replies.
- A wrapper chain is a `Wrapped<C>` value whose every capability is stated
  against the innermost backend.
- Errors are the client's `ClientError` taxonomy, reached through the two
  native-error translations.

SDK codecs that this crate does not define are parameters of the
operations that use them: bincode, borsh, Anchor, bytemuck, the lookup-table
and sysvar decoders, and the instruction encoders. The SPL token `Mint` and
`Account` `Pack` layouts are modelled byte for byte, because the setters'
unwraps depend on them.

Module layout, following the crate structure:

| files | what they model |
|---|---|
| `results.dfy`, `ledger.dfy`, `bytes.dfy`, `key_order.dfy`, `transactions.dfy` | the shared vocabulary: results, accounts and keys, little-endian integers, key order, messages and transactions |
| `errors.dfy` | the error types and their translations |
| `capabilities.dfy` | the capability traits and the wrapper forwarding |
| `execution.dfy` | execution outputs, effects and post accounts |
| `getter_ext.dfy`, `executor_ext.dfy`, `sanitize.dfy` | derived readers, transaction compilation, sanitization |
| `bank.dfy`, `banks_client.dfy`, `rpc_client.dfy` | the three backends |
| `anchor_account.dfy`, `anchor_getter.dfy`, `anchor_setter.dfy` | the Anchor layer |
| `sysvar.dfy`, `feature.dfy`, `program.dfy`, `pack.dfy`, `wallet.dfy`, `lookup_table.dfy` | the system layer |
| `token_state.dfy`, `token.dfy`, `token_interface.dfy` | the SPL token layer |

Where this model follows the code rather than the crate's prose
description:

- A version-0 message with no lookup tables still performs the multi-read.
  It reads only the slot-hashes sysvar, and fails if that sysvar is missing.
- The bank's unindexed program-account scan returns its matches in storage
  order. Only the indexed scan and the remote node's scan are sorted by key.
- `token_interface::set_token_account` decides whether an account is
  wrapped SOL by comparing against the SPL token native mint. This happens
  even when the account is stored under another token program.

## Model

| member | source | states |
|---|---|---|
| Errors.GetTransactionError | client/client-api/src/errors.rs:41-46 | a transaction error is extracted exactly from the `TransactionError` variant, and only its payload |
| Errors.FromBanksClientError | client/client-api/src/errors.rs:73-83 | the test-service error translation: a ledger transaction error passes through unchanged; every other kind becomes the matching test-service-specific error, kind for kind |
| Errors.FromRpcClientError | client/client-api/src/errors.rs:105-117 | the remote error translation: transaction and signing errors pass through; each other kind becomes the matching remote-specific error |
| Errors.TransactionErrorPassesThrough | client/client-api/src/errors.rs:41-117 | `get_transaction_error` after either translation recovers exactly the native transaction error, and nothing for any other native error |
| Errors.TranslationsAreInjective | client/client-api/src/errors.rs:73-117 | neither translation maps two native errors of distinct kinds, or of one kind with distinct payloads, to the same client error |
| Capabilities.GetAccount | client/client-api/src/base/getter.rs:16-38 | a single read through any depth of `&`, `&mut`, `Box`, `Arc` wrappers answers what the innermost backend answers |
| Capabilities.GetProgramAccounts | client/client-api/src/base/getter.rs:40-86 | a program-account scan through any wrapper chain is the innermost backend's scan |
| Capabilities.GetMultipleAccounts | client/client-api/src/base/getter.rs:88-114 | a multi-read through any wrapper chain is the innermost backend's multi-read |
| Capabilities.GetMinimumBalanceForRentExemption | client/client-api/src/base/getter.rs:120-142 | the rent minimum through any wrapper chain is the innermost backend's |
| Capabilities.GetLatestBlockhash | client/client-api/src/base/getter.rs:148-170 | the blockhash through any wrapper chain is the innermost backend's |
| Capabilities.ProcessTransaction | client/client-api/src/base/executor.rs:12-34 | processing through any wrapper chain is the innermost executor's processing |
| Capabilities.SimulateTransaction | client/client-api/src/base/executor.rs:36-62 | simulation through any wrapper chain is the innermost executor's simulation |
| Capabilities.RentOf | client/client-api/src/base/setter.rs:33-71 | every wrapper reports the rent of the backend it wraps |
| Capabilities.DefaultMinimumBalance | client/client-api/src/base/setter.rs:25-31 | the default minimum is the rent's minimum balance, floored at one lamport, and differs from it only when that minimum is zero |
| Capabilities.MinimumBalanceForRentExemption | client/client-api/src/base/setter.rs:25-71 | through any wrapper chain, the minimum is the innermost backend's own override when it has one, else the floored default |
| Capabilities.DefaultMinimumIsFloored | client/client-api/src/base/setter.rs:28-30 | without an override, a wrapped backend's minimum is at least one lamport and at least the rent's minimum balance |
| Capabilities.SetAccount | client/client-api/src/base/setter.rs:9-23 | storing through a writable wrapper chain updates exactly that key of the innermost ledger and keeps the chain |
| Capabilities.SetThenRead | client/client-api/src/base/setter.rs:9-23 | a stored account reads back at its key; every other key reads as before |
| Execution.PostAccounts.GetAccount | client/client-api/src/execution.rs:142-144 | a live account is returned exactly when the key was recorded with one |
| Execution.PostAccounts.TryGetAccount | client/client-api/src/execution.rs:146-152 | the live account, else `AccountClosed` exactly for a key recorded as closed, else `AccountNotFound` exactly for an unrecorded key |
| Execution.PostAccounts.DeserializeAccount | client/client-api/src/execution.rs:154-161 | decoding succeeds exactly when the key is live and its data decodes; lookup errors pass through; a failed decode is `AccountDidNotDeserialize` |
| Execution.PostAccountsErrorToClient | client/client-api/src/execution.rs:104-124 | closed and missing accounts both become `AccountNotFound`, an undecodable one `AccountDidNotDeserialize`, always naming the same key |
| Execution.ExecutionOutput.TrySuccess | client/client-api/src/execution.rs:26-33 | the output itself exactly when it succeeded, else its transaction error |
| Execution.ExecutionOutput.Signature | client/client-api/src/execution.rs:35-37 | the reported signature is the transaction's first, the fee payer's |
| Execution.ExecutionEffect.GetPostAccount | client/client-api/src/execution.rs:56-61 | nothing for an unrecorded key, `Some(None)` exactly for a closed one, else the recorded account |
| Execution.ExecutionEffect.TryDeserializePostAccount | client/client-api/src/execution.rs:63-68 | the post-account decode, with its error translated to a client error |
| Execution.ExecutionEffect.CustomErrorCode | client/client-api/src/execution.rs:70-78 | a code is reported exactly when the transaction failed with an instruction's custom error, and it is that error's code |
| Execution.EffectToOutput | client/client-api/src/execution.rs:81-102 | the projection keeps transaction, result, logs, units, return data and fee |
| Execution.EffectToOutputKeepsOutcome | client/client-api/src/execution.rs:81-102 | projecting keeps success or failure, and the output does not depend on the post accounts |
| Execution.PostAccountAccessorsAgree | client/client-api/src/execution.rs:56-61 | the effect's three-state read and the post accounts' two reads describe the same recorded state |
| Execution.CollectPostAccounts | client/client-api/src/execution.rs:174-178 | collecting (key, state) pairs records exactly the keys that occur among the pairs |
| Execution.CollectPostAccountsLastWins | client/client-api/src/execution.rs:174-178 | a key's recorded state is the state of its last pair |
| Execution.CollectPostAccountsSize | client/client-api/src/execution.rs:134-136 | with distinct keys, `len()` equals the number of pairs |
| Execution.CollectPostAccountsFunctional | client/client-api/src/execution.rs:174-178 | when each pair's state is a function of its key, every recorded key holds that function's value |
| GetterExt.TryGetAccount | client/client-api/src/exts/getter.rs:8-13 | the account when present, `AccountNotFound` naming the key when missing, read errors unchanged |
| GetterExt.Zip | client/client-api/src/exts/getter.rs:19-28 | keys and replies are paired position by position up to the shorter length |
| GetterExt.CollectPresent | client/client-api/src/exts/getter.rs:19-28 | all entries exactly when every one is present, else `AccountNotFound` for a missing key |
| GetterExt.TryGetMultipleAccounts | client/client-api/src/exts/getter.rs:19-28 | the multi-read's entries all present, or the first missing key's error, read errors unchanged |
| GetterExt.TryGetMultipleAccountsAllOrFirstMissing | client/client-api/src/exts/getter.rs:19-28 | with one reply per key: success exactly when every key is present, and the error names the first missing key |
| GetterExt.PresentIndexes | client/client-api/src/exts/getter.rs:30-42 | the increasing positions of exactly the present entries |
| GetterExt.FilterPresent | client/client-api/src/exts/getter.rs:30-42 | the lossy filter never grows the reply |
| GetterExt.FilterPresentKeepsPresentInOrder | client/client-api/src/exts/getter.rs:30-42 | the lossy read keeps exactly the present entries, paired with their keys, in request order |
| GetterExt.GetMultipleAccountsLossy | client/client-api/src/exts/getter.rs:30-42 | one (key, account) entry per requested position whose account is present, in request order, read errors unchanged |
| GetterExt.GetMultipleAccountsArray | client/client-api/src/exts/getter.rs:44-51 | the multi-read as an array with one entry per key |
| GetterExt.TryGetMultipleAccountsArray | client/client-api/src/exts/getter.rs:53-60 | the all-or-first-missing read as an array with one entry per key |
| ExecutorExt.TryPubkeysOf | client/client-api/src/exts/executor.rs:124-127 | all signer keys in order exactly when every signer yields one |
| ExecutorExt.TrySignOf | client/client-api/src/exts/executor.rs:134-137 | all signatures in order exactly when every signer signs |
| ExecutorExt.SignerList | client/client-api/src/exts/executor.rs:119-141 | a signer list's keys are its signers' keys in order, and it is interactive exactly when one signer is |
| ExecutorExt.FirstOccurrences | client/client-api/src/exts/executor.rs:101-116 | the kept positions are valid and strictly increasing |
| ExecutorExt.FirstOccurrencesExact | client/client-api/src/exts/executor.rs:101-116 | a position is kept exactly when its key does not occur earlier |
| ExecutorExt.FirstIndexOf | client/client-api/src/exts/executor.rs:101-116 | the first position at which a key occurs |
| ExecutorExt.PrimeIndexes | client/client-api/src/exts/executor.rs:101-116 | the single pass with a seen-set keeps exactly the first occurrence of each key |
| ExecutorExt.PrimeSigners.Project | client/client-api/src/exts/executor.rs:119-137 | projecting picks the entries at the kept positions, in order |
| ExecutorExt.PrimeSigners.Pubkeys | client/client-api/src/exts/executor.rs:119-122 | the de-duplicated keys are the keys at the kept positions |
| ExecutorExt.PrimeSigners.TryPubkeys | client/client-api/src/exts/executor.rs:124-127 | fails exactly when the underlying keys fail, with the same error, else projects them |
| ExecutorExt.PrimeSigners.SignMessage | client/client-api/src/exts/executor.rs:129-132 | the de-duplicated signatures are the signatures at the kept positions |
| ExecutorExt.PrimeSigners.TrySignMessage | client/client-api/src/exts/executor.rs:134-137 | fails exactly when the underlying signing fails, with the same error, else projects the signatures |
| ExecutorExt.PrimeSigners.IsInteractive | client/client-api/src/exts/executor.rs:139-141 | interactivity is the underlying signers' |
| ExecutorExt.PrimeKeysDistinctOrderedCovering | client/client-api/src/exts/executor.rs:101-122 | the de-duplicated keys have no repeats, keep their original order, and include every signer key |
| ExecutorExt.PrimeSignaturesAligned | client/client-api/src/exts/executor.rs:119-132 | when each underlying signature is by its key, each de-duplicated signature is by its de-duplicated key |
| ExecutorExt.PairSignerKeys | client/client-api/src/exts/executor.rs:101-127 | a payer and one other signer are listed and read payer first, the first failing key deciding the error, and de-duplication keeps the payer alone exactly when the two keys coincide |
| ExecutorExt.PairFirstOccurrences | client/client-api/src/exts/executor.rs:101-116 | of two keys, the second is dropped exactly when it equals the first |
| ExecutorExt.PairPrimeKeysExactAndDistinct | client/client-api/src/exts/executor.rs:101-127 | the de-duplicated keys of a payer and one other signer are exactly those two, none repeated, the payer's first |
| ExecutorExt.CompileTransaction | client/client-api/src/exts/executor.rs:18-44 | blockhash, compile, key and signing failures are reported in that order, each with its own error; otherwise the signed transaction over the de-duplicated signers |
| ExecutorExt.CompilingProcessTransaction | client/client-api/src/exts/executor.rs:48-65 | a compile failure is returned without processing; otherwise the processed compiled transaction |
| ExecutorExt.CompilingSimulateTransaction | client/client-api/src/exts/executor.rs:72-89 | a compile failure is returned without simulating; otherwise the simulated compiled transaction |
| Sanitize.Lookup | client/client-api/src/internals/sanitize.rs:61-72 | succeeds exactly when every index is in range, and yields the addressed entries in index order |
| Sanitize.LoadTable | client/client-api/src/internals/sanitize.rs:47-75 | a missing table, a foreign owner, undecodable data and an out-of-range index each give their own lookup error; otherwise the writable and read-only addresses |
| Sanitize.LoadAll | client/client-api/src/internals/sanitize.rs:47-75 | the tables resolved pairwise with the references, in order |
| Sanitize.LoadAllFailsAtFirstError | client/client-api/src/internals/sanitize.rs:47-75 | resolution succeeds exactly when every table resolves, and otherwise fails with the first failing table's error |
| Sanitize.Concat | client/client-api/src/internals/sanitize.rs:75 | collecting keeps exactly the tables' writable and read-only addresses, each kind apart, with the first table's writables leading |
| Sanitize.ReadKeys | client/client-api/src/internals/sanitize.rs:20-31 | the one multi-read asks for every table key in reference order, then the slot-hashes sysvar |
| Sanitize.LoadAddresses | client/client-api/src/internals/sanitize.rs:31-78 | read errors unchanged; a missing or undecodable slot-hashes sysvar is reported as such; otherwise the addresses of every table |
| Sanitize.SanitizeTransaction | client/client-api/src/internals/sanitize.rs:13-89 | a legacy message is sanitized with no reads; a version-0 message with the loaded addresses, lookup failures becoming `AddressLookupError` |
| Sanitize.LegacyReadsNothing | client/client-api/src/internals/sanitize.rs:19 | sanitizing a legacy message does not depend on the backend |
| Sanitize.OnlyTheOneMultiRead | client/client-api/src/internals/sanitize.rs:20-31 | sanitizing a version-0 message depends on the backend only through the one multi-read of the table keys and the sysvar |
| Sanitize.LoadedCounts | client/client-api/src/internals/sanitize.rs:61-75 | the loaded addresses hold exactly as many writable and read-only entries as the references list indexes |
| Sanitize.SanitizedKeysAreStaticThenLoaded | client/client-api/src/internals/sanitize.rs:13-89 | when `try_create` keeps the loaded addresses and the reply has one entry per read key, a sanitized version-0 transaction's account keys are the static keys, then the tables' writable addresses, then their read-only ones, one per static key and lookup index |
| KeyOrder.Insert | client/client-api/src/base_impls/bank.rs:53-63 | insertion adds exactly the one entry |
| KeyOrder.InsertSorted | client/client-api/src/base_impls/bank.rs:53-63 | inserting into a key-sorted sequence keeps it sorted |
| KeyOrder.SortByKey | client/client-api/src/base_impls/bank.rs:53-63 | the sorted scan is a key-ordered permutation of its input |
| BankBackend.ReadEach | client/client-api/src/base_impls/banks_client_blocking.rs:33-42 | one entry per key exactly when every single read succeeds; otherwise the first failing read's error |
| BankBackend.BankGetAccount | client/client-api/src/base_impls/bank.rs:27-31 | the bank never fails a read, and returns the stored account exactly for a stored key |
| BankBackend.BankGetMultipleAccounts | client/client-api/src/base_impls/bank.rs:78-86 | one entry per key, each what the single read reports |
| BankBackend.SelectProgramAccounts | client/client-api/src/base_impls/bank.rs:33-76 | the selected accounts are exactly the stored ones owned by the program that pass every filter, with no entry repeated or invented |
| BankBackend.BankGetProgramAccounts | client/client-api/src/base_impls/bank.rs:33-76 | a scan error becomes a domain-specific error; otherwise exactly the matching owned accounts, key-sorted when the scan is indexed |
| BankBackend.BankRentHolder | client/client-api/src/base_impls/bank.rs:106-114 | the bank's minimum is the bank's own figure, with no floor |
| BankBackend.LamportsPerSignature | client/client-api/src/base_impls/bank.rs:144-151 | a valid durable nonce's fee rate wins, an invalid one gives none, and without a nonce the blockhash's rate is used |
| BankBackend.BankProcessTransaction | client/client-api/src/base_impls/bank.rs:116-167 | an unexecuted transaction is an error; an executed one yields its status, logs, units, return data and the fee at the chosen rate |
| BankBackend.FindPostAccount | client/client-api/src/base_impls/bank.rs:235-238 | the account of the first snapshot entry for the key, present exactly when the key occurs |
| BankBackend.NormalisePostAccount | client/client-api/src/base_impls/bank.rs:240-250 | an empty system account is closed, an executable account is re-read from the ledger, any other is kept |
| BankBackend.BankPairs | client/client-api/src/base_impls/bank.rs:230-250 | each account key paired with its normalised post state |
| BankBackend.BankPairsCollect | client/client-api/src/base_impls/bank.rs:230-263 | the collected post accounts hold exactly the account keys, each with its normalised state |
| BankBackend.BankPostAccounts | client/client-api/src/base_impls/bank.rs:212-263 | the simulation's post accounts: exactly the account keys, each normalised |
| BankBackend.BankPostAccountsCount | client/client-api/src/base_impls/bank.rs:212-263 | with distinct account keys there is one post account per key |
| BankBackend.BankSimulateEffect | client/client-api/src/base_impls/bank.rs:179-210 | a verification failure, and a simulation that consumed no units, are errors; otherwise the effect carries the simulation's outcome, the fee and the normalised post accounts |
| BankBackend.BankSimulateOutput | client/client-api/src/base_impls/bank.rs:169-177 | the simulated output is the effect's projection |
| BanksClientBackend.Translate | client/client-api/src/base_impls/banks_client_blocking.rs:25-58 | a service reply keeps its value, and its error goes through the test-service translation |
| BanksClientBackend.GetAccount | client/client-api/src/base_impls/banks_client_blocking.rs:25-31 | the service's account reply, translated |
| BanksClientBackend.GetMultipleAccounts | client/client-api/src/base_impls/banks_client_blocking.rs:33-42 | succeeds exactly when every single read of the keys succeeds, with one entry per key holding that key's account; otherwise the translated error of the first key whose read fails |
| BanksClientBackend.GetMinimumBalanceForRentExemption | client/client-api/src/base_impls/banks_client_blocking.rs:44-48 | the service rent's minimum balance, with no floor |
| BanksClientBackend.GetLatestBlockhash | client/client-api/src/base_impls/banks_client_blocking.rs:50-58 | the blockhash of the service's latest reply |
| BanksClientBackend.FeeMessage | client/client-api/src/base_impls/banks_client_blocking.rs:160-176 | the fee is asked for a legacy message with the sanitized keys and the original header, blockhash and instructions |
| BanksClientBackend.GetFeeForVersionedTransaction | client/client-api/src/base_impls/banks_client_blocking.rs:148-178 | a sanitization error is returned; otherwise the service's fee for the legacy form of the message |
| BanksClientBackend.ProcessForSignature | client/client-api/src/base_impls/banks_client_blocking.rs:60-67 | the first signature when the service processes the transaction, else its translated error |
| BanksClientBackend.ProcessForOutput | client/client-api/src/base_impls/banks_client_blocking.rs:69-101 | a processed transaction yields its result, logs, units, return data and the fee |
| BanksClientBackend.SimulateForOutput | client/client-api/src/base_impls/banks_client_blocking.rs:103-146 | a simulation that consumed no units is its error; otherwise the simulation's outcome with the fee |
| BanksClientBackend.SignatureAgreesWithOutput | client/client-api/src/base_impls/banks_client_blocking.rs:60-101 | whenever processing yields an output, the signature form of the call succeeds with that output's first signature |
| BanksClientBackend.SimulationMatchesProcessing | client/client-api/src/base_impls/banks_client_blocking.rs:69-146 | when the service's simulation reports the same result, logs, units and return data as its processing, with some units consumed, simulating and processing produce the same output |
| RpcClientBackend.Translate | client/client-api/src/base_impls/rpc_client.rs:47-104 | a node reply keeps its value, and its error goes through the remote translation |
| RpcClientBackend.GetAccount | client/client-api/src/base_impls/rpc_client.rs:47-52 | the node's account reply at the client's commitment, translated |
| RpcClientBackend.GetProgramAccounts | client/client-api/src/base_impls/rpc_client.rs:54-79 | the node's scan, re-ordered by key: a key-sorted permutation of the reply |
| RpcClientBackend.GetMultipleAccounts | client/client-api/src/base_impls/rpc_client.rs:81-89 | the node's multi-read, one entry per key |
| RpcClientBackend.GetMinimumBalanceForRentExemption | client/client-api/src/base_impls/rpc_client.rs:91-97 | the node's rent minimum, translated |
| RpcClientBackend.GetLatestBlockhash | client/client-api/src/base_impls/rpc_client.rs:99-104 | the blockhash of the node's latest reply |
| RpcClientBackend.AsGetter | client/client-api/src/base_impls/rpc_client.rs:47-89 | the node seen as a reading capability reads what the backend reads |
| RpcClientBackend.PreflightSimulation | client/client-api/src/base_impls/rpc_client.rs:121-133 | the simulation a preflight failure carries |
| RpcClientBackend.ProcessForSignature | client/client-api/src/base_impls/rpc_client.rs:106-162 | a preflight that failed before execution yields its error; otherwise the first signature on confirmation or an on-chain failure, and any other error translated |
| RpcClientBackend.Confirm | client/client-api/src/base_impls/rpc_client.rs:169-197 | the first successful poll wins; when every poll fails, the last failure is the result |
| RpcClientBackend.AwaitConfirmation | client/client-api/src/base_impls/rpc_client.rs:169-197 | the polling loop makes at most eleven polls and returns the last poll's answer |
| RpcClientBackend.ResultOf | client/client-api/src/base_impls/rpc_client.rs:293-296 | no error is success; an error is that failure |
| RpcClientBackend.ConvertProcessed | client/client-api/src/base_impls/rpc_client.rs:255-306 | the output succeeds exactly when the status metadata has no error, and carries its logs, units, return data and fee |
| RpcClientBackend.ProcessForOutput | client/client-api/src/base_impls/rpc_client.rs:164-200 | a submit error is returned; a confirmed transaction is converted; when polling keeps failing, its last error is returned |
| RpcClientBackend.SignatureAgreesWithOutput | client/client-api/src/base_impls/rpc_client.rs:106-200 | whenever processing yields an output, the signature form of the call succeeds with that output's first signature |
| RpcClientBackend.GetFeeForVersionedMessage | client/client-api/src/base_impls/rpc_client.rs:409-420 | the node's fee, or a custom "Invalid blockhash" error when the node has none |
| RpcClientBackend.Normalise | client/client-api/src/base_impls/rpc_client.rs:341-350 | an empty system account is closed; any other state is kept |
| RpcClientBackend.NormalisedPairs | client/client-api/src/base_impls/rpc_client.rs:341-350 | each account key paired with its normalised simulated state |
| RpcClientBackend.ProgramIdsExact | client/client-api/src/base_impls/rpc_client.rs:353-360 | a key is re-read as a program exactly when some entry for it is live and executable |
| RpcClientBackend.ProgramMap | client/client-api/src/base_impls/rpc_client.rs:362-366 | the program map holds exactly the program ids |
| RpcClientBackend.ProgramMapDistinct | client/client-api/src/base_impls/rpc_client.rs:362-366 | with distinct ids, each id maps to the account re-read for it |
| RpcClientBackend.ReplacePrograms | client/client-api/src/base_impls/rpc_client.rs:368-374 | replacement keeps every key and whether its state is live |
| RpcClientBackend.ReplaceProgramsAt | client/client-api/src/base_impls/rpc_client.rs:368-374 | a live entry with a re-read program account takes that account |
| RpcClientBackend.ProgramReread | client/client-api/src/base_impls/rpc_client.rs:353-366 | one multi-read of the program ids: read errors unchanged; success exactly when every id has an account, one account per id in id order; otherwise `AccountNotFound` for the first id without one |
| RpcClientBackend.ConvertSimulated | client/client-api/src/base_impls/rpc_client.rs:308-403 | a failed re-read is returned; otherwise the effect carries the normalised states with programs replaced, the simulation's outcome and the fee |
| RpcClientBackend.ReplacedEntry | client/client-api/src/base_impls/rpc_client.rs:341-374 | with distinct keys, an entry ends closed, unchanged, or replaced by its re-read program account, by its simulated state |
| RpcClientBackend.PostAccountAt | client/client-api/src/base_impls/rpc_client.rs:341-392 | with distinct account keys, a key's post account is closed for an empty system account, the simulated account when not executable, and the re-read program otherwise |
| RpcClientBackend.SimulatedPostAccounts | client/client-api/src/base_impls/rpc_client.rs:341-392 | the per-key description holds for every account key |
| RpcClientBackend.ProgramIdsDistinct | client/client-api/src/base_impls/rpc_client.rs:353-360 | distinct entry keys give distinct program ids |
| RpcClientBackend.SimulateForEffect | client/client-api/src/base_impls/rpc_client.rs:213-253 | sanitization, simulation and fee errors are returned in that order; a simulation with no units is its error; otherwise the converted simulation |
| RpcClientBackend.SimulateForOutput | client/client-api/src/base_impls/rpc_client.rs:203-211 | the simulated output is the effect's projection |
| AnchorAccounts.TryFromAccount | client/client-anchor/src/account.rs:18-24 | succeeds exactly when the data decodes, keeping key, account and decoded value; otherwise the decode error |
| AnchorAccounts.Guard.Set | client/client-anchor/src/account.rs:152-164 | writing through the guard replaces only the guarded value |
| AnchorAccounts.AcquireGuard | client/client-anchor/src/account.rs:42-62 | a guard starts from the account's key, account and value |
| AnchorAccounts.ReleaseSerializable | client/client-anchor/src/account.rs:172-177 | releasing replaces the account data by the value's serialisation and changes nothing else |
| AnchorAccounts.ReleaseLoadable | client/client-anchor/src/account.rs:206-211 | releasing writes the value's bytes after the 8-byte discriminator, keeping the discriminator, the tail, the length and every other field |
| AnchorAccounts.AccessorsReadStoredParts | client/client-anchor/src/account.rs:26-143 | every accessor of a decoded account reads the key, account and value it was decoded from |
| AnchorAccounts.SerializableRoundTrip | client/client-anchor/src/account.rs:42-51 | a value written back through the serialising guard decodes to itself when the codec round-trips |
| AnchorAccounts.LoadableIdempotent | client/client-anchor/src/account.rs:53-62 | writing back the same value through the zero-copy guard twice changes nothing |
| AnchorGetter.Decode | client/client-anchor/src/getter.rs:14-27 | a decode failure becomes `AccountDidNotDeserialize` naming the key |
| AnchorGetter.GetAnchorAccount | client/client-anchor/src/getter.rs:14-27 | nothing for a missing account, the decoded account for a decodable one, `AccountDidNotDeserialize` otherwise, read errors unchanged |
| AnchorGetter.TryGetAnchorAccount | client/client-anchor/src/getter.rs:29-38 | a missing account becomes `AccountNotFound` |
| AnchorGetter.TryGetAnchorAccountRefinesTryGetAccount | client/client-anchor/src/getter.rs:29-38 | the typed read fails exactly where the untyped read does, and otherwise decodes what it read |
| AnchorGetter.DecodeAll | client/client-anchor/src/getter.rs:40-56 | every scanned account decoded in order, or the first undecodable key's error |
| AnchorGetter.GetAnchorProgramAccounts | client/client-anchor/src/getter.rs:40-56 | the scan's accounts decoded in scan order |
| AnchorGetter.DecodePresent | client/client-anchor/src/getter.rs:58-82 | missing entries stay missing and present ones are decoded with their keys; otherwise the error names the first present key that does not decode |
| AnchorGetter.GetAnchorMultipleAccounts | client/client-anchor/src/getter.rs:58-82 | the multi-read with each present account decoded |
| AnchorGetter.TryGetAnchorMultipleAccounts | client/client-anchor/src/getter.rs:84-102 | every account present and decoded, or the first missing key |
| AnchorGetter.TryGetAnchorMultipleAgreesWithUntyped | client/client-anchor/src/getter.rs:84-102 | when everything decodes, the typed all-or-nothing read fails exactly when the untyped one does, with the same error, and otherwise decodes its accounts |
| AnchorGetter.CollectPresentSamePattern | client/client-anchor/src/getter.rs:84-102 | collecting two lists with the same keys and the same missing entries fails alike |
| AnchorSetter.RentExemptAccount | client/client-anchor/src/setter.rs:29-35 | the stored account is rent-exempt for its data, owned by the given owner or else the type's, not executable, with the maximal rent epoch |
| AnchorSetter.SetAnchorAccountZeroCopy | client/client-anchor/src/setter.rs:10-38 | only the key is written, with the discriminator followed by the value's bytes |
| AnchorSetter.SetAnchorAccount | client/client-anchor/src/setter.rs:40-57 | only the key is written, with the value's serialisation |
| AnchorSetter.ZeroCopyLayout | client/client-anchor/src/setter.rs:19-27 | the written data is the 8-byte discriminator followed by exactly the value's bytes |
| AnchorSetter.SetAnchorAccountReadsBack | client/client-anchor/src/setter.rs:40-57 | the written account decodes back to the value, and without an override holds at least one lamport |
| Sysvars.SysvarIdsAreDistinct | client/client-sys/src/sysvar.rs:26-45 | the five named getters read five distinct accounts |
| Sysvars.GetSysvar | client/client-sys/src/sysvar.rs:15-45 | nothing for a missing sysvar account, the decoded sysvar, or `AccountDidNotDeserialize` |
| Sysvars.TryGetSysvar | client/client-sys/src/sysvar.rs:47-75 | a missing sysvar account is `AccountNotFound`; otherwise as the plain read |
| Sysvars.TryGetSysvarAgreesWithGetSysvar | client/client-sys/src/sysvar.rs:15-54 | the failing read returns a value exactly when the plain read finds one, and otherwise reports why |
| Features.Compare | client/client-sys/src/feature.rs:26-40 | statuses compare equal only when identical, and otherwise by rank: activations by slot, then pending, then inactive |
| Features.CompareSlots | client/client-sys/src/feature.rs:26-40 | slots compare by their numeric order |
| Features.CompareIsRankOrder | client/client-sys/src/feature.rs:26-40 | the status order is the order of ranks, equal only on equal statuses, and antisymmetric |
| Features.CompareIsTransitive | client/client-sys/src/feature.rs:26-40 | the status order is transitive |
| Features.ActiveBeforePendingBeforeInactive | client/client-sys/src/feature.rs:26-40 | every activation sorts before pending, which sorts before inactive |
| Features.StatusOf | client/client-sys/src/feature.rs:42-49 | a feature is active at its activation slot, or pending, and never inactive |
| Features.FeatureOf | client/client-sys/src/feature.rs:51-61 | only the inactive status has no feature |
| Features.StatusRoundTrip | client/client-sys/src/feature.rs:42-61 | the two conversions are inverse on features and on every status but inactive |
| Features.GetFeature | client/client-sys/src/feature.rs:64-76 | nothing for a missing account, the decoded feature, or `AccountDidNotDeserialize` |
| Features.TryGetFeature | client/client-sys/src/feature.rs:78-86 | a missing feature account is `AccountNotFound` |
| Features.GetFeatureStatus | client/client-sys/src/feature.rs:88-99 | an account gives its feature's status; no account gives inactive for a known feature and nothing for an unknown one |
| Features.TryGetFeatureStatus | client/client-sys/src/feature.rs:101-109 | an unknown feature without an account is `AccountNotFound` |
| Features.StatusAgreesWithFeature | client/client-sys/src/feature.rs:64-99 | the status read is the status of the feature read |
| Features.DecodeFeatures | client/client-sys/src/feature.rs:111-130 | every scanned account decoded in scan order, or the first undecodable key's error |
| Features.GetFeatures | client/client-sys/src/feature.rs:111-130 | the feature program scanned for accounts of the feature size, then decoded |
| Features.FeatureSet.Activate | client/client-sys/src/feature.rs:147 | activation moves the one feature from inactive to active at its slot |
| Features.ActivateAll | client/client-sys/src/feature.rs:132-151 | the built set activates exactly the known features the scan activates, each at its first activation slot, and leaves the rest inactive |
| Features.GetFeatureSet | client/client-sys/src/feature.rs:132-151 | the feature set the scan describes, or the scan's error |
| Programs.GetProgram | client/client-sys/src/program.rs:13-45 | nothing for a missing account; an upgradeable program's bytes from its data account after the metadata; a loader-v4 program's after its header; the whole data for the plain loaders |
| Programs.TryGetProgram | client/client-sys/src/program.rs:47-55 | a missing program account is `AccountNotFound` |
| Programs.ProgramIsDataAfterHeader | client/client-sys/src/program.rs:13-45 | the program bytes are a suffix of the account holding them, after exactly its loader's header |
| Packing.PackingSetAccount | client/client-sys/src/pack.rs:9-23 | a fresh account of the packed length, holding the packing, stored at only that key and returned |
| Packing.PackedAccountUnpacks | client/client-sys/src/pack.rs:19-22 | the stored account is the returned one, and its data unpacks to the value |
| Wallets.WalletAccount | client/client-sys/src/wallet.rs:10-23 | a wallet is a system-owned data-less account with its balance |
| Wallets.SetWallet | client/client-sys/src/wallet.rs:10-23 | only the wallet's key is written |
| Wallets.NewWallet | client/client-sys/src/wallet.rs:25-32 | the fresh key is funded and handed back |
| Wallets.WalletReadsBack | client/client-sys/src/wallet.rs:10-32 | a wallet reads back with its balance, other keys read as before, and it is an empty system account exactly when unfunded |
| LookupTables.SetComputeUnitLimit | client/client-sys/src/address_lookup_table.rs:30-36 | a compute-budget instruction with tag 2 and a four-byte payload |
| LookupTables.SetComputeUnitPrice | client/client-sys/src/address_lookup_table.rs:30-36 | a compute-budget instruction with tag 3 and an eight-byte payload |
| LookupTables.ComputeBudgetDataDecodes | client/client-sys/src/address_lookup_table.rs:30-36 | the budget payloads decode back to their values |
| LookupTables.WithComputeBudget | client/client-sys/src/address_lookup_table.rs:24-36 | the instruction is preceded by a 2000-unit limit and a 1,000,000 micro-lamport price |
| LookupTables.GetAddressLookupTable | client/client-sys/src/address_lookup_table.rs:39-51 | nothing for a missing table, the decoded table, or `AccountDidNotDeserialize` |
| LookupTables.AuthorityFilter | client/client-sys/src/address_lookup_table.rs:60-63 | the scan compares the authority at byte offset 22 |
| LookupTables.GetAddressLookupTablesForAuthority | client/client-sys/src/address_lookup_table.rs:53-77 | every scanned table decoded in scan order, scan errors unchanged |
| LookupTables.ExtendSigners | client/client-sys/src/address_lookup_table.rs:121-125 | the payer signs alone when it is also the authority, else payer and authority |
| LookupTables.ExtendSignerKeysAreExactAndDistinct | client/client-sys/src/address_lookup_table.rs:121-125 | either signer list's keys are exactly the payer's and authority's, and the picked list has no repeated key |
| LookupTables.Submit | client/client-sys/src/address_lookup_table.rs:83-167 | a blockhash error, then a compile error, then a signer-key error, then a signing error is returned in that order; only a transaction signed by the de-duplicated signers over the budgeted three-instruction message paid by the payer reaches the executor |
| LookupTables.RecentSlot | client/client-sys/src/address_lookup_table.rs:91 | the slot of the second slot-hashes entry, or the sysvar read's error |
| LookupTables.ProcessCreateLookupTable | client/client-sys/src/address_lookup_table.rs:83-101 | the slot-hashes read error is returned; otherwise the create instruction for the recent slot is submitted signed by the payer alone, and the derived table address is returned exactly when it is processed |
| LookupTables.ProcessExtendLookupTable | client/client-sys/src/address_lookup_table.rs:103-129 | the extend, naming the payer as funder, is submitted signed by the payer and, when distinct, the authority; a submission error is returned, and success drops the output |
| LookupTables.ProcessDeactivateLookupTable | client/client-sys/src/address_lookup_table.rs:131-147 | the deactivate is submitted signed by payer and authority; a submission error is returned, and success drops the output |
| LookupTables.ProcessCloseLookupTable | client/client-sys/src/address_lookup_table.rs:149-167 | the close, sending the balance to the recipient, is submitted signed by payer and authority; a submission error is returned, and success drops the output |
| LookupTables.LifecycleAnswersProcessing | client/client-sys/src/address_lookup_table.rs:83-167 | each lifecycle call answers the compile error, else the executor's error, else success (the address for `create`, nothing for the others); `create` is built for the slot of the second slot-hashes entry and signed by the payer alone, `extend` by the de-duplicated pair, `deactivate` and `close` by both |
| LookupTables.LifecycleIgnoresExecutorOnCompileError | client/client-sys/src/address_lookup_table.rs:131-147 | when the deactivate does not compile, the answer does not depend on the executor: nothing is submitted |
| TokenState.MintRoundTrip | client/client-spl/src/token.rs:355-367 | the initialised mint `set_mint` packs always unpacks to itself, so its unwrap cannot fail; an uninitialised mint never unpacks |
| TokenState.TokenAccountRoundTrip | client/client-spl/src/token.rs:388-402 | the initialised token account `set_token_account` packs always unpacks to itself; an uninitialised one never unpacks |
| TokenState.DecodeMint | client/client-spl/src/token.rs:23-28 | a mint decodes exactly when its `Pack` layout unpacks |
| TokenState.DecodeTokenAccount | client/client-spl/src/token.rs:37-45 | a token account decodes exactly when its `Pack` layout unpacks |
| TokenState.NativeFunding | client/client-spl/src/token.rs:378-386 | a wrapped-SOL account is funded with the reserve plus its amount and records the reserve; any other holds only the reserve |
| TokenState.FreshTokenAccount | client/client-spl/src/token.rs:388-397 | a set token account is initialised, with no delegate, nothing delegated and no close authority |
| Tokens.GetMint | client/client-spl/src/token.rs:23-28 | nothing for a missing account, the unpacked mint, or `AccountDidNotDeserialize` |
| Tokens.TryGetMint | client/client-spl/src/token.rs:30-35 | a missing mint is `AccountNotFound` |
| Tokens.GetTokenAccount | client/client-spl/src/token.rs:37-45 | nothing for a missing account, the unpacked token account, or `AccountDidNotDeserialize` |
| Tokens.TryGetTokenAccount | client/client-spl/src/token.rs:47-55 | a missing token account is `AccountNotFound` |
| Tokens.GetTokenAccountBalance | client/client-spl/src/token.rs:57-63 | the token amount of the decoded account |
| Tokens.TryGetTokenAccountBalance | client/client-spl/src/token.rs:65-71 | the token amount, or why the account could not be read |
| Tokens.GetMintSupply | client/client-spl/src/token.rs:99-104 | the supply of the decoded mint |
| Tokens.TryGetMintSupply | client/client-spl/src/token.rs:106-111 | the supply, or why the mint could not be read |
| Tokens.BalanceAndSupplyReadsAgree | client/client-spl/src/token.rs:57-111 | the failing and non-failing balance and supply reads return the same figures, and a missing account is `AccountNotFound` |
| Tokens.OwnerFilters | client/client-spl/src/token.rs:73-97 | the size and owner-offset filters admit a decodable token account exactly when it belongs to the queried owner |
| Tokens.GetTokenAccountsForOwner | client/client-spl/src/token.rs:73-97 | every scanned account of the token program unpacked in scan order, scan errors unchanged |
| Tokens.BuildCreateAndInitializeMint | client/client-spl/src/token.rs:180-203 | a rent read error is returned; otherwise a funded account creation of the mint size owned by the program, then the mint initialisation |
| Tokens.BuildCreateAndInitializeTokenAccount | client/client-spl/src/token.rs:205-233 | a rent read error is returned; otherwise a funded account creation of the token-account size, then its initialisation |
| Tokens.Send | client/client-spl/src/token.rs:239-335 | a blockhash, compile, payer-key, other-key and signing error is returned in that order; otherwise the executor processes the transaction signed by the payer and, when its key differs, the other signer |
| Tokens.ProcessCreateAndInitializeMint | client/client-spl/src/token.rs:239-261 | the built instructions signed by payer and mint, the build error otherwise |
| Tokens.ProcessCreateAndInitializeTokenAccount | client/client-spl/src/token.rs:263-283 | the built instructions signed by payer and account, the build error otherwise |
| Tokens.ProcessMintTo | client/client-spl/src/token.rs:285-300 | the compile-and-process of exactly one `mint_to` under the token program, paid by the payer and signed by payer and mint authority, its compile error returned before anything is processed |
| Tokens.ProcessTransferToken | client/client-spl/src/token.rs:302-317 | the compile-and-process of exactly one unchecked `transfer` under the token program, signed by payer and authority, its compile error returned before anything is processed |
| Tokens.ProcessWrapNative | client/client-spl/src/token.rs:319-335 | the compile-and-process of a system transfer into the destination followed by a native sync under the token program, signed by payer and source, its compile error returned before anything is processed |
| Tokens.SetMintOwnedBy | client/client-spl/src/token.rs:341-368 | only the key is written, with a rent-exempt initialised mint of the given fields, and the returned account is that mint |
| Tokens.SetTokenAccountOwnedBy | client/client-spl/src/token.rs:370-403 | only the key is written, with a fresh token account whose balance and reserve follow the native-mint rule |
| Tokens.SetMint | client/client-spl/src/token.rs:341-368 | the SPL mint is owned by the token program |
| Tokens.SetTokenAccount | client/client-spl/src/token.rs:370-403 | the SPL token account is owned by the token program |
| Tokens.SetThenGetTokenAccount | client/client-spl/src/token.rs:370-403 | a set token account reads back through the typed getter as exactly the account set |
| Tokens.SetThenGetMint | client/client-spl/src/token.rs:341-368 | a set mint reads back through the typed getter as exactly the mint set |
| Tokens.SendSignerKeysAreExactAndDistinct | client/client-spl/src/token.rs:239-335 | sending is compiling then processing, and the signing keys are exactly the payer's and the other signer's, none repeated, the payer's first |
| Tokens.CreateMintMatchesSetMint | client/client-spl/src/token.rs:239-261 | given agreeing rent, the created mint account has the lamports, data length and owner of the one `set_mint` stores, and is initialised with its authorities and decimals |
| Tokens.CreateTokenAccountMatchesSetTokenAccount | client/client-spl/src/token.rs:263-283 | given agreeing rent, the created token account has the lamports, data length and owner of the empty one `set_token_account` stores, and is initialised for its mint and owner |
| Tokens.SplProcessorsReadNoAccounts | client/client-spl/src/token.rs:285-335 | the SPL mint, transfer and wrap processors read no account: any backend with the same blockhash submits the same transaction |
| TokenInterface.GetMint | client/client-spl/src/token_interface.rs:45-50 | read errors unchanged, nothing for a missing account, the key, account and interface-decoded mint for a decodable one, else `AccountDidNotDeserialize` naming the key |
| TokenInterface.TryGetMint | client/client-spl/src/token_interface.rs:52-57 | a missing mint is `AccountNotFound` |
| TokenInterface.GetTokenAccount | client/client-spl/src/token_interface.rs:59-67 | read errors unchanged, nothing for a missing account, the key, account and interface-decoded token account for a decodable one, else `AccountDidNotDeserialize` naming the key |
| TokenInterface.TryGetTokenAccount | client/client-spl/src/token_interface.rs:69-77 | a missing token account is `AccountNotFound` |
| TokenInterface.GetTokenProgramId | client/client-spl/src/token_interface.rs:29-35 | the owner of the decoded mint account |
| TokenInterface.TryGetTokenProgramId | client/client-spl/src/token_interface.rs:37-43 | the mint's owning program, or why the mint could not be read |
| TokenInterface.GetTokenAccountBalance | client/client-spl/src/token_interface.rs:79-85 | the token amount of the decoded account |
| TokenInterface.TryGetTokenAccountBalance | client/client-spl/src/token_interface.rs:87-93 | the token amount, or why the account could not be read |
| TokenInterface.GetMintSupply | client/client-spl/src/token_interface.rs:109-114 | the supply of the decoded mint |
| TokenInterface.TryGetMintSupply | client/client-spl/src/token_interface.rs:116-121 | the supply, or why the mint could not be read |
| TokenInterface.GetMints | client/client-spl/src/token_interface.rs:95-100 | read errors unchanged; success exactly when every present mint decodes, keeping missing entries missing and pairing each present one with its key; otherwise the error names the first present key that does not decode |
| TokenInterface.TryGetMints | client/client-spl/src/token_interface.rs:102-107 | read errors unchanged; the first present mint that does not decode is reported before anything else; then the first missing key's `AccountNotFound`; success exactly when every mint is present and decodes, each paired with its key in order |
| TokenInterface.InterfaceReadsAgreeOnBaseLayout | client/client-spl/src/token_interface.rs:25-77 | on an account of exactly the base size, the interface reads answer what the SPL token reads answer |
| TokenInterface.ProcessCreateAndInitializeMint | client/client-spl/src/token_interface.rs:272-296 | the mint is created under the given program, signed by payer and mint |
| TokenInterface.ProcessCreateAndInitializeTokenAccount | client/client-spl/src/token_interface.rs:298-320 | the token account is created under the given program, signed by payer and account |
| TokenInterface.ProcessMintTo | client/client-spl/src/token_interface.rs:322-345 | the token account is read first; the `mint_to` goes to its owning program and its mint, or the read error is returned |
| TokenInterface.ProcessTransferChecked | client/client-spl/src/token_interface.rs:347-376 | the source token account and then its mint are read, either failure returned; the checked transfer names that mint, carries its decimals and goes to the program owning the mint |
| TokenInterface.ProcessWrapNative | client/client-spl/src/token_interface.rs:378-397 | the destination is read, then the program owning the destination's mint, either failure returned; the sync goes to that mint's program, not the destination's |
| TokenInterface.SetMint | client/client-spl/src/token_interface.rs:403-431 | the mint is stored under the given program, initialised |
| TokenInterface.SetTokenAccount | client/client-spl/src/token_interface.rs:433-467 | the account is stored under the given program, and records a native reserve exactly for the SPL native mint |
| TokenInterface.MintToTargetsStoredProgram | client/client-spl/src/token_interface.rs:322-345 | a token account set under a program is minted to through that program for the mint it records; under the token program this is the SPL processor |
| TokenInterface.CreateMintMatchesSetMintUnder | client/client-spl/src/token_interface.rs:272-296 | given agreeing rent, the created mint account has the lamports, data length and owner of the one the interface `set_mint` stores under the same program; under the token program it is the SPL processor |
| TokenInterface.CreateTokenAccountMatchesSetTokenAccountUnder | client/client-spl/src/token_interface.rs:298-320 | given agreeing rent, the created token account matches the empty one the interface `set_token_account` stores under the same program; under the token program it is the SPL processor |
| TokenInterface.AccountThenMint | client/client-spl/src/token_interface.rs:403-467 | setting a token account and then its mint leaves each key owned by the program it was set under |
| TokenInterface.TransferCheckedUsesStoredMint | client/client-spl/src/token_interface.rs:347-376 | after a token account and its mint are set, the checked transfer goes to the mint's program with the stored decimals, whatever program owns the source token account |
| TokenInterface.WrapNativeSyncsThroughMintProgram | client/client-spl/src/token_interface.rs:378-397 | after a token account and its mint are set, the native sync goes to the mint's program; under the token program it is the SPL processor |

## Left out

- `client/client-api/src/base_impls/banks_client_nonblocking.rs` is left out. It is the asynchronous test-service backend, which runs the blocking calls on a shared runtime. `solana/banks-client-blocking/src/lib.rs`, the blocking wrapper around the asynchronous service client, is left out too. Both are concurrency plumbing; the service's replies are parameters of the blocking backend, which is modelled.
- `client/client-sys/src/remote.rs` is left out. It copies an account from a remote node given by URL, which is network access.
- `client/client-api/src/internals/fee.rs` is left out. Its prioritization fee comes from the runtime's compute-budget processor, which is foreign code not part of this model.
- `client/client-spl/src/associated_token.rs` and `associated_token_interface.rs` are left out. Their addresses are program-derived, which needs SHA-256 and the curve check.
- `client/client-api/src/client.rs` and the `lib.rs` files are left out: they hold only a marker trait and re-exports.
- Codecs are parameters, not definitions: bincode, borsh, Anchor, bytemuck, base58 and base64. Each operation takes the decoder it uses as a function, and the lemmas state the round-trip they need as a precondition.
- The token-2022 extension layouts are not modelled. The interface codec is a parameter constrained only to agree with the SPL layout on data of exactly the base size.
- `Rent::minimum_balance` uses floating point. It is a function field of the rent parameters.
- Address lookup table internals beyond index bounds are not modelled: activation, deactivation window and slot checks. `Lookup` resolves indexes against a decoded table at the current slot.
- RpcClientBackend.AwaitConfirmation: the sleep between polls is not modelled; only the number of polls and the result are. The spinner shown while a transaction is sent is not modelled either.
- Signature cryptography and keypair generation are not modelled. Signers are records of their keys and signatures, and `NewWallet` takes the fresh key as a parameter.
- Instruction encoders of the token, system and lookup table programs are parameters. The Rust client calls both the `spl_token` and the `spl_token_2022` encoders; one `TokenInstructions` record, carried by one `TokenClient`, stands for both, and the program id each instruction is built for is an argument of the encoder. The encoders' own `unwrap`s (client/client-spl/src/token.rs:131, 141, 159, 177, 229, 331 and client/client-spl/src/token_interface.rs:142, 158, 177, 202, 262, 393) disappear because the encoders are total functions.
- Panics become preconditions: each member below requires what keeps the corresponding site in the Rust client from panicking, and promises nothing for inputs that would panic. Paths are relative to `client/`.
  - `client-api/src/internals/sanitize.rs:34-36`, the `pop().unwrap()` of the slot-hashes entry: `Sanitize.LoadAddresses` requires a non-empty multi-read reply.
  - `client-api/src/exts/getter.rs:49-50` and `58-59`, the length `assert_eq!` and array conversion: `GetterExt.GetMultipleAccountsArray` and `GetterExt.TryGetMultipleAccountsArray` require one reply per key.
  - `client-api/src/base_impls/rpc_client.rs:86`, the multi-read length `assert_eq!`: the subset type `RpcClientBackend.RpcClient` admits only nodes that answer one entry per key. This is an assumption on every node reply, not a checked fact.
  - `rpc_client.rs:108`, `signatures[0]`: `RpcClientBackend.ProcessForSignature` and `RpcClientBackend.ProcessForOutput` require a signature.
  - `rpc_client.rs:130-131`, the preflight `unwrap`s: `RpcClientBackend.ProcessForSignature` requires the preflight simulation's units, and its error when no units were consumed.
  - `rpc_client.rs:150`, the confirmed-signature `assert_eq!`: `RpcClientBackend.ProcessForSignature` requires the confirmation to name the sent signature.
  - `rpc_client.rs:276`, the `panic!` on an unexpected transaction format: `RpcClientBackend.ConvertProcessed` and `RpcClientBackend.ProcessForOutput` require a convertible confirmed transaction.
  - `rpc_client.rs:245-246`, the simulation `unwrap`s: `RpcClientBackend.SimulateForEffect` and `RpcClientBackend.SimulateForOutput` require a simulatable reply.
  - `rpc_client.rs:324`, `332` and `397-398`, the simulated accounts, their count, logs and units: `RpcClientBackend.ConvertSimulated` requires a convertible simulation.
  - `rpc_client.rs:285-286`, `338` and `382-383`, the base58, base64 and account decodes: the model takes the decoded values, since codecs are parameters.
  - `client-api/src/base_impls/banks_client_blocking.rs:55`, the missing-blockhash `expect`: `BanksClientBackend.GetLatestBlockhash` requires a blockhash in a successful reply.
  - `banks_client_blocking.rs:62`, `signatures[0]`: `BanksClientBackend.ProcessForSignature` requires a signature.
  - `banks_client_blocking.rs:79` and `84`, the result `unwrap`s: `BanksClientBackend.ProcessForOutput` requires them to hold.
  - `banks_client_blocking.rs:117`, `124`, `127` and `132`, the simulation `expect`s and `unwrap`s: `BanksClientBackend.SimulateForOutput` requires them to hold.
  - `client-api/src/base_impls/bank.rs:142`, the re-verification `expect`: the re-verification is not modelled; `BankBackend.BankProcessTransaction` takes the blockhash's fee rate as a parameter.
  - `bank.rs:151`, the fee-rate `expect`: `BankBackend.BankProcessTransaction` requires a fee rate for an executed transaction.
  - `bank.rs:188` and `195`, the simulation `unwrap`s: `BankBackend.BankSimulateEffect` and `BankBackend.BankSimulateOutput` require them to hold.
  - `bank.rs:230`, `238` and `246`, the snapshot count, the snapshot lookup and the program re-read: `BankBackend.NormalisePostAccount`, `BankBackend.BankPairs`, `BankBackend.BankPostAccounts`, `BankBackend.BankSimulateEffect` and `BankBackend.BankSimulateOutput` require a snapshot that covers every account key, with every executable post account stored.
  - `client-api/src/execution.rs:36`, `signatures[0]`: `Execution.ExecutionOutput.Signature` requires a signature.
  - `client-sys/src/program.rs:35-40`, the header slices and the loader `assert!`: `Programs.GetProgram` and `Programs.TryGetProgram` require a readable program account.
  - `client-anchor/src/account.rs:175`, the serialisation `unwrap`: `AnchorAccounts.ReleaseSerializable` requires the value to serialise.
  - `client-anchor/src/account.rs:208`, the data slice: `AnchorAccounts.ReleaseLoadable` requires the data to hold the discriminator and the value.
  - `client-anchor/src/setter.rs:46`, the serialisation `unwrap`: `AnchorSetter.SetAnchorAccount` requires the value to serialise.
  - `client-sys/src/address_lookup_table.rs:71`, the table-decode `unwrap` in the authority scan: `LookupTables.GetAddressLookupTablesForAuthority` requires every scanned table to decode.
  - `client-sys/src/address_lookup_table.rs:91`, the second slot-hashes entry: `LookupTables.RecentSlot` and `LookupTables.ProcessCreateLookupTable` require two entries.
  - `client-spl/src/token.rs:91`, the token-account `unwrap` in the owner scan: `Tokens.GetTokenAccountsForOwner` requires every scanned account to unpack.
  - `client-spl/src/token.rs:367` and `402`, and `client-spl/src/token_interface.rs:430` and `466`, the read-back `unwrap`s of the setters: these are not preconditions. `Tokens.SetMintOwnedBy`, `Tokens.SetTokenAccountOwnedBy`, `TokenInterface.SetMint` and `TokenInterface.SetTokenAccount` prove they cannot fail.
- Tokens.SetTokenAccountOwnedBy: the unchecked `rent_exempt + amount` is required to fit in 64 bits rather than modelled as an overflow.
- BankBackend.BankProcessTransaction: the bank's fee calculation is a function parameter `feeFor` of the fee rate, not the bank's fee schedule.
- Errors.TranslationsAreInjective: the remote error's `request` field is not modelled, so two remote errors that differ only in the request they came from are not distinguished; the lemma states injectivity over distinct error kinds and payloads.

=== FILE: anchor_account.dfy ===
/** A decoded program account of an Anchor program, and its write-back
    guards (client/client-anchor/src/account.rs). Anchor's account
    (de)serialisation and `bytemuck`'s zero-copy view are codecs, given as
    functions. */
module AnchorAccounts {
  import opened Results
  import opened Ledger

  /** A failed Anchor decode; its details are discarded by every caller. */
  datatype AnchorError = AnchorError(code: nat)

  /** The key, the raw account and the value decoded from its data. */
  datatype AnchorAccount<T> = AnchorAccount(key: Pubkey, account: Account, data: T) {

    /** `as_parts` and `into_parts`. */
    function Parts(): (Pubkey, Account, T)
    {
      (key, account, data)
    }

    /** `into_account` and `From<AnchorAccount<T>> for Account`. */
    function IntoAccount(): Account
    {
      account
    }

    /** `into_data` and `Deref`. */
    function IntoData(): T
    {
      data
    }

    /** `Key::key`. */
    function Key(): Pubkey
    {
      key
    }

    /** The `ReadableAccount` accessors read the inner account. */
    function Lamports(): U64
    {
      account.lamports
    }

    function Data(): seq<Byte>
    {
      account.data
    }

    function Owner(): Pubkey
    {
      account.owner
    }

    function Executable(): bool
    {
      account.executable
    }

    function RentEpoch(): U64
    {
      account.rentEpoch
    }
  }

  /** `try_from_account` (and both `TryFrom` conversions): decodes the
      account's data; the key and the account are kept as given. */
  function TryFromAccount<T>(key: Pubkey, account: Account, deserialize: seq<Byte> -> Result<T, AnchorError>)
    : (r: Result<AnchorAccount<T>, AnchorError>)
    ensures r.Ok? <==> deserialize(account.data).Ok?
    ensures r.Ok? ==> r.value == AnchorAccount(key, account, deserialize(account.data).value)
    ensures r.Err? ==> r.error == deserialize(account.data).error
  {
    var data :- deserialize(account.data);
    Ok(AnchorAccount(key, account, data))
  }

  /** A mutable guard over an account's value (`serializable_mut` and
      `loadable_mut`): it reads and replaces the account's own value and
      writes it back into the data when released. */
  datatype Guard<T> = Guard(key: Pubkey, account: Account, data: T) {

    function Key(): Pubkey
    {
      key
    }

    /** `Deref`: the guarded value. */
    function Get(): T
    {
      data
    }

    /** `DerefMut`: replaces the guarded value. */
    function Set(value: T): (g: Guard<T>)
      ensures g.key == key && g.account == account && g.data == value
    {
      Guard(key, account, value)
    }
  }

  function AcquireGuard<T>(a: AnchorAccount<T>): (g: Guard<T>)
    ensures g.key == a.key && g.account == a.account && g.data == a.data
  {
    Guard(a.key, a.account, a.data)
  }

  /** Releasing a `SerializableMut`: the account data is cleared and
      replaced by the serialised value, everything else kept. The Rust client
      unwraps the serialisation, so it must succeed. */
  function ReleaseSerializable<T>(g: Guard<T>, serialize: T -> Option<seq<Byte>>): (a: AnchorAccount<T>)
    requires serialize(g.data).Some?
    ensures a.key == g.key && a.data == g.data
    ensures a.account.data == serialize(g.data).value
    ensures a.account == g.account.(data := a.account.data)
  {
    AnchorAccount(g.key, g.account.(data := serialize(g.data).value), g.data)
  }

  /** Releasing a `LoadableMut`: the value's bytes overwrite data bytes
      `[8, 8 + size)` in place; the Rust client slices there, so the data must
      be long enough, and the value's bytes are exactly `size` long. */
  function ReleaseLoadable<T>(g: Guard<T>, bytesOf: T -> seq<Byte>, size: nat): (a: AnchorAccount<T>)
    requires |bytesOf(g.data)| == size && 8 + size <= |g.account.data|
    ensures a.key == g.key && a.data == g.data
    ensures |a.account.data| == |g.account.data|
    ensures a.account.data[..8] == g.account.data[..8]
    ensures a.account.data[8..8 + size] == bytesOf(g.data)
    ensures a.account.data[8 + size..] == g.account.data[8 + size..]
    ensures a.account == g.account.(data := a.account.data)
  {
    var before := g.account.data;
    var written := before[..8] + bytesOf(g.data) + before[8 + size..];
    assert written[..8] == before[..8];
    assert written[8..8 + size] == bytesOf(g.data);
    assert written[8 + size..] == before[8 + size..];
    AnchorAccount(g.key, g.account.(data := written), g.data)
  }

  /** An account decoded from `(key, account)` reports that key, that
      account and the decoded value through every accessor, and its guard
      reads the same value. */
  lemma AccessorsReadStoredParts<T>(key: Pubkey, account: Account, deserialize: seq<Byte> -> Result<T, AnchorError>)
    requires deserialize(account.data).Ok?
    ensures var a := TryFromAccount(key, account, deserialize).value;
            && a.Parts() == (key, account, deserialize(account.data).value)
            && a.Key() == key && a.IntoAccount() == account && a.IntoData() == deserialize(account.data).value
            && a.Lamports() == account.lamports && a.Data() == account.data && a.Owner() == account.owner
            && a.Executable() == account.executable && a.RentEpoch() == account.rentEpoch
            && AcquireGuard(a).Key() == key && AcquireGuard(a).Get() == a.IntoData()
  {
  }

  /** A value written back through `SerializableMut` decodes to itself
      when the codec round-trips. */
  lemma SerializableRoundTrip<T>(a: AnchorAccount<T>, value: T, serialize: T -> Option<seq<Byte>>,
                                 deserialize: seq<Byte> -> Result<T, AnchorError>)
    requires serialize(value).Some?
    requires deserialize(serialize(value).value) == Ok(value)
    ensures var released := ReleaseSerializable(AcquireGuard(a).Set(value), serialize);
            TryFromAccount(a.key, released.account, deserialize) == Ok(released)
  {
  }

  /** Releasing a `LoadableMut` twice with the same value changes nothing
      the second time. */
  lemma LoadableIdempotent<T>(a: AnchorAccount<T>, value: T, bytesOf: T -> seq<Byte>, size: nat)
    requires |bytesOf(value)| == size && 8 + size <= |a.account.data|
    ensures var once := ReleaseLoadable(AcquireGuard(a).Set(value), bytesOf, size);
            ReleaseLoadable(AcquireGuard(once), bytesOf, size) == once
  {
    var once := ReleaseLoadable(AcquireGuard(a).Set(value), bytesOf, size);
    var twice := ReleaseLoadable(AcquireGuard(once), bytesOf, size);
    var d := once.account.data;
    assert d == d[..8] + d[8..8 + size] + d[8 + size..];
    assert twice.account.data == d;
  }
}

=== FILE: anchor_getter.dfy ===
/** Typed reads of Anchor accounts through any reading backend
    (client/client-anchor/src/getter.rs): every decode failure becomes
    `AccountDidNotDeserialize` of the offending key. */
module AnchorGetter {
  import opened Results
  import opened Ledger
  import opened Errors
  import opened Capabilities
  import opened GetterExt
  import opened AnchorAccounts

  /** Decoding one fetched account, the error naming its key. */
  function Decode<T>(key: Pubkey, account: Account, deserialize: seq<Byte> -> Result<T, AnchorError>)
    : (r: ClientResult<AnchorAccount<T>>)
    ensures r.Ok? <==> deserialize(account.data).Ok?
    ensures r.Ok? ==> r.value == AnchorAccount(key, account, deserialize(account.data).value)
    ensures r.Err? ==> r.error == ClientError.AccountDidNotDeserialize(key)
  {
    TryFromAccount(key, account, deserialize).MapErr(_ => ClientError.AccountDidNotDeserialize(key))
  }

  /** `get_anchor_account`: nothing for a missing account, the decoded
      account otherwise, or the decode failure. */
  function GetAnchorAccount<T>(w: Wrapped<Getter>, key: Pubkey, deserialize: seq<Byte> -> Result<T, AnchorError>)
    : (r: ClientResult<Option<AnchorAccount<T>>>)
    ensures w.Core().getAccount(key).Err? ==> r == Err(w.Core().getAccount(key).error)
    ensures w.Core().getAccount(key) == Ok(None) ==> r == Ok(None)
    ensures w.Core().getAccount(key).Ok? && w.Core().getAccount(key).value.Some? ==>
              var account := w.Core().getAccount(key).value.value;
              && (deserialize(account.data).Err? ==> r == Err(ClientError.AccountDidNotDeserialize(key)))
              && (deserialize(account.data).Ok? ==> r == Ok(Some(AnchorAccount(key, account, deserialize(account.data).value))))
  {
    var found :- GetAccount(w, key);
    match found
    case None => Ok(None)
    case Some(account) =>
      var decoded :- Decode(key, account, deserialize);
      Ok(Some(decoded))
  }

  /** `try_get_anchor_account`: a missing account is `AccountNotFound`. */
  function TryGetAnchorAccount<T>(w: Wrapped<Getter>, key: Pubkey, deserialize: seq<Byte> -> Result<T, AnchorError>)
    : (r: ClientResult<AnchorAccount<T>>)
    ensures var g := GetAnchorAccount(w, key, deserialize);
            && (g.Err? ==> r == Err(g.error))
            && (g == Ok(None) ==> r == Err(ClientError.AccountNotFound(key)))
            && (g.Ok? && g.value.Some? ==> r == Ok(g.value.value))
  {
    var found :- GetAnchorAccount(w, key, deserialize);
    found.OkOr(ClientError.AccountNotFound(key))
  }

  /** The typed read fails exactly where the untyped `try_get_account`
      fails, or where the data does not decode. */
  lemma TryGetAnchorAccountRefinesTryGetAccount<T>(w: Wrapped<Getter>, key: Pubkey, deserialize: seq<Byte> -> Result<T, AnchorError>)
    ensures var typed := TryGetAnchorAccount(w, key, deserialize);
            var untyped := TryGetAccount(w, key);
            && (untyped.Err? ==> typed == Err(untyped.error))
            && (untyped.Ok? ==> typed == Decode(key, untyped.value, deserialize))
  {
  }

  /** Decodes keyed accounts in order; the first failure aborts with its key. */
  function DecodeAll<T>(entries: seq<(Pubkey, Account)>, deserialize: seq<Byte> -> Result<T, AnchorError>)
    : (r: ClientResult<seq<AnchorAccount<T>>>)
    ensures r.Ok? <==> forall i :: 0 <= i < |entries| ==> deserialize(entries[i].1.data).Ok?
    ensures r.Ok? ==> |r.value| == |entries| && forall i :: 0 <= i < |entries| ==>
                        r.value[i] == AnchorAccount(entries[i].0, entries[i].1, deserialize(entries[i].1.data).value)
    ensures r.Err? ==> exists i :: 0 <= i < |entries| && deserialize(entries[i].1.data).Err?
                                   && r.error == ClientError.AccountDidNotDeserialize(entries[i].0)
                                   && forall j :: 0 <= j < i ==> deserialize(entries[j].1.data).Ok?
    decreases |entries|
  {
    if |entries| == 0 then Ok([])
    else
      var first :- Decode(entries[0].0, entries[0].1, deserialize);
      var rest :- DecodeAll(entries[1..], deserialize);
      Ok([first] + rest)
  }

  /** `get_anchor_program_accounts`: the scan's accounts decoded in scan
      order. */
  function GetAnchorProgramAccounts<T>(w: Wrapped<Getter>, programId: Pubkey, filters: Option<seq<ProgramAccountsFilter>>,
                                       deserialize: seq<Byte> -> Result<T, AnchorError>)
    : (r: ClientResult<seq<AnchorAccount<T>>>)
    ensures var scan := w.Core().getProgramAccounts(programId, filters);
            && (scan.Err? ==> r == Err(scan.error))
            && (scan.Ok? ==> r == DecodeAll(scan.value, deserialize))
  {
    var entries :- GetProgramAccounts(w, programId, filters);
    DecodeAll(entries, deserialize)
  }

  /** Decodes the zipped entries, keeping missing ones missing; the first
      present entry that does not decode aborts with its key. */
  function DecodePresent<T>(z: seq<(Pubkey, Option<Account>)>, deserialize: seq<Byte> -> Result<T, AnchorError>)
    : (r: ClientResult<seq<Option<AnchorAccount<T>>>>)
    ensures r.Ok? <==> forall i :: 0 <= i < |z| && z[i].1.Some? ==> deserialize(z[i].1.value.data).Ok?
    ensures r.Ok? ==> |r.value| == |z| && forall i :: 0 <= i < |z| ==>
                        && (z[i].1.None? ==> r.value[i].None?)
                        && (z[i].1.Some? ==> r.value[i] == Some(AnchorAccount(z[i].0, z[i].1.value, deserialize(z[i].1.value.data).value)))
    ensures r.Err? ==> exists i :: 0 <= i < |z| && z[i].1.Some? && deserialize(z[i].1.value.data).Err?
                                   && r.error == ClientError.AccountDidNotDeserialize(z[i].0)
                                   && forall j :: 0 <= j < i && z[j].1.Some? ==> deserialize(z[j].1.value.data).Ok?
    decreases |z|
  {
    if |z| == 0 then Ok([])
    else
      var first :- match z[0].1
        case None => Ok(None)
        case Some(account) =>
          (var decoded :- Decode(z[0].0, account, deserialize); Ok(Some(decoded)));
      var rest :- DecodePresent(z[1..], deserialize);
      Ok([first] + rest)
  }

  /** `get_anchor_multiple_accounts`: the multi-read, each present account
      decoded, in key order. */
  function GetAnchorMultipleAccounts<T>(w: Wrapped<Getter>, keys: seq<Pubkey>, deserialize: seq<Byte> -> Result<T, AnchorError>)
    : (r: ClientResult<seq<Option<AnchorAccount<T>>>>)
    ensures var reply := w.Core().getMultipleAccounts(keys);
            && (reply.Err? ==> r == Err(reply.error))
            && (reply.Ok? ==> r == DecodePresent(Zip(keys, reply.value), deserialize))
  {
    var accounts :- GetMultipleAccounts(w, keys);
    DecodePresent(Zip(keys, accounts), deserialize)
  }

  /** `try_get_anchor_multiple_accounts`: every account decoded, or
      `AccountNotFound` for the first missing key. */
  function TryGetAnchorMultipleAccounts<T>(w: Wrapped<Getter>, keys: seq<Pubkey>, deserialize: seq<Byte> -> Result<T, AnchorError>)
    : (r: ClientResult<seq<AnchorAccount<T>>>)
    ensures var g := GetAnchorMultipleAccounts(w, keys, deserialize);
            && (g.Err? ==> r == Err(g.error))
            && (g.Ok? ==> r == CollectPresent(Zip(keys, g.value)))
  {
    var found :- GetAnchorMultipleAccounts(w, keys, deserialize);
    CollectPresent(Zip(keys, found))
  }

  /** When the backend answers one entry per key and every account
      decodes, the typed all-or-first-missing read fails exactly where the
      untyped one does, with the same error, and otherwise returns the
      accounts it returns, decoded. */
  lemma TryGetAnchorMultipleAgreesWithUntyped<T>(w: Wrapped<Getter>, keys: seq<Pubkey>, deserialize: seq<Byte> -> Result<T, AnchorError>)
    requires w.Core().getMultipleAccounts(keys).Ok? && |w.Core().getMultipleAccounts(keys).value| == |keys|
    requires var reply := w.Core().getMultipleAccounts(keys).value;
             forall i :: 0 <= i < |keys| && reply[i].Some? ==> deserialize(reply[i].value.data).Ok?
    ensures var typed := TryGetAnchorMultipleAccounts(w, keys, deserialize);
            var untyped := TryGetMultipleAccounts(w, keys);
            && (typed.Ok? <==> untyped.Ok?)
            && (typed.Err? ==> typed.error == untyped.error)
            && (typed.Ok? ==> forall i :: 0 <= i < |keys| ==>
                  typed.value[i] == AnchorAccount(keys[i], untyped.value[i], deserialize(untyped.value[i].data).value))
  {
    var reply := w.Core().getMultipleAccounts(keys).value;
    var z := Zip(keys, reply);
    var found := DecodePresent(z, deserialize).value;
    var zf := Zip(keys, found);
    forall i | 0 <= i < |keys|
      ensures zf[i].0 == z[i].0 && (zf[i].1.None? <==> z[i].1.None?)
    {
      assert z[i] == (keys[i], reply[i]);
    }
    CollectPresentSamePattern(zf, z);
    var typed := TryGetAnchorMultipleAccounts(w, keys, deserialize);
    var untyped := TryGetMultipleAccounts(w, keys);
    if typed.Ok? {
      forall i | 0 <= i < |keys|
        ensures typed.value[i] == AnchorAccount(keys[i], untyped.value[i], deserialize(untyped.value[i].data).value)
      {
        assert zf[i].1 == Some(typed.value[i]);
        assert z[i].1 == Some(untyped.value[i]);
      }
    }
  }

  /** Two zipped lists with the same keys and the same missing entries
      collect alike: both succeed, or both fail on the same key. */
  lemma {:induction false} CollectPresentSamePattern<A, B>(za: seq<(Pubkey, Option<A>)>, zb: seq<(Pubkey, Option<B>)>)
    requires |za| == |zb|
    requires forall i :: 0 <= i < |za| ==> za[i].0 == zb[i].0 && (za[i].1.None? <==> zb[i].1.None?)
    ensures CollectPresent(za).Ok? <==> CollectPresent(zb).Ok?
    ensures CollectPresent(za).Err? ==> CollectPresent(za).error == CollectPresent(zb).error
    decreases |za|
  {
    if |za| > 0 && za[0].1.Some? {
      CollectPresentSamePattern(za[1..], zb[1..]);
    }
  }
}

=== FILE: anchor_setter.dfy ===
/** Writing Anchor accounts into a writable ledger
    (client/client-anchor/src/setter.rs). The account is funded with the
    backend's rent-exemption minimum for its data length. Anchor's
    discriminator, serialisation and `bytemuck`'s byte view are codecs,
    given as values and functions. */
module AnchorSetter {
  import opened Results
  import opened Ledger
  import opened Capabilities
  import opened AnchorAccounts

  /** The account both setters write: rent-exempt, owned by the given
      owner or else the type's owner, not executable, never collected. */
  function RentExemptAccount(h: Wrapped<RentHolder>, data: seq<Byte>, owner: Option<Pubkey>, typeOwner: Pubkey): (a: Account)
    ensures a.data == data
    ensures a.lamports == MinimumBalanceForRentExemption(h, |data|)
    ensures owner.Some? ==> a.owner == owner.value
    ensures owner.None? ==> a.owner == typeOwner
    ensures !a.executable && a.rentEpoch == U64Max
  {
    Account(MinimumBalanceForRentExemption(h, |data|), data, if owner.Some? then owner.value else typeOwner, false, U64Max)
  }

  /** `set_anchor_account_zero_copy`: the data is the type's discriminator
      followed by the value's raw bytes. */
  function SetAnchorAccountZeroCopy<T>(w: Wrapped<LedgerState>, h: Wrapped<RentHolder>, key: Pubkey, value: T,
                                       discriminator: seq<Byte>, bytesOf: T -> seq<Byte>,
                                       owner: Option<Pubkey>, typeOwner: Pubkey): (r: Wrapped<LedgerState>)
    requires w.Mutable()
    ensures r.Layers() == w.Layers()
    ensures key in r.Core()
    ensures r.Core() == w.Core()[key := r.Core()[key]]
    ensures r.Core()[key] == RentExemptAccount(h, discriminator + bytesOf(value), owner, typeOwner)
  {
    SetAccount(w, key, RentExemptAccount(h, discriminator + bytesOf(value), owner, typeOwner))
  }

  /** `set_anchor_account`: the data is the value's Anchor serialisation,
      which the Rust client unwraps. */
  function SetAnchorAccount<T>(w: Wrapped<LedgerState>, h: Wrapped<RentHolder>, key: Pubkey, value: T,
                               serialize: T -> Option<seq<Byte>>, owner: Option<Pubkey>, typeOwner: Pubkey)
    : (r: Wrapped<LedgerState>)
    requires w.Mutable()
    requires serialize(value).Some?
    ensures r.Layers() == w.Layers()
    ensures key in r.Core()
    ensures r.Core() == w.Core()[key := r.Core()[key]]
    ensures r.Core()[key] == RentExemptAccount(h, serialize(value).value, owner, typeOwner)
  {
    SetAccount(w, key, RentExemptAccount(h, serialize(value).value, owner, typeOwner))
  }

  /** The written zero-copy account starts with the discriminator and
      holds the value's bytes after it; the value's bytes are found where
      `LoadableMut` writes them back. */
  lemma ZeroCopyLayout<T>(w: Wrapped<LedgerState>, h: Wrapped<RentHolder>, key: Pubkey, value: T,
                          bytesOf: T -> seq<Byte>, discriminator: seq<Byte>, owner: Option<Pubkey>, typeOwner: Pubkey)
    requires w.Mutable() && |discriminator| == 8
    ensures var data := SetAnchorAccountZeroCopy(w, h, key, value, discriminator, bytesOf, owner, typeOwner).Core()[key].data;
            && |data| == 8 + |bytesOf(value)|
            && data[..8] == discriminator
            && data[8..] == bytesOf(value)
  {
    var data := discriminator + bytesOf(value);
    assert data[..8] == discriminator;
    assert data[8..] == bytesOf(value);
  }

  /** An account written by `set_anchor_account` decodes back to the
      value whenever the codec round-trips, with no default-owner
      collection (non-executable, rent epoch `u64::MAX`) and a positive
      balance unless the backend overrides the minimum. */
  lemma SetAnchorAccountReadsBack<T>(w: Wrapped<LedgerState>, h: Wrapped<RentHolder>, key: Pubkey, value: T,
                                     serialize: T -> Option<seq<Byte>>, deserialize: seq<Byte> -> Result<T, AnchorError>,
                                     owner: Option<Pubkey>, typeOwner: Pubkey)
    requires w.Mutable()
    requires serialize(value).Some? && deserialize(serialize(value).value) == Ok(value)
    ensures var written := SetAnchorAccount(w, h, key, value, serialize, owner, typeOwner).Core()[key];
            && TryFromAccount(key, written, deserialize) == Ok(AnchorAccount(key, written, value))
            && (h.Core().minimumBalanceOverride.None? ==> written.lamports >= 1)
  {
  }
}

=== FILE: bank.dfy ===
/** The in-process bank backend (client/client-api/src/base_impls/bank.rs).
    The bank's account store is a ledger; its execution engine, fee
    calculator and scan machinery are represented by the replies they give,
    which are parameters here. */
module BankBackend {
  import opened Results
  import opened Ledger
  import opened KeyOrder
  import opened Transactions
  import opened Errors
  import opened Execution
  import opened Capabilities

  /** Reads every key with a single-account reader, in order; the first
      failing read aborts (the loop with `?` of the multi-read). */
  function ReadEach(getAccount: Pubkey -> ClientResult<Option<Account>>, keys: seq<Pubkey>): (r: ClientResult<seq<Option<Account>>>)
    ensures r.Ok? <==> forall i :: 0 <= i < |keys| ==> getAccount(keys[i]).Ok?
    ensures r.Ok? ==> |r.value| == |keys| && forall i :: 0 <= i < |keys| ==> r.value[i] == getAccount(keys[i]).value
    ensures r.Err? ==> exists i :: 0 <= i < |keys| && getAccount(keys[i]).Err? && r.error == getAccount(keys[i]).error
                                   && forall j :: 0 <= j < i ==> getAccount(keys[j]).Ok?
    decreases |keys|
  {
    if |keys| == 0 then Ok([])
    else
      var first :- getAccount(keys[0]);
      var rest :- ReadEach(getAccount, keys[1..]);
      Ok([first] + rest)
  }

  /** The bank's `get_account`: the stored account, never an error. */
  function BankGetAccount(ledger: LedgerState, key: Pubkey): (r: ClientResult<Option<Account>>)
    ensures r.Ok?
    ensures r.value.Some? <==> key in ledger
    ensures r.value.Some? ==> r.value.value == ledger[key]
  {
    Ok(ReadLedger(ledger, key))
  }

  /** The bank's `get_multiple_accounts`: one entry per key, in order, each
      what `get_account` gives for that key. */
  function BankGetMultipleAccounts(ledger: LedgerState, keys: seq<Pubkey>): (r: ClientResult<seq<Option<Account>>>)
    ensures r.Ok? && |r.value| == |keys|
    ensures forall i :: 0 <= i < |keys| ==> Ok(r.value[i]) == BankGetAccount(ledger, keys[i])
  {
    ReadEach((k: Pubkey) => BankGetAccount(ledger, k), keys)
  }

  /** `RpcFilterType::allows` for one account. A byte comparison fails when
      the compared range does not fit in the data. Whether data is a valid
      token account is decided by the token program's layout check. */
  predicate FilterAllows(filter: ProgramAccountsFilter, account: Account, validTokenAccount: seq<Byte> -> bool) {
    match filter
    case DataSize(size) => |account.data| == size
    case Memcmp(offset, bytes) =>
      offset <= |account.data| && |bytes| <= |account.data| - offset
      && account.data[offset..offset + |bytes|] == bytes
    case TokenAccountState => validTokenAccount(account.data)
  }

  predicate AllFiltersAllow(filters: seq<ProgramAccountsFilter>, account: Account, validTokenAccount: seq<Byte> -> bool) {
    forall i :: 0 <= i < |filters| ==> FilterAllows(filters[i], account, validTokenAccount)
  }

  /** The bank's scan of the accounts owned by `programId` that every
      filter allows, in store order. */
  function SelectProgramAccounts(store: seq<(Pubkey, Account)>, programId: Pubkey, filters: seq<ProgramAccountsFilter>,
                                 validTokenAccount: seq<Byte> -> bool): (r: seq<(Pubkey, Account)>)
    ensures multiset(r) <= multiset(store)
    ensures forall e :: e in r <==> e in store && e.1.owner == programId && AllFiltersAllow(filters, e.1, validTokenAccount)
    decreases |store|
  {
    if |store| == 0 then []
    else
      assert store == [store[0]] + store[1..];
      var rest := SelectProgramAccounts(store[1..], programId, filters, validTokenAccount);
      if store[0].1.owner == programId && AllFiltersAllow(filters, store[0].1, validTokenAccount)
      then [store[0]] + rest
      else rest
  }

  /** The bank's `get_program_accounts`. Missing filters mean none. With a
      program-id index the matches are sorted by key; without one they come
      in store order. A scan failure is a domain-specific error. */
  function BankGetProgramAccounts(
    store: seq<(Pubkey, Account)>, scanError: Option<string>, indexed: bool, programId: Pubkey,
    filters: Option<seq<ProgramAccountsFilter>>, validTokenAccount: seq<Byte> -> bool): (r: ClientResult<seq<(Pubkey, Account)>>)
    ensures r.Err? <==> scanError.Some?
    ensures r.Err? ==> r.error == DomainSpecific(scanError.value)
    ensures r.Ok? ==> forall e :: e in r.value <==>
              e in store && e.1.owner == programId
              && AllFiltersAllow(if filters.Some? then filters.value else [], e.1, validTokenAccount)
    ensures r.Ok? ==> multiset(r.value) <= multiset(store)
    ensures r.Ok? && indexed ==> SortedByKey(r.value)
  {
    var fs := if filters.Some? then filters.value else [];
    var matches := SelectProgramAccounts(store, programId, fs, validTokenAccount);
    if scanError.Some? then Err(DomainSpecific(scanError.value))
    else if indexed then
      var sorted := SortByKey(matches);
      assert forall e :: e in sorted <==> e in multiset(sorted);
      Ok(sorted)
    else Ok(matches)
  }

  /** The bank's `HasRent`: it overrides the minimum balance with its own
      figure, so no one-lamport floor is applied. */
  function BankRentHolder(rent: Rent, bankMinimum: nat -> U64): (h: RentHolder)
    ensures forall n: nat :: MinimumBalanceForRentExemption(Bare(h), n) == bankMinimum(n)
  {
    RentHolder(rent, Some(bankMinimum))
  }

  datatype DurableNonceFee = Valid(lamportsPerSignature: U64) | Invalid

  /** What the bank reports after processing a transaction. */
  datatype BankExecution =
    | NotExecuted(error: TransactionError)
    | Executed(
        status: Result<(), TransactionError>,
        logMessages: Option<seq<string>>,
        durableNonceFee: Option<DurableNonceFee>,
        returnData: Option<ReturnData>,
        executedUnits: U64)

  /** Lamports per signature for the fee: a valid durable nonce's figure,
      none for an invalid nonce, else the recent blockhash's figure. */
  function LamportsPerSignature(durableNonceFee: Option<DurableNonceFee>, blockhashLamports: Option<U64>): (r: Option<U64>)
    ensures durableNonceFee == Some(Invalid) ==> r.None?
    ensures durableNonceFee.Some? && durableNonceFee.value.Valid? ==> r == Some(durableNonceFee.value.lamportsPerSignature)
    ensures durableNonceFee.None? ==> r == blockhashLamports
  {
    match durableNonceFee
    case Some(Valid(l)) => Some(l)
    case Some(Invalid) => None
    case None => blockhashLamports
  }

  /** The bank's `process_transaction`. A transaction the bank refused to
      execute is an error; an executed one is a success whatever its status.
      The Rust client expects the lamports-per-signature figure to exist. */
  function BankProcessTransaction(transaction: VersionedTransaction, execution: BankExecution,
                                  blockhashLamports: Option<U64>, feeFor: U64 -> U64): (r: ClientResult<ExecutionOutput>)
    requires execution.Executed? ==> LamportsPerSignature(execution.durableNonceFee, blockhashLamports).Some?
    ensures execution.NotExecuted? ==> r == Err(ClientError.TransactionError(execution.error))
    ensures execution.Executed? ==> r.Ok?
    ensures r.Ok? ==> && r.value.transaction == transaction
                      && r.value.result == execution.status
                      && r.value.logs == (if execution.logMessages.Some? then execution.logMessages.value else [])
                      && r.value.computeUnitsConsumed == execution.executedUnits
                      && r.value.returnData == execution.returnData
                      && r.value.fee == feeFor(LamportsPerSignature(execution.durableNonceFee, blockhashLamports).value)
  {
    match execution
    case NotExecuted(e) => Err(ClientError.TransactionError(e))
    case Executed(status, logMessages, durableNonceFee, returnData, executedUnits) =>
      var lamports := LamportsPerSignature(durableNonceFee, blockhashLamports).value;
      Ok(ExecutionOutput(transaction, status, if logMessages.Some? then logMessages.value else [],
                         executedUnits, returnData, feeFor(lamports)))
  }

  /** What a bank simulation reports. */
  datatype BankSimulation = BankSimulation(
    result: Result<(), TransactionError>,
    logs: seq<string>,
    postSimulationAccounts: seq<(Pubkey, Account)>,
    unitsConsumed: U64,
    returnData: Option<ReturnData>)

  /** The first snapshot entry for `key` (`find_map`). */
  function FindPostAccount(post: seq<(Pubkey, Account)>, key: Pubkey): (r: Option<Account>)
    ensures r.Some? <==> exists i :: 0 <= i < |post| && post[i].0 == key
    ensures r.Some? ==> exists i :: 0 <= i < |post| && post[i] == (key, r.value)
                                    && forall j :: 0 <= j < i ==> post[j].0 != key
    decreases |post|
  {
    if |post| == 0 then None
    else if post[0].0 == key then Some(post[0].1)
    else
      var r := FindPostAccount(post[1..], key);
      assert forall i :: 0 < i < |post| ==> post[i] == post[1..][i - 1];
      r
  }

  /** The post-simulation state the bank reports for one key: an empty
      system account counts as closed; a program account is re-read from
      the bank; anything else is the snapshot. */
  function NormalisePostAccount(ledger: LedgerState, post: seq<(Pubkey, Account)>, key: Pubkey): (r: Option<Account>)
    requires FindPostAccount(post, key).Some?
    requires var a := FindPostAccount(post, key).value; a.executable && !IsEmptySystemAccount(a) ==> key in ledger
    ensures var a := FindPostAccount(post, key).value;
            && (IsEmptySystemAccount(a) ==> r.None?)
            && (!IsEmptySystemAccount(a) && a.executable ==> r == Some(ledger[key]))
            && (!IsEmptySystemAccount(a) && !a.executable ==> r == Some(a))
  {
    var a := FindPostAccount(post, key).value;
    if IsEmptySystemAccount(a) then None
    else if a.executable then Some(ledger[key])
    else Some(a)
  }

  /** What `convert_simulation_result` needs of the snapshot: one entry per
      account key (asserted), an entry for every key (unwrapped), and every
      program account present in the bank (unwrapped). */
  predicate SnapshotCovers(ledger: LedgerState, keys: seq<Pubkey>, post: seq<(Pubkey, Account)>) {
    && |post| == |keys|
    && (forall i :: 0 <= i < |keys| ==> FindPostAccount(post, keys[i]).Some?)
    && (forall i :: 0 <= i < |keys| ==>
          var a := FindPostAccount(post, keys[i]).value;
          a.executable && !IsEmptySystemAccount(a) ==> keys[i] in ledger)
  }

  /** `NormalisePostAccount` where the snapshot allows it, nothing
      elsewhere. */
  function CoveredPostState(ledger: LedgerState, post: seq<(Pubkey, Account)>, key: Pubkey): Option<Account> {
    var found := FindPostAccount(post, key);
    if found.Some? && (found.value.executable && !IsEmptySystemAccount(found.value) ==> key in ledger)
    then NormalisePostAccount(ledger, post, key)
    else None
  }

  /** Each account key paired with its normalised state. */
  function BankPairs(ledger: LedgerState, keys: seq<Pubkey>, post: seq<(Pubkey, Account)>): (pairs: seq<(Pubkey, Option<Account>)>)
    requires SnapshotCovers(ledger, keys, post)
    ensures |pairs| == |keys|
    ensures forall i :: 0 <= i < |keys| ==> pairs[i] == (keys[i], CoveredPostState(ledger, post, keys[i]))
  {
    seq(|keys|, i requires 0 <= i < |keys| => (keys[i], CoveredPostState(ledger, post, keys[i])))
  }

  /** The collected pairs hold exactly the account keys, each with its
      normalised state. */
  lemma {:induction false} BankPairsCollect(ledger: LedgerState, keys: seq<Pubkey>, post: seq<(Pubkey, Account)>)
    requires SnapshotCovers(ledger, keys, post)
    ensures var r := CollectPostAccounts(BankPairs(ledger, keys, post));
            && (forall k :: k in r.accounts <==> k in keys)
            && (forall i :: 0 <= i < |keys| ==> r.accounts[keys[i]] == NormalisePostAccount(ledger, post, keys[i]))
  {
    var pairs := BankPairs(ledger, keys, post);
    var r := CollectPostAccounts(pairs);
    var g := (k: Pubkey) => CoveredPostState(ledger, post, k);
    CollectPostAccountsFunctional(pairs, g);
    forall k | k in keys ensures k in r.accounts {
      var i :| 0 <= i < |keys| && keys[i] == k;
      assert pairs[i].0 == k;
    }
    forall k | k in r.accounts ensures k in keys {
      var i :| 0 <= i < |pairs| && pairs[i].0 == k;
      assert keys[i] == k;
    }
    forall i | 0 <= i < |keys| ensures r.accounts[keys[i]] == NormalisePostAccount(ledger, post, keys[i]) {
      assert pairs[i].0 == keys[i];
    }
  }

  /** The post accounts of a bank simulation: exactly one entry per account
      key, holding that key's normalised state. */
  function BankPostAccounts(ledger: LedgerState, keys: seq<Pubkey>, post: seq<(Pubkey, Account)>): (r: PostAccounts)
    requires SnapshotCovers(ledger, keys, post)
    ensures forall k :: k in r.accounts <==> k in keys
    ensures forall i :: 0 <= i < |keys| ==> r.accounts[keys[i]] == NormalisePostAccount(ledger, post, keys[i])
  {
    BankPairsCollect(ledger, keys, post);
    CollectPostAccounts(BankPairs(ledger, keys, post))
  }

  /** With distinct account keys there are exactly as many post accounts
      as keys. */
  lemma BankPostAccountsCount(ledger: LedgerState, keys: seq<Pubkey>, post: seq<(Pubkey, Account)>)
    requires SnapshotCovers(ledger, keys, post)
    requires forall i, j :: 0 <= i < j < |keys| ==> keys[i] != keys[j]
    ensures BankPostAccounts(ledger, keys, post).Len() == |keys|
  {
    CollectPostAccountsSize(BankPairs(ledger, keys, post));
  }

  /** The bank's `simulate_transaction` producing an effect. Full
      verification failing is a transaction error; a simulation that
      consumed no compute units reports its transaction error (the Rust client
      unwraps it, so it must be an error). */
  function BankSimulateEffect(ledger: LedgerState, transaction: VersionedTransaction,
                              verified: Result<SanitizedTransaction, TransactionError>, simulation: BankSimulation,
                              blockhashLamports: Option<U64>, feeFor: U64 -> U64): (r: ClientResult<ExecutionEffect>)
    requires verified.Ok? && simulation.unitsConsumed == 0 ==> simulation.result.Err?
    requires verified.Ok? && simulation.unitsConsumed != 0 ==>
               blockhashLamports.Some? && SnapshotCovers(ledger, verified.value.AccountKeys(), simulation.postSimulationAccounts)
    ensures verified.Err? ==> r == Err(ClientError.TransactionError(verified.error))
    ensures verified.Ok? && simulation.unitsConsumed == 0 ==> r == Err(ClientError.TransactionError(simulation.result.error))
    ensures r.Ok? <==> verified.Ok? && simulation.unitsConsumed != 0
    ensures r.Ok? ==> && r.value.transaction == transaction
                      && r.value.result == simulation.result
                      && r.value.logs == simulation.logs
                      && r.value.computeUnitsConsumed == simulation.unitsConsumed
                      && r.value.returnData == simulation.returnData
                      && r.value.fee == feeFor(blockhashLamports.value)
                      && r.value.postAccounts == BankPostAccounts(ledger, verified.value.AccountKeys(), simulation.postSimulationAccounts)
  {
    var sanitized :- verified.MapErr(e => ClientError.TransactionError(e));
    if simulation.unitsConsumed == 0 then Err(ClientError.TransactionError(simulation.result.error))
    else
      var fee := feeFor(blockhashLamports.value);
      Ok(ExecutionEffect(transaction, simulation.result, simulation.logs, simulation.unitsConsumed, simulation.returnData, fee,
                         BankPostAccounts(ledger, sanitized.AccountKeys(), simulation.postSimulationAccounts)))
  }

  /** The bank's `simulate_transaction` producing an output: the effect
      with its post accounts dropped. */
  function BankSimulateOutput(ledger: LedgerState, transaction: VersionedTransaction,
                              verified: Result<SanitizedTransaction, TransactionError>, simulation: BankSimulation,
                              blockhashLamports: Option<U64>, feeFor: U64 -> U64): (r: ClientResult<ExecutionOutput>)
    requires verified.Ok? && simulation.unitsConsumed == 0 ==> simulation.result.Err?
    requires verified.Ok? && simulation.unitsConsumed != 0 ==>
               blockhashLamports.Some? && SnapshotCovers(ledger, verified.value.AccountKeys(), simulation.postSimulationAccounts)
    ensures var effect := BankSimulateEffect(ledger, transaction, verified, simulation, blockhashLamports, feeFor);
            && (effect.Err? ==> r == Err(effect.error))
            && (effect.Ok? ==> r == Ok(EffectToOutput(effect.value)))
  {
    var effect :- BankSimulateEffect(ledger, transaction, verified, simulation, blockhashLamports, feeFor);
    Ok(EffectToOutput(effect))
  }
}

=== FILE: banks_client.dfy ===
/** The blocking test-service client backend
    (client/client-api/src/base_impls/banks_client_blocking.rs). The
    service's calls are represented by their replies; every native error is
    translated into a `ClientError`. */
module BanksClientBackend {
  import opened Results
  import opened Ledger
  import opened Transactions
  import opened Errors
  import opened Execution
  import opened Sanitize
  import opened BankBackend

  /** The service calls modelled here never fail with a simulation error;
      the Rust client's conversion treats that variant as unreachable. */
  type BanksFailure = e: BanksClientError | !e.SimulationError? witness BanksClientError.ClientError("")

  type BanksResult<T> = Result<T, BanksFailure>

  function Translate<T>(r: BanksResult<T>): (t: ClientResult<T>)
    ensures r.Ok? <==> t.Ok?
    ensures r.Ok? ==> t.value == r.value
    ensures r.Err? ==> t.error == FromBanksClientError(r.error)
  {
    match r
    case Ok(v) => Ok(v)
    case Err(e) => Err(FromBanksClientError(e))
  }

  datatype TransactionMetadata = TransactionMetadata(
    logMessages: seq<string>,
    computeUnitsConsumed: U64,
    returnData: Option<ReturnData>)

  datatype ResultWithMetadata = ResultWithMetadata(
    result: Result<(), TransactionError>,
    metadata: Option<TransactionMetadata>)

  datatype SimulationDetails = SimulationDetails(
    logs: seq<string>,
    unitsConsumed: U64,
    returnData: Option<ReturnData>)

  datatype ResultWithSimulation = ResultWithSimulation(
    result: Option<Result<(), TransactionError>>,
    simulationDetails: Option<SimulationDetails>)

  /** The service calls the backend makes, at `Processed` commitment. */
  datatype BanksClient = BanksClient(
    getAccount: Pubkey -> BanksResult<Option<Account>>,
    getRent: BanksResult<Rent>,
    getLatestBlockhash: BanksResult<Option<(Hash, U64)>>,
    processWithMetadata: VersionedTransaction -> BanksResult<ResultWithMetadata>,
    simulate: VersionedTransaction -> BanksResult<ResultWithSimulation>,
    getFeeForMessage: Message -> BanksResult<Option<U64>>)

  function GetAccount(c: BanksClient, key: Pubkey): (r: ClientResult<Option<Account>>)
    ensures r == Translate(c.getAccount(key))
  {
    match c.getAccount(key)
    case Ok(a) => Ok(a)
    case Err(e) => Err(FromBanksClientError(e))
  }

  /** `get_multiple_accounts`: reads the keys one at a time, in order; the
      first failing read aborts. The reply holds one entry per key, each
      what the single read of that key answers; on failure the error is
      the translated error of the first key whose single read fails. */
  function GetMultipleAccounts(c: BanksClient, keys: seq<Pubkey>): (r: ClientResult<seq<Option<Account>>>)
    ensures r.Ok? <==> forall i :: 0 <= i < |keys| ==> c.getAccount(keys[i]).Ok?
    ensures r.Ok? ==> |r.value| == |keys| && forall i :: 0 <= i < |keys| ==> r.value[i] == c.getAccount(keys[i]).value
    ensures r.Err? ==> exists i :: 0 <= i < |keys| && c.getAccount(keys[i]).Err?
                                   && r.error == FromBanksClientError(c.getAccount(keys[i]).error)
                                   && forall j :: 0 <= j < i ==> c.getAccount(keys[j]).Ok?
  {
    ReadEach((k: Pubkey) => GetAccount(c, k), keys)
  }

  /** The rent-exemption minimum straight from the service's rent, with no
      one-lamport floor. */
  function GetMinimumBalanceForRentExemption(c: BanksClient, dataLen: nat): (r: ClientResult<U64>)
    ensures c.getRent.Ok? ==> r == Ok(c.getRent.value.minimumBalance(dataLen))
    ensures c.getRent.Err? ==> r == Err(FromBanksClientError(c.getRent.error))
  {
    var rent :- Translate(c.getRent);
    Ok(rent.minimumBalance(dataLen))
  }

  /** The latest blockhash; the Rust client expects the service to have one. */
  function GetLatestBlockhash(c: BanksClient): (r: ClientResult<Hash>)
    requires c.getLatestBlockhash.Ok? ==> c.getLatestBlockhash.value.Some?
    ensures c.getLatestBlockhash.Ok? ==> r == Ok(c.getLatestBlockhash.value.value.0)
    ensures c.getLatestBlockhash.Err? ==> r == Err(FromBanksClientError(c.getLatestBlockhash.error))
  {
    var found :- Translate(c.getLatestBlockhash);
    Ok(found.value.0)
  }

  /** The legacy message the fee is asked for: the original header,
      blockhash and instructions over the sanitized account keys. */
  function FeeMessage(transaction: VersionedTransaction, sanitized: SanitizedTransaction): (m: Message)
    ensures m.Legacy? && m.staticKeys == sanitized.AccountKeys()
    ensures m.header == transaction.message.header
    ensures m.recentBlockhash == transaction.message.recentBlockhash
    ensures m.instructions == transaction.message.instructions
  {
    Legacy(transaction.message.header, sanitized.AccountKeys(), transaction.message.recentBlockhash, transaction.message.instructions)
  }

  /** `get_fee_for_versioned_transaction`: sanitizes through this client's
      own multi-read, then asks the fee of the legacy fee message. */
  function GetFeeForVersionedTransaction(c: BanksClient, env: SanitizeEnv, transaction: VersionedTransaction): (r: ClientResult<Option<U64>>)
    requires transaction.message.V0? && GetMultipleAccounts(c, ReadKeys(transaction.message.lookups)).Ok?
             ==> |GetMultipleAccounts(c, ReadKeys(transaction.message.lookups)).value| > 0
    ensures var s := SanitizeTransaction(ks => GetMultipleAccounts(c, ks), env, transaction);
            && (s.Err? ==> r == Err(s.error))
            && (s.Ok? ==> r == Translate(c.getFeeForMessage(FeeMessage(transaction, s.value))))
  {
    var sanitized :- SanitizeTransaction(ks => GetMultipleAccounts(c, ks), env, transaction);
    Translate(c.getFeeForMessage(FeeMessage(transaction, sanitized)))
  }

  /** `process_transaction` returning the signature: the first signature
      whenever the service accepts the call, whatever the transaction's own
      result. The Rust client indexes the first signature, so one must exist. */
  function ProcessForSignature(c: BanksClient, transaction: VersionedTransaction): (r: ClientResult<Signature>)
    requires |transaction.signatures| > 0
    ensures c.processWithMetadata(transaction).Ok? ==> r == Ok(transaction.signatures[0])
    ensures c.processWithMetadata(transaction).Err? ==> r == Err(FromBanksClientError(c.processWithMetadata(transaction).error))
  {
    var signature := transaction.signatures[0];
    var _ :- Translate(c.processWithMetadata(transaction));
    Ok(signature)
  }

  /** `process_transaction` returning an execution output. Without metadata
      the transaction did not execute and its error is reported (the Rust client
      unwraps it); with metadata the output copies the result verbatim. The
      fee must be known (unwrapped). */
  function ProcessForOutput(c: BanksClient, env: SanitizeEnv, transaction: VersionedTransaction): (r: ClientResult<ExecutionOutput>)
    requires c.processWithMetadata(transaction).Ok? && c.processWithMetadata(transaction).value.metadata.None?
             ==> c.processWithMetadata(transaction).value.result.Err?
    requires c.processWithMetadata(transaction).Ok? && c.processWithMetadata(transaction).value.metadata.Some? ==>
               && ((transaction.message.V0? && GetMultipleAccounts(c, ReadKeys(transaction.message.lookups)).Ok?)
                    ==> |GetMultipleAccounts(c, ReadKeys(transaction.message.lookups)).value| > 0)
               && (GetFeeForVersionedTransaction(c, env, transaction).Ok? ==> GetFeeForVersionedTransaction(c, env, transaction).value.Some?)
    ensures c.processWithMetadata(transaction).Err? ==> r == Err(FromBanksClientError(c.processWithMetadata(transaction).error))
    ensures (c.processWithMetadata(transaction).Ok? && c.processWithMetadata(transaction).value.metadata.None?)
              ==> r == Err(ClientError.TransactionError(c.processWithMetadata(transaction).value.result.error))
    ensures r.Ok? ==> && c.processWithMetadata(transaction).Ok?
                      && var reply := c.processWithMetadata(transaction).value;
                      && reply.metadata.Some?
                      && GetFeeForVersionedTransaction(c, env, transaction).Ok?
                      && r.value == ExecutionOutput(transaction, reply.result, reply.metadata.value.logMessages,
                                                    reply.metadata.value.computeUnitsConsumed, reply.metadata.value.returnData,
                                                    GetFeeForVersionedTransaction(c, env, transaction).value.value)
  {
    var reply :- Translate(c.processWithMetadata(transaction));
    match reply.metadata
    case None => Err(ClientError.TransactionError(reply.result.error))
    case Some(metadata) =>
      var fee :- GetFeeForVersionedTransaction(c, env, transaction);
      Ok(ExecutionOutput(transaction, reply.result, metadata.logMessages, metadata.computeUnitsConsumed,
                         metadata.returnData, fee.value))
  }

  /** `simulate_transaction` returning an execution output. The Rust client
      expects a result and details in every reply; a simulation that
      consumed no compute units reports its transaction error. */
  function SimulateForOutput(c: BanksClient, env: SanitizeEnv, transaction: VersionedTransaction): (r: ClientResult<ExecutionOutput>)
    requires c.simulate(transaction).Ok? ==>
               var reply := c.simulate(transaction).value;
               && reply.result.Some? && reply.simulationDetails.Some?
               && (reply.simulationDetails.value.unitsConsumed == 0 ==> reply.result.value.Err?)
               && (reply.simulationDetails.value.unitsConsumed != 0 ==>
                     && ((transaction.message.V0? && GetMultipleAccounts(c, ReadKeys(transaction.message.lookups)).Ok?)
                          ==> |GetMultipleAccounts(c, ReadKeys(transaction.message.lookups)).value| > 0)
                     && (GetFeeForVersionedTransaction(c, env, transaction).Ok? ==> GetFeeForVersionedTransaction(c, env, transaction).value.Some?))
    ensures c.simulate(transaction).Err? ==> r == Err(FromBanksClientError(c.simulate(transaction).error))
    ensures (c.simulate(transaction).Ok? && c.simulate(transaction).value.simulationDetails.value.unitsConsumed == 0)
              ==> r == Err(ClientError.TransactionError(c.simulate(transaction).value.result.value.error))
    ensures r.Ok? ==> && c.simulate(transaction).Ok?
                      && var reply := c.simulate(transaction).value;
                      && reply.simulationDetails.value.unitsConsumed != 0
                      && GetFeeForVersionedTransaction(c, env, transaction).Ok?
                      && r.value == ExecutionOutput(transaction, reply.result.value, reply.simulationDetails.value.logs,
                                                    reply.simulationDetails.value.unitsConsumed, reply.simulationDetails.value.returnData,
                                                    GetFeeForVersionedTransaction(c, env, transaction).value.value)
  {
    var reply :- Translate(c.simulate(transaction));
    var result := reply.result.value;
    var details := reply.simulationDetails.value;
    if details.unitsConsumed == 0 then Err(ClientError.TransactionError(result.error))
    else
      var fee :- GetFeeForVersionedTransaction(c, env, transaction);
      Ok(ExecutionOutput(transaction, result, details.logs, details.unitsConsumed, details.returnData, fee.value))
  }

  /** The signature `process_transaction` returns is the signature of the
      output it would produce: whenever an output is produced, the
      signature call succeeds with that output's fee-payer signature. */
  lemma SignatureAgreesWithOutput(c: BanksClient, env: SanitizeEnv, transaction: VersionedTransaction)
    requires |transaction.signatures| > 0
    requires c.processWithMetadata(transaction).Ok? && c.processWithMetadata(transaction).value.metadata.None?
             ==> c.processWithMetadata(transaction).value.result.Err?
    requires c.processWithMetadata(transaction).Ok? && c.processWithMetadata(transaction).value.metadata.Some? ==>
               && ((transaction.message.V0? && GetMultipleAccounts(c, ReadKeys(transaction.message.lookups)).Ok?)
                    ==> |GetMultipleAccounts(c, ReadKeys(transaction.message.lookups)).value| > 0)
               && (GetFeeForVersionedTransaction(c, env, transaction).Ok? ==> GetFeeForVersionedTransaction(c, env, transaction).value.Some?)
    ensures ProcessForOutput(c, env, transaction).Ok? ==>
              ProcessForSignature(c, transaction) == Ok(ProcessForOutput(c, env, transaction).value.Signature())
  {
  }

  /** Simulating and processing convert alike: when the service's
      simulation reports the same result, logs, units and return data as
      its processing, with some units consumed, the simulated output is the
      processed output. */
  lemma SimulationMatchesProcessing(c: BanksClient, env: SanitizeEnv, transaction: VersionedTransaction)
    requires c.simulate(transaction).Ok? && c.processWithMetadata(transaction).Ok?
    requires var sim := c.simulate(transaction).value;
             && sim.result.Some? && sim.simulationDetails.Some? && sim.simulationDetails.value.unitsConsumed != 0
             && c.processWithMetadata(transaction).value
                == ResultWithMetadata(sim.result.value, Some(TransactionMetadata(sim.simulationDetails.value.logs,
                                                                                sim.simulationDetails.value.unitsConsumed,
                                                                                sim.simulationDetails.value.returnData)))
    requires (transaction.message.V0? && GetMultipleAccounts(c, ReadKeys(transaction.message.lookups)).Ok?)
             ==> |GetMultipleAccounts(c, ReadKeys(transaction.message.lookups)).value| > 0
    requires GetFeeForVersionedTransaction(c, env, transaction).Ok? ==> GetFeeForVersionedTransaction(c, env, transaction).value.Some?
    ensures SimulateForOutput(c, env, transaction) == ProcessForOutput(c, env, transaction)
  {
  }
}

=== FILE: bytes.dfy ===
/** Fixed-width little-endian integers, the encoding shared by the
    compute-budget instructions and the token program's account layouts. */
module Bytes {
  import opened Ledger

  function Pow256(width: nat): (p: nat)
    ensures p >= 1
  {
    if width == 0 then 1 else 0x100 * Pow256(width - 1)
  }

  /** Little-endian encoding of `n` in `width` bytes (the low bytes of `n`
      when it does not fit). */
  function LittleEndian(n: nat, width: nat): (b: seq<Byte>)
    ensures |b| == width
  {
    if width == 0 then [] else [n % 0x100] + LittleEndian(n / 0x100, width - 1)
  }

  /** The value of a little-endian byte string. */
  function FromLittleEndian(b: seq<Byte>): (n: nat)
  {
    if |b| == 0 then 0 else b[0] + 0x100 * FromLittleEndian(b[1..])
  }

  /** A byte string of width `w` holds a value below `256^w`. */
  lemma {:induction false} FromLittleEndianBound(b: seq<Byte>)
    ensures FromLittleEndian(b) < Pow256(|b|)
    decreases |b|
  {
    if |b| > 0 {
      FromLittleEndianBound(b[1..]);
    }
  }

  /** Encoding a value below `256^width` loses nothing. */
  lemma {:induction false} LittleEndianRoundTrip(n: nat, width: nat)
    requires n < Pow256(width)
    ensures FromLittleEndian(LittleEndian(n, width)) == n
    decreases width
  {
    if width > 0 {
      LittleEndianRoundTrip(n / 0x100, width - 1);
      assert LittleEndian(n, width)[1..] == LittleEndian(n / 0x100, width - 1);
    }
  }

  lemma Pow256Widths()
    ensures Pow256(4) == 0x1_0000_0000
    ensures Pow256(8) == 0x1_0000_0000_0000_0000
  {
  }

  /** A `u32` written as four little-endian bytes. */
  function U32Bytes(n: U32): (b: seq<Byte>)
    ensures |b| == 4
  {
    LittleEndian(n, 4)
  }

  /** A `u64` written as eight little-endian bytes. */
  function U64Bytes(n: U64): (b: seq<Byte>)
    ensures |b| == 8
  {
    LittleEndian(n, 8)
  }

  /** Reads a `u64` from eight little-endian bytes. */
  function ReadU64(b: seq<Byte>): (n: U64)
    requires |b| == 8
    ensures n == FromLittleEndian(b)
  {
    FromLittleEndianBound(b);
    Pow256Widths();
    FromLittleEndian(b)
  }

  /** Decoding then re-encoding in the same width gives the bytes back. */
  lemma {:induction false} FromLittleEndianRoundTrip(b: seq<Byte>)
    ensures LittleEndian(FromLittleEndian(b), |b|) == b
    decreases |b|
  {
    if |b| > 0 {
      var rest := FromLittleEndian(b[1..]);
      FromLittleEndianRoundTrip(b[1..]);
      assert (b[0] + 0x100 * rest) % 0x100 == b[0];
      assert (b[0] + 0x100 * rest) / 0x100 == rest;
      assert b == [b[0]] + b[1..];
    }
  }

  /** Writing then reading a `u32` or a `u64` gives the value back, and
      reading then writing eight bytes gives the bytes back. */
  lemma FixedWidthRoundTrips(a: U32, n: U64)
    ensures FromLittleEndian(U32Bytes(a)) == a
    ensures ReadU64(U64Bytes(n)) == n
    ensures forall b: seq<Byte> | |b| == 8 :: U64Bytes(ReadU64(b)) == b
  {
    Pow256Widths();
    LittleEndianRoundTrip(a, 4);
    LittleEndianRoundTrip(n, 8);
    forall b: seq<Byte> | |b| == 8
      ensures U64Bytes(ReadU64(b)) == b
    {
      FromLittleEndianRoundTrip(b);
    }
  }
}

=== FILE: capabilities.dfy ===
/** The capability interfaces every backend implements
    (client/client-api/src/base/getter.rs, setter.rs, executor.rs) and their
    forwarding through the reference, box and shared wrappers `&C`, `&mut C`,
    `Box<C>` and `Arc<C>`.

    A backend's capabilities are a record of functions; a wrapped backend
    is a chain of wrapper layers around one such record. Every forwarding
    function is stated against the innermost backend, so any depth of
    wrapping answers exactly as the backend itself does. */
module Capabilities {
  import opened Results
  import opened Ledger
  import opened Transactions
  import opened Errors

  /** `RpcFilterType`: a predicate on a scanned account. */
  datatype ProgramAccountsFilter =
    | DataSize(size: U64)
    | Memcmp(offset: nat, bytes: seq<Byte>)
    | TokenAccountState

  /** The four wrapper types that forward capability calls. */
  datatype Wrapper = Ref | RefMut | Boxed | Shared

  /** A backend `C` behind zero or more wrapper layers. */
  datatype Wrapped<C> = Bare(backend: C) | Wrap(wrapper: Wrapper, inner: Wrapped<C>) {

    /** The backend at the bottom of the chain. */
    function Core(): C {
      match this
      case Bare(c) => c
      case Wrap(_, i) => i.Core()
    }

    /** The wrapper layers, outermost first. */
    function Layers(): seq<Wrapper> {
      match this
      case Bare(_) => []
      case Wrap(w, i) => [w] + i.Layers()
    }

    /** `SetAccount` is implemented only by `&mut C` and `Box<C>`: a chain
        offers it exactly when every layer is one of those two. */
    predicate Mutable() {
      match this
      case Bare(_) => true
      case Wrap(w, i) => (w == RefMut || w == Boxed) && i.Mutable()
    }
  }

  /** The read capabilities of a backend. Program-account scans and
      multi-reads are supertraits of single-account reads in the Rust client, so
      one record carries all of them. */
  datatype Getter = Getter(
    getAccount: Pubkey -> ClientResult<Option<Account>>,
    getProgramAccounts: (Pubkey, Option<seq<ProgramAccountsFilter>>) -> ClientResult<seq<(Pubkey, Account)>>,
    getMultipleAccounts: seq<Pubkey> -> ClientResult<seq<Option<Account>>>,
    getMinimumBalanceForRentExemption: nat -> ClientResult<U64>,
    getLatestBlockhash: ClientResult<Hash>)

  /** `ProcessTransaction<T>` and `SimulateTransaction<T>` of a backend. */
  datatype Executor<T> = Executor(
    process: VersionedTransaction -> ClientResult<T>,
    simulate: VersionedTransaction -> ClientResult<T>)

  /** `HasRent`: a backend's rent parameters, and the backend's own
      override of `minimum_balance_for_rent_exemption` if it has one. */
  datatype RentHolder = RentHolder(rent: Rent, minimumBalanceOverride: Option<nat -> U64>)

  function GetAccount(w: Wrapped<Getter>, key: Pubkey): (r: ClientResult<Option<Account>>)
    ensures r == w.Core().getAccount(key)
  {
    match w
    case Bare(g) => g.getAccount(key)
    case Wrap(_, i) => GetAccount(i, key)
  }

  function GetProgramAccounts(w: Wrapped<Getter>, programId: Pubkey, filters: Option<seq<ProgramAccountsFilter>>)
    : (r: ClientResult<seq<(Pubkey, Account)>>)
    ensures r == w.Core().getProgramAccounts(programId, filters)
  {
    match w
    case Bare(g) => g.getProgramAccounts(programId, filters)
    case Wrap(_, i) => GetProgramAccounts(i, programId, filters)
  }

  function GetMultipleAccounts(w: Wrapped<Getter>, keys: seq<Pubkey>): (r: ClientResult<seq<Option<Account>>>)
    ensures r == w.Core().getMultipleAccounts(keys)
  {
    match w
    case Bare(g) => g.getMultipleAccounts(keys)
    case Wrap(_, i) => GetMultipleAccounts(i, keys)
  }

  function GetMinimumBalanceForRentExemption(w: Wrapped<Getter>, dataLen: nat): (r: ClientResult<U64>)
    ensures r == w.Core().getMinimumBalanceForRentExemption(dataLen)
  {
    match w
    case Bare(g) => g.getMinimumBalanceForRentExemption(dataLen)
    case Wrap(_, i) => GetMinimumBalanceForRentExemption(i, dataLen)
  }

  function GetLatestBlockhash(w: Wrapped<Getter>): (r: ClientResult<Hash>)
    ensures r == w.Core().getLatestBlockhash
  {
    match w
    case Bare(g) => g.getLatestBlockhash
    case Wrap(_, i) => GetLatestBlockhash(i)
  }

  function ProcessTransaction<T>(w: Wrapped<Executor<T>>, transaction: VersionedTransaction): (r: ClientResult<T>)
    ensures r == w.Core().process(transaction)
  {
    match w
    case Bare(e) => e.process(transaction)
    case Wrap(_, i) => ProcessTransaction(i, transaction)
  }

  function SimulateTransaction<T>(w: Wrapped<Executor<T>>, transaction: VersionedTransaction): (r: ClientResult<T>)
    ensures r == w.Core().simulate(transaction)
  {
    match w
    case Bare(e) => e.simulate(transaction)
    case Wrap(_, i) => SimulateTransaction(i, transaction)
  }

  function RentOf(w: Wrapped<RentHolder>): (r: Rent)
    ensures r == w.Core().rent
  {
    match w
    case Bare(h) => h.rent
    case Wrap(_, i) => RentOf(i)
  }

  /** The trait's default `minimum_balance_for_rent_exemption`: the rent
      minimum, but never below one lamport. */
  function DefaultMinimumBalance(rent: Rent, dataLen: nat): (r: U64)
    ensures r >= 1 && r >= rent.minimumBalance(dataLen)
    ensures r == rent.minimumBalance(dataLen) || (r == 1 && rent.minimumBalance(dataLen) == 0)
  {
    if rent.minimumBalance(dataLen) >= 1 then rent.minimumBalance(dataLen) else 1
  }

  /** `HasRent::minimum_balance_for_rent_exemption`. Wrappers call the inner
      implementation rather than the default, so a backend's own override
      is what any wrapped view reports. */
  function MinimumBalanceForRentExemption(w: Wrapped<RentHolder>, dataLen: nat): (r: U64)
    ensures w.Core().minimumBalanceOverride.Some? ==> r == w.Core().minimumBalanceOverride.value(dataLen)
    ensures w.Core().minimumBalanceOverride.None? ==> r == DefaultMinimumBalance(w.Core().rent, dataLen)
  {
    match w
    case Bare(h) =>
      (match h.minimumBalanceOverride
       case Some(f) => f(dataLen)
       case None => DefaultMinimumBalance(h.rent, dataLen))
    case Wrap(_, i) => MinimumBalanceForRentExemption(i, dataLen)
  }

  /** Without an override, the minimum a wrapped backend reports is at least
      one lamport and at least what its rent demands. */
  lemma DefaultMinimumIsFloored(w: Wrapped<RentHolder>, dataLen: nat)
    requires w.Core().minimumBalanceOverride.None?
    ensures MinimumBalanceForRentExemption(w, dataLen) >= 1
    ensures MinimumBalanceForRentExemption(w, dataLen) >= RentOf(w).minimumBalance(dataLen)
  {
  }

  /** `SetAccount::set_account` on a writable ledger behind `&mut`/`Box`
      layers: stores `account` at `key` in the innermost ledger, leaving the
      wrapper chain as it was. */
  function SetAccount(w: Wrapped<LedgerState>, key: Pubkey, account: Account): (r: Wrapped<LedgerState>)
    requires w.Mutable()
    ensures r.Mutable() && r.Layers() == w.Layers()
    ensures r.Core() == w.Core()[key := account]
  {
    match w
    case Bare(l) => Bare(l[key := account])
    case Wrap(k, i) => Wrap(k, SetAccount(i, key, account))
  }

  /** The read view of a ledger: what `get_account` reports for it. */
  function ReadLedger(l: LedgerState, key: Pubkey): Option<Account> {
    if key in l then Some(l[key]) else None
  }

  /** A stored account is read back, and no other key changes. */
  lemma SetThenRead(w: Wrapped<LedgerState>, key: Pubkey, account: Account, other: Pubkey)
    requires w.Mutable()
    ensures ReadLedger(SetAccount(w, key, account).Core(), key) == Some(account)
    ensures other != key ==> ReadLedger(SetAccount(w, key, account).Core(), other) == ReadLedger(w.Core(), other)
  {
  }
}

=== FILE: errors.dfy ===
/** The client error taxonomy and the translation of each backend's native
    error into it (client/client-api/src/errors.rs). */
module Errors {
  import opened Results
  import opened Ledger
  import opened Transactions

  /** Opaque SDK error payloads. */
  datatype MessageCompileError = MessageCompileError(kind: nat)
  datatype SignerError = SignerError(kind: nat)
  datatype IoError = IoError(message: string)

  /** The lookup-table resolution failures of the SDK. */
  datatype AddressLookupError =
    | LookupTableAccountNotFound
    | InvalidAccountOwner
    | InvalidAccountData
    | InvalidLookupIndex

  /** The reply of a remote simulation (also the payload of a preflight
      failure). Account payloads are shown already decoded from base64. */
  datatype RpcSimulateResult = RpcSimulateResult(
    err: Option<TransactionError>,
    logs: Option<seq<string>>,
    accounts: Option<seq<Option<Account>>>,
    unitsConsumed: Option<U64>,
    returnData: Option<ReturnData>)

  datatype RpcResponseErrorData =
    | Empty
    | SendTransactionPreflightFailure(simulation: RpcSimulateResult)
    | NodeUnhealthy(numSlotsBehind: Option<U64>)

  /** The JSON-RPC layer's error. */
  datatype RpcError =
    | RpcRequestError(message: string)
    | RpcResponseError(code: int, message: string, data: RpcResponseErrorData)
    | ParseError(message: string)
    | ForUser(message: string)

  /** Native error of the local test service client. */
  datatype BanksClientError =
    | ClientError(message: string)
    | Io(io: IoError)
    | RpcError(message: string)
    | TransactionError(txError: TransactionError)
    | SimulationError(simError: TransactionError, logs: seq<string>, unitsConsumed: U64, returnData: Option<ReturnData>)

  /** Native error kinds of the remote network client. */
  datatype RpcClientErrorKind =
    | Io(io: IoError)
    | Reqwest(message: string)
    | RpcError(rpc: RpcError)
    | SerdeJson(message: string)
    | SigningError(signer: SignerError)
    | TransactionError(txError: TransactionError)
    | Custom(message: string)

  datatype RpcClientError = RpcClientError(kind: RpcClientErrorKind)

  datatype BanksClientSpecificError =
    | ClientError(message: string)
    | Io(io: IoError)
    | RpcError(message: string)

  datatype RpcClientSpecificError =
    | Io(io: IoError)
    | Reqwest(message: string)
    | RpcError(rpc: RpcError)
    | SerdeJson(message: string)
    | Custom(message: string)

  datatype ClientSpecificError =
    | BanksClient(banks: BanksClientSpecificError)
    | RpcClient(rpc: RpcClientSpecificError)

  /** The error every capability reports. */
  datatype ClientError =
    | AccountAlreadyExists(key: Pubkey)
    | AccountNotFound(key: Pubkey)
    | AccountDidNotDeserialize(key: Pubkey)
    | AccountDidNotSerialize(key: Pubkey)
    | CompileError(compile: MessageCompileError)
    | SigningError(signer: SignerError)
    | AddressLookupError(lookup: AddressLookupError)
    | TransactionError(txError: TransactionError)
    | ClientSpecific(specific: ClientSpecificError)
    | DomainSpecific(message: string)

  type ClientResult<T> = Result<T, ClientError>

  /** `ClientError::get_transaction_error`. */
  function GetTransactionError(e: ClientError): (r: Option<TransactionError>)
    ensures r.Some? <==> e.TransactionError?
    ensures r.Some? ==> r.value == e.txError
  {
    match e
    case TransactionError(t) => Some(t)
    case _ => None
  }

  /** `From<BanksClientError> for ClientError`. A simulation error is
      unreachable there (the Rust client panics), so it is excluded. */
  function FromBanksClientError(e: BanksClientError): (r: ClientError)
    requires !e.SimulationError?
    ensures e.TransactionError? <==> r.TransactionError?
    ensures e.TransactionError? ==> r.txError == e.txError
    ensures r.ClientSpecific? <==> !e.TransactionError?
    ensures r.ClientSpecific? ==> r.specific.BanksClient?
    ensures e.ClientError? ==> r == ClientSpecific(BanksClient(BanksClientSpecificError.ClientError(e.message)))
    ensures e.Io? ==> r == ClientSpecific(BanksClient(BanksClientSpecificError.Io(e.io)))
    ensures e.RpcError? ==> r == ClientSpecific(BanksClient(BanksClientSpecificError.RpcError(e.message)))
  {
    match e
    case ClientError(m) => ClientSpecific(BanksClient(BanksClientSpecificError.ClientError(m)))
    case Io(io) => ClientSpecific(BanksClient(BanksClientSpecificError.Io(io)))
    case RpcError(m) => ClientSpecific(BanksClient(BanksClientSpecificError.RpcError(m)))
    case TransactionError(t) => ClientError.TransactionError(t)
  }

  /** `From<RpcClientError> for ClientError`. */
  function FromRpcClientError(e: RpcClientError): (r: ClientError)
    ensures e.kind.TransactionError? <==> r.TransactionError?
    ensures e.kind.TransactionError? ==> r.txError == e.kind.txError
    ensures e.kind.SigningError? <==> r.SigningError?
    ensures e.kind.SigningError? ==> r.signer == e.kind.signer
    ensures r.ClientSpecific? <==> !(e.kind.TransactionError? || e.kind.SigningError?)
    ensures r.ClientSpecific? ==> r.specific.RpcClient?
    ensures e.kind.Io? ==> r == ClientSpecific(RpcClient(RpcClientSpecificError.Io(e.kind.io)))
    ensures e.kind.Reqwest? ==> r == ClientSpecific(RpcClient(RpcClientSpecificError.Reqwest(e.kind.message)))
    ensures e.kind.RpcError? ==> r == ClientSpecific(RpcClient(RpcClientSpecificError.RpcError(e.kind.rpc)))
    ensures e.kind.SerdeJson? ==> r == ClientSpecific(RpcClient(RpcClientSpecificError.SerdeJson(e.kind.message)))
    ensures e.kind.Custom? ==> r == ClientSpecific(RpcClient(RpcClientSpecificError.Custom(e.kind.message)))
  {
    match e.kind
    case Io(io) => ClientSpecific(RpcClient(RpcClientSpecificError.Io(io)))
    case Reqwest(m) => ClientSpecific(RpcClient(RpcClientSpecificError.Reqwest(m)))
    case RpcError(rpc) => ClientSpecific(RpcClient(RpcClientSpecificError.RpcError(rpc)))
    case SerdeJson(m) => ClientSpecific(RpcClient(RpcClientSpecificError.SerdeJson(m)))
    case SigningError(s) => ClientError.SigningError(s)
    case TransactionError(t) => ClientError.TransactionError(t)
    case Custom(m) => ClientSpecific(RpcClient(RpcClientSpecificError.Custom(m)))
  }

  /** A ledger-level failure survives either backend's translation
      verbatim, and nothing else is reported as one. */
  lemma TransactionErrorPassesThrough(b: BanksClientError, r: RpcClientError)
    requires !b.SimulationError?
    ensures GetTransactionError(FromBanksClientError(b))
      == (if b.TransactionError? then Some(b.txError) else None)
    ensures GetTransactionError(FromRpcClientError(r))
      == (if r.kind.TransactionError? then Some(r.kind.txError) else None)
  {
  }

  /** Backend-specific translations never collapse two distinct native
      errors into one client error. */
  lemma TranslationsAreInjective(b1: BanksClientError, b2: BanksClientError, r1: RpcClientError, r2: RpcClientError)
    requires !b1.SimulationError? && !b2.SimulationError?
    ensures FromBanksClientError(b1) == FromBanksClientError(b2) ==> b1 == b2
    ensures FromRpcClientError(r1) == FromRpcClientError(r2) ==> r1 == r2
  {
  }
}

=== FILE: execution.dfy ===
/** The canonical execution result model (client/client-api/src/execution.rs):
    the outcome of a processed or simulated transaction and, for
    simulations, the post-execution state of every account it touched. */
module Execution {
  import opened Results
  import opened Ledger
  import opened Transactions
  import opened Errors

  /** Post-execution accounts: a key mapped to `None` was closed (or never
      funded); a key not in the map was not touched by the transaction. */
  datatype PostAccounts = PostAccounts(accounts: map<Pubkey, Option<Account>>) {

    function Len(): nat {
      |accounts|
    }

    /** `PostAccounts::get_account`: the live account, if any. */
    function GetAccount(key: Pubkey): (r: Option<Account>)
      ensures r.Some? <==> key in accounts && accounts[key].Some?
      ensures r.Some? ==> r.value == accounts[key].value
    {
      if key in accounts then accounts[key] else None
    }

    /** `PostAccounts::try_get_account`: a live account, or an error saying
        whether the key was closed or never part of the transaction. */
    function TryGetAccount(key: Pubkey): (r: Result<Account, PostAccountsError>)
      ensures r.Ok? <==> key in accounts && accounts[key].Some?
      ensures r.Ok? ==> r.value == accounts[key].value
      ensures r == Err(PostAccountsError.AccountClosed(key)) <==> key in accounts && accounts[key].None?
      ensures r == Err(PostAccountsError.AccountNotFound(key)) <==> key !in accounts
    {
      if key !in accounts then Err(PostAccountsError.AccountNotFound(key))
      else match accounts[key]
        case Some(a) => Ok(a)
        case None => Err(PostAccountsError.AccountClosed(key))
    }

    /** `PostAccounts::deserialize_account` with the account decoder `decode`
        (Anchor's `try_deserialize`, an uninterpreted codec here). */
    function DeserializeAccount<T>(key: Pubkey, decode: seq<Byte> -> Option<T>): (r: Result<T, PostAccountsError>)
      ensures TryGetAccount(key).Err? ==> r == Err(TryGetAccount(key).error)
      ensures (TryGetAccount(key).Ok? && decode(TryGetAccount(key).value.data).None?)
                ==> r == Err(PostAccountsError.AccountDidNotDeserialize(key))
      ensures r.Ok? <==> TryGetAccount(key).Ok? && decode(TryGetAccount(key).value.data).Some?
      ensures r.Ok? ==> Some(r.value) == decode(accounts[key].value.data)
    {
      var account :- TryGetAccount(key);
      decode(account.data).OkOr(PostAccountsError.AccountDidNotDeserialize(key))
    }
  }

  datatype PostAccountsError =
    | AccountNotFound(key: Pubkey)
    | AccountClosed(key: Pubkey)
    | AccountDidNotDeserialize(key: Pubkey)

  /** `From<PostAccountsError> for ClientError`: a closed account is
      reported to clients as not found. */
  function PostAccountsErrorToClient(e: PostAccountsError): (r: ClientError)
    ensures r.AccountNotFound? <==> (e.AccountNotFound? || e.AccountClosed?)
    ensures r.AccountDidNotDeserialize? <==> e.AccountDidNotDeserialize?
    ensures r.key == e.key
  {
    match e
    case AccountNotFound(k) => ClientError.AccountNotFound(k)
    case AccountClosed(k) => ClientError.AccountNotFound(k)
    case AccountDidNotDeserialize(k) => ClientError.AccountDidNotDeserialize(k)
  }

  /** The outcome of an executed or simulated transaction. */
  datatype ExecutionOutput = ExecutionOutput(
    transaction: VersionedTransaction,
    result: Result<(), TransactionError>,
    logs: seq<string>,
    computeUnitsConsumed: U64,
    returnData: Option<ReturnData>,
    fee: U64)
  {
    predicate IsSuccess() {
      result.Ok?
    }

    /** `ExecutionOutput::try_success`: the output itself when it succeeded,
        otherwise exactly its transaction error. */
    function TrySuccess(): (r: Result<ExecutionOutput, TransactionError>)
      ensures r.Ok? <==> IsSuccess()
      ensures r.Ok? ==> r.value == this
      ensures r.Err? ==> r.error == result.error
    {
      if result.Err? then Err(result.error) else Ok(this)
    }

    /** `ExecutionOutput::signature`: the first (fee payer's) signature. */
    function Signature(): (r: Signature)
      requires |transaction.signatures| > 0
      ensures r in transaction.signatures && r == transaction.signatures[0]
    {
      transaction.signatures[0]
    }
  }

  /** An execution outcome plus the post-execution account states. */
  datatype ExecutionEffect = ExecutionEffect(
    transaction: VersionedTransaction,
    result: Result<(), TransactionError>,
    logs: seq<string>,
    computeUnitsConsumed: U64,
    returnData: Option<ReturnData>,
    fee: U64,
    postAccounts: PostAccounts)
  {
    predicate IsSuccess() {
      result.Ok?
    }

    /** `ExecutionEffect::get_post_account`: `None` for a key the
        transaction did not touch, `Some(None)` for a closed account. */
    function GetPostAccount(key: Pubkey): (r: Option<Option<Account>>)
      ensures r.None? <==> key !in postAccounts.accounts
      ensures r == Some(None) <==> key in postAccounts.accounts && postAccounts.accounts[key].None?
      ensures r.Some? && r.value.Some? ==> postAccounts.accounts[key] == r.value
    {
      if key in postAccounts.accounts then Some(postAccounts.accounts[key]) else None
    }

    /** `ExecutionEffect::try_deserialize_post_account`. */
    function TryDeserializePostAccount<T>(key: Pubkey, decode: seq<Byte> -> Option<T>): (r: ClientResult<T>)
      ensures r.Ok? <==> postAccounts.DeserializeAccount(key, decode).Ok?
      ensures r.Ok? ==> r.value == postAccounts.DeserializeAccount(key, decode).value
      ensures r.Err? ==> r.error == PostAccountsErrorToClient(postAccounts.DeserializeAccount(key, decode).error)
    {
      postAccounts.DeserializeAccount(key, decode).MapErr(PostAccountsErrorToClient)
    }

    /** `ExecutionEffect::custom_error_code`: the program-defined error code,
        present exactly when an instruction failed with `Custom`. */
    function CustomErrorCode(): (r: Option<U32>)
      ensures r.Some? <==> exists i: U8, c: U32 :: result == Err(InstructionError(i, InstructionError.Custom(c)))
      ensures r.Some? ==> result.Err? && result.error.cause == InstructionError.Custom(r.value)
    {
      if result.Err? && result.error.InstructionError? && result.error.cause.Custom?
      then Some(result.error.cause.code)
      else None
    }
  }

  /** `From<ExecutionEffect> for ExecutionOutput`: drops the post accounts
      and keeps everything else. */
  function EffectToOutput(e: ExecutionEffect): (r: ExecutionOutput)
    ensures r.transaction == e.transaction && r.result == e.result && r.logs == e.logs
    ensures r.computeUnitsConsumed == e.computeUnitsConsumed
    ensures r.returnData == e.returnData && r.fee == e.fee
  {
    ExecutionOutput(e.transaction, e.result, e.logs, e.computeUnitsConsumed, e.returnData, e.fee)
  }

  /** Projection loses nothing but the post accounts: any effect with the
      same outcome projects to the same output, and success is preserved. */
  lemma EffectToOutputKeepsOutcome(e: ExecutionEffect, p: PostAccounts)
    ensures EffectToOutput(e).IsSuccess() <==> e.IsSuccess()
    ensures EffectToOutput(e.(postAccounts := p)) == EffectToOutput(e)
  {
  }

  /** The two-state and three-state accessors agree: `get_account` finds
      an account exactly when `try_get_account` succeeds, and
      `get_post_account` tells apart the two failures `try_get_account`
      reports. */
  lemma PostAccountAccessorsAgree(e: ExecutionEffect, key: Pubkey)
    ensures e.postAccounts.GetAccount(key).Some? <==> e.postAccounts.TryGetAccount(key).Ok?
    ensures e.GetPostAccount(key) == Some(e.postAccounts.GetAccount(key))
              || (e.GetPostAccount(key).None? && e.postAccounts.GetAccount(key).None?)
    ensures (e.postAccounts.TryGetAccount(key) == Err(PostAccountsError.AccountClosed(key)))
              <==> e.GetPostAccount(key) == Some(None)
    ensures (e.postAccounts.TryGetAccount(key) == Err(PostAccountsError.AccountNotFound(key)))
              <==> e.GetPostAccount(key).None?
  {
  }

  /** Builds post accounts from (key, state) pairs the way collecting into
      a `BTreeMap` does: a later pair for the same key replaces an earlier one. */
  function CollectPostAccounts(pairs: seq<(Pubkey, Option<Account>)>): (r: PostAccounts)
    ensures forall i :: 0 <= i < |pairs| ==> pairs[i].0 in r.accounts
    ensures forall k :: k in r.accounts ==> exists i :: 0 <= i < |pairs| && pairs[i].0 == k
    decreases |pairs|
  {
    if |pairs| == 0 then PostAccounts(map[])
    else
      var init := CollectPostAccounts(pairs[..|pairs| - 1]);
      var last := pairs[|pairs| - 1];
      assert forall i :: 0 <= i < |pairs| - 1 ==> pairs[..|pairs| - 1][i] == pairs[i];
      PostAccounts(init.accounts[last.0 := last.1])
  }

  /** The state recorded for a key is that of its last pair. */
  lemma {:induction false} CollectPostAccountsLastWins(pairs: seq<(Pubkey, Option<Account>)>, i: nat)
    requires i < |pairs|
    requires forall j :: i < j < |pairs| ==> pairs[j].0 != pairs[i].0
    ensures CollectPostAccounts(pairs).accounts[pairs[i].0] == pairs[i].1
    decreases |pairs|
  {
    if i < |pairs| - 1 {
      var init := pairs[..|pairs| - 1];
      assert init[i] == pairs[i];
      CollectPostAccountsLastWins(init, i);
    }
  }

  /** With distinct keys there is exactly one post account per pair. */
  lemma {:induction false} CollectPostAccountsSize(pairs: seq<(Pubkey, Option<Account>)>)
    requires forall i, j :: 0 <= i < j < |pairs| ==> pairs[i].0 != pairs[j].0
    ensures CollectPostAccounts(pairs).Len() == |pairs|
    decreases |pairs|
  {
    if |pairs| > 0 {
      var init := pairs[..|pairs| - 1];
      CollectPostAccountsSize(init);
      assert pairs[|pairs| - 1].0 !in CollectPostAccounts(init).accounts;
    }
  }

  /** When every pair's state is a function of its key, the collected map
      holds exactly that state for every key, whatever the repeats. */
  lemma {:induction false} CollectPostAccountsFunctional(pairs: seq<(Pubkey, Option<Account>)>, g: Pubkey -> Option<Account>)
    requires forall i :: 0 <= i < |pairs| ==> pairs[i].1 == g(pairs[i].0)
    ensures forall k :: k in CollectPostAccounts(pairs).accounts ==> CollectPostAccounts(pairs).accounts[k] == g(k)
    decreases |pairs|
  {
    if |pairs| > 0 {
      var init := pairs[..|pairs| - 1];
      assert forall i :: 0 <= i < |init| ==> init[i] == pairs[i];
      CollectPostAccountsFunctional(init, g);
    }
  }
}

=== FILE: executor_ext.dfy ===
/** Transaction compilation on top of the blockhash getter, and the
    compile-then-submit helpers (client/client-api/src/exts/executor.rs).
    Message compilation and transaction signing are SDK routines, given as
    the functions of a `Compiler`. */
module ExecutorExt {
  import opened Results
  import opened Ledger
  import opened Transactions
  import opened Errors
  import opened Capabilities

  /** A signer collection (`Signers`): its keys and signing, each in an
      infallible and a fallible form. */
  datatype Signers = Signers(
    pubkeys: seq<Pubkey>,
    tryPubkeys: Result<seq<Pubkey>, SignerError>,
    signMessage: seq<Byte> -> seq<Signature>,
    trySignMessage: seq<Byte> -> Result<seq<Signature>, SignerError>,
    isInteractive: bool)

  /** One signer (`&impl Signer`). */
  datatype Signer = Signer(
    pubkey: Pubkey,
    tryPubkey: Result<Pubkey, SignerError>,
    sign: seq<Byte> -> Signature,
    trySign: seq<Byte> -> Result<Signature, SignerError>,
    isInteractive: bool)

  /** The fallible keys of a signer list: all of them, or the first error. */
  function TryPubkeysOf(signers: seq<Signer>): (r: Result<seq<Pubkey>, SignerError>)
    ensures r.Ok? <==> forall i :: 0 <= i < |signers| ==> signers[i].tryPubkey.Ok?
    ensures r.Ok? ==> |r.value| == |signers| && forall i :: 0 <= i < |signers| ==> r.value[i] == signers[i].tryPubkey.value
  {
    if |signers| == 0 then Ok([])
    else
      var first :- signers[0].tryPubkey;
      var rest :- TryPubkeysOf(signers[1..]);
      Ok([first] + rest)
  }

  /** The fallible signatures of a signer list: all of them, or the first
      error. */
  function TrySignOf(signers: seq<Signer>, message: seq<Byte>): (r: Result<seq<Signature>, SignerError>)
    ensures r.Ok? <==> forall i :: 0 <= i < |signers| ==> signers[i].trySign(message).Ok?
    ensures r.Ok? ==> |r.value| == |signers| && forall i :: 0 <= i < |signers| ==> r.value[i] == signers[i].trySign(message).value
  {
    if |signers| == 0 then Ok([])
    else
      var first :- signers[0].trySign(message);
      var rest :- TrySignOf(signers[1..], message);
      Ok([first] + rest)
  }

  /** `Signers for Vec<&dyn Signer>`: each method maps over the list, in
      order. */
  function SignerList(signers: seq<Signer>): (s: Signers)
    ensures |s.pubkeys| == |signers| && forall i :: 0 <= i < |signers| ==> s.pubkeys[i] == signers[i].pubkey
    ensures s.tryPubkeys == TryPubkeysOf(signers)
    ensures s.isInteractive <==> exists i :: 0 <= i < |signers| && signers[i].isInteractive
  {
    Signers(
      seq(|signers|, i requires 0 <= i < |signers| => signers[i].pubkey),
      TryPubkeysOf(signers),
      (message: seq<Byte>) => seq(|signers|, i requires 0 <= i < |signers| => signers[i].sign(message)),
      (message: seq<Byte>) => TrySignOf(signers, message),
      exists i :: 0 <= i < |signers| && signers[i].isInteractive)
  }

  /** The positions of the first occurrence of each distinct key, in
      increasing order. */
  function FirstOccurrences(keys: seq<Pubkey>): (ix: seq<nat>)
    ensures forall j :: 0 <= j < |ix| ==> ix[j] < |keys|
    ensures forall j, k :: 0 <= j < k < |ix| ==> ix[j] < ix[k]
    decreases |keys|
  {
    if |keys| == 0 then []
    else
      var p := FirstOccurrences(keys[..|keys| - 1]);
      if keys[|keys| - 1] in keys[..|keys| - 1] then p else p + [|keys| - 1]
  }

  /** A position is recorded exactly when its key does not occur earlier. */
  lemma {:induction false} FirstOccurrencesExact(keys: seq<Pubkey>, i: nat)
    requires i < |keys|
    ensures i in FirstOccurrences(keys) <==> keys[i] !in keys[..i]
    decreases |keys|
  {
    var init := keys[..|keys| - 1];
    if i < |keys| - 1 {
      FirstOccurrencesExact(init, i);
      assert init[..i] == keys[..i];
    }
  }

  /** The position of the first occurrence of `x`. */
  function FirstIndexOf(keys: seq<Pubkey>, x: Pubkey): (m: nat)
    requires x in keys
    ensures m < |keys| && keys[m] == x && x !in keys[..m]
  {
    if keys[0] == x then 0
    else
      assert keys == [keys[0]] + keys[1..];
      var m := FirstIndexOf(keys[1..], x);
      assert keys[..m + 1] == [keys[0]] + keys[1..][..m];
      m + 1
  }

  /** `PrimeSigners::new`: scans the signer keys once, remembering the keys
      seen so far, and records the position of every key not seen before. */
  method PrimeIndexes(keys: seq<Pubkey>) returns (indexes: seq<nat>)
    ensures indexes == FirstOccurrences(keys)
  {
    var seen: set<Pubkey> := {};
    indexes := [];
    var i := 0;
    while i < |keys|
      invariant 0 <= i <= |keys|
      invariant seen == set k | k in keys[..i]
      invariant indexes == FirstOccurrences(keys[..i])
    {
      assert keys[..i + 1][..i] == keys[..i];
      if keys[i] !in seen {
        seen := seen + {keys[i]};
        indexes := indexes + [i];
      }
      assert keys[..i + 1] == keys[..i] + [keys[i]];
      i := i + 1;
    }
    assert keys[..i] == keys;
  }

  /** Signers narrowed to the first occurrence of each key. */
  datatype PrimeSigners = PrimeSigners(signers: Signers, indexes: seq<nat>) {

    predicate Covers(n: nat) {
      forall j :: 0 <= j < |indexes| ==> indexes[j] < n
    }

    /** `indexes.iter().map(|&i| xs[i])`. */
    function Project<X>(xs: seq<X>): (r: seq<X>)
      requires Covers(|xs|)
      ensures |r| == |indexes|
      ensures forall j :: 0 <= j < |r| ==> r[j] == xs[indexes[j]]
    {
      seq(|indexes|, j requires 0 <= j < |indexes| => xs[indexes[j]])
    }

    function Pubkeys(): (r: seq<Pubkey>)
      requires Covers(|signers.pubkeys|)
      ensures |r| == |indexes|
      ensures forall j :: 0 <= j < |r| ==> r[j] == signers.pubkeys[indexes[j]]
    {
      Project(signers.pubkeys)
    }

    function TryPubkeys(): (r: Result<seq<Pubkey>, SignerError>)
      requires signers.tryPubkeys.Ok? ==> Covers(|signers.tryPubkeys.value|)
      ensures r.Err? <==> signers.tryPubkeys.Err?
      ensures r.Err? ==> r.error == signers.tryPubkeys.error
      ensures r.Ok? ==> r.value == Project(signers.tryPubkeys.value)
    {
      var keys :- signers.tryPubkeys;
      Ok(Project(keys))
    }

    function SignMessage(message: seq<Byte>): (r: seq<Signature>)
      requires Covers(|signers.signMessage(message)|)
      ensures |r| == |indexes|
      ensures forall j :: 0 <= j < |r| ==> r[j] == signers.signMessage(message)[indexes[j]]
    {
      Project(signers.signMessage(message))
    }

    function TrySignMessage(message: seq<Byte>): (r: Result<seq<Signature>, SignerError>)
      requires signers.trySignMessage(message).Ok? ==> Covers(|signers.trySignMessage(message).value|)
      ensures r.Err? <==> signers.trySignMessage(message).Err?
      ensures r.Err? ==> r.error == signers.trySignMessage(message).error
      ensures r.Ok? ==> r.value == Project(signers.trySignMessage(message).value)
    {
      var sigs :- signers.trySignMessage(message);
      Ok(Project(sigs))
    }

    function IsInteractive(): (r: bool)
      ensures r == signers.isInteractive
    {
      signers.isInteractive
    }
  }

  /** The de-duplicated keys have no repeats, keep the original order, and
      cover every distinct signer key. */
  lemma PrimeKeysDistinctOrderedCovering(keys: seq<Pubkey>)
    ensures var ps := PrimeSigners(Signers(keys, Ok(keys), _ => [], _ => Ok([]), false), FirstOccurrences(keys));
            var primed := ps.Pubkeys();
            && (forall j, k :: 0 <= j < k < |primed| ==> primed[j] != primed[k])
            && (forall j, k :: 0 <= j < k < |primed| ==> ps.indexes[j] < ps.indexes[k])
            && (forall i :: 0 <= i < |keys| ==> keys[i] in primed)
  {
    var ix := FirstOccurrences(keys);
    var ps := PrimeSigners(Signers(keys, Ok(keys), _ => [], _ => Ok([]), false), ix);
    var primed := ps.Pubkeys();
    forall j, k | 0 <= j < k < |primed|
      ensures primed[j] != primed[k]
    {
      assert ix[k] in ix;
      FirstOccurrencesExact(keys, ix[k]);
      assert keys[ix[j]] in keys[..ix[k]];
    }
    forall i | 0 <= i < |keys|
      ensures keys[i] in primed
    {
      var m := FirstIndexOf(keys, keys[i]);
      FirstOccurrencesExact(keys, m);
      var j :| 0 <= j < |ix| && ix[j] == m;
      assert primed[j] == keys[i];
    }
  }

  /** Signing through the de-duplicated view keeps keys and signatures
      aligned: when the underlying signature `k` is by key `k`, projected
      signature `j` is by projected key `j`. */
  lemma PrimeSignaturesAligned(ps: PrimeSigners, message: seq<Byte>, signedBy: Signature -> Pubkey)
    requires |ps.signers.signMessage(message)| == |ps.signers.pubkeys|
    requires ps.Covers(|ps.signers.pubkeys|)
    requires forall k :: 0 <= k < |ps.signers.pubkeys| ==> signedBy(ps.signers.signMessage(message)[k]) == ps.signers.pubkeys[k]
    ensures |ps.SignMessage(message)| == |ps.Pubkeys()|
    ensures forall j :: 0 <= j < |ps.Pubkeys()| ==> signedBy(ps.SignMessage(message)[j]) == ps.Pubkeys()[j]
  {
  }

  /** A payer and one other signer, as every two-signer processor passes
      them: the keys are listed and read payer first, and de-duplication
      keeps the payer alone when the two keys coincide, both otherwise. */
  lemma {:induction false} PairSignerKeys(payer: Signer, other: Signer)
    ensures SignerList([payer, other]).pubkeys == [payer.pubkey, other.pubkey]
    ensures TryPubkeysOf([payer, other])
            == if payer.tryPubkey.Err? then Err(payer.tryPubkey.error)
               else if other.tryPubkey.Err? then Err(other.tryPubkey.error)
               else Ok([payer.tryPubkey.value, other.tryPubkey.value])
    ensures payer.tryPubkey.Ok? && other.tryPubkey.Ok? ==>
              FirstOccurrences([payer.tryPubkey.value, other.tryPubkey.value])
              == if payer.tryPubkey.value == other.tryPubkey.value then [0] else [0, 1]
  {
    assert [payer, other][1..] == [other] && [other][1..] == [];
    assert TryPubkeysOf([other][1..]) == Ok([]);
    if other.tryPubkey.Ok? {
      assert [other.tryPubkey.value] + [] == [other.tryPubkey.value];
      assert TryPubkeysOf([other]) == Ok([other.tryPubkey.value]);
    }
    if payer.tryPubkey.Ok? && other.tryPubkey.Ok? {
      assert [payer.tryPubkey.value] + [other.tryPubkey.value] == [payer.tryPubkey.value, other.tryPubkey.value];
      PairFirstOccurrences(payer.tryPubkey.value, other.tryPubkey.value);
    }
  }

  /** De-duplicating two keys keeps the first alone when they coincide. */
  lemma PairFirstOccurrences(a: Pubkey, b: Pubkey)
    ensures FirstOccurrences([a, b]) == if a == b then [0] else [0, 1]
  {
    assert [a, b][..1] == [a] && [a][..0] == [];
    assert FirstOccurrences([a][..0]) == [];
    assert FirstOccurrences([a]) == [0];
    assert b in [a] <==> a == b;
  }

  /** The de-duplicated keys of a payer and one other signer are exactly
      the two, none repeated, the payer's first. */
  lemma PairPrimeKeysExactAndDistinct(signers: Signers, payer: Pubkey, other: Pubkey)
    requires signers.tryPubkeys == Ok([payer, other])
    ensures var primed := PrimeSigners(signers, FirstOccurrences([payer, other])).TryPubkeys();
            && primed.Ok?
            && (forall k :: k in primed.value <==> k == payer || k == other)
            && (forall i, j :: 0 <= i < j < |primed.value| ==> primed.value[i] != primed.value[j])
            && 1 <= |primed.value| <= 2 && primed.value[0] == payer
  {
    PairFirstOccurrences(payer, other);
    var ps := PrimeSigners(signers, FirstOccurrences([payer, other]));
    assert ps.Project([payer, other]) == if payer == other then [payer] else [payer, other];
  }

  /** The SDK routines compilation relies on: `Message::try_compile` of a
      version-0 message, and `VersionedTransaction::try_new`. */
  datatype Compiler = Compiler(
    tryCompile: (Pubkey, seq<Instruction>, seq<AddressLookupTableAccount>, Hash) -> Result<Message, MessageCompileError>,
    tryNew: (Message, PrimeSigners) -> Result<VersionedTransaction, SignerError>)

  /** `CompileTransaction::compile_transaction`: fetches the latest blockhash
      once, compiles the message against it, de-duplicates the signers and
      signs. The first failing step decides the error. */
  function CompileTransaction(
    w: Wrapped<Getter>, compiler: Compiler, instructions: seq<Instruction>, payer: Pubkey,
    signers: Signers, tables: seq<AddressLookupTableAccount>): (r: ClientResult<VersionedTransaction>)
    ensures w.Core().getLatestBlockhash.Err? ==> r == Err(w.Core().getLatestBlockhash.error)
    ensures w.Core().getLatestBlockhash.Ok? ==>
              var compiled := compiler.tryCompile(payer, instructions, tables, w.Core().getLatestBlockhash.value);
              && (compiled.Err? ==> r == Err(CompileError(compiled.error)))
              && (compiled.Ok? && signers.tryPubkeys.Err? ==> r == Err(ClientError.SigningError(signers.tryPubkeys.error)))
              && (compiled.Ok? && signers.tryPubkeys.Ok? ==>
                   var signed := compiler.tryNew(compiled.value, PrimeSigners(signers, FirstOccurrences(signers.tryPubkeys.value)));
                   r == (if signed.Ok? then Ok(signed.value) else Err(ClientError.SigningError(signed.error))))
  {
    var recentBlockhash :- GetLatestBlockhash(w);
    var message :- compiler.tryCompile(payer, instructions, tables, recentBlockhash).MapErr(e => CompileError(e));
    var keys :- signers.tryPubkeys.MapErr(e => ClientError.SigningError(e));
    var prime := PrimeSigners(signers, FirstOccurrences(keys));
    compiler.tryNew(message, prime).MapErr(e => ClientError.SigningError(e))
  }

  /** `compiling_process_transaction`: compile, then submit; a compile
      error is returned without submitting. */
  function CompilingProcessTransaction<T>(
    w: Wrapped<Getter>, e: Wrapped<Executor<T>>, compiler: Compiler, instructions: seq<Instruction>,
    payer: Pubkey, signers: Signers, tables: seq<AddressLookupTableAccount>): (r: ClientResult<T>)
    ensures var tx := CompileTransaction(w, compiler, instructions, payer, signers, tables);
            r == if tx.Err? then Err(tx.error) else e.Core().process(tx.value)
  {
    var transaction :- CompileTransaction(w, compiler, instructions, payer, signers, tables);
    ProcessTransaction(e, transaction)
  }

  /** `compiling_simulate_transaction`: compile, then simulate. */
  function CompilingSimulateTransaction<T>(
    w: Wrapped<Getter>, e: Wrapped<Executor<T>>, compiler: Compiler, instructions: seq<Instruction>,
    payer: Pubkey, signers: Signers, tables: seq<AddressLookupTableAccount>): (r: ClientResult<T>)
    ensures var tx := CompileTransaction(w, compiler, instructions, payer, signers, tables);
            r == if tx.Err? then Err(tx.error) else e.Core().simulate(tx.value)
  {
    var transaction :- CompileTransaction(w, compiler, instructions, payer, signers, tables);
    SimulateTransaction(e, transaction)
  }
}

=== FILE: feature.dfy ===
/** Feature gates read through a backend (client/client-sys/src/feature.rs):
    a feature account's activation, its status and the cluster's feature
    set. The feature account's bincode layout is a codec, given as a
    function; the table of known feature names is given as a set of ids. */
module Features {
  import opened Results
  import opened Ledger
  import opened Errors
  import opened Capabilities

  /** `Feature`: the slot at which the feature was activated, if it was. */
  datatype Feature = Feature(activatedAt: Option<U64>)

  /** `Feature::size_of()`: one option tag and a `u64`. */
  const FeatureSize: U64 := 9

  /** A feature's status: no account, an account still waiting for
      activation, or activated at a slot. */
  datatype FeatureStatus = Inactive | Pending | Active(slot: U64)

  datatype Ordering = Less | Equal | Greater {
    function Reverse(): Ordering {
      match this
      case Less => Greater
      case Equal => Equal
      case Greater => Less
    }
  }

  function CompareSlots(a: U64, b: U64): (o: Ordering)
    ensures o == Equal <==> a == b
    ensures o == Less <==> a < b
  {
    if a < b then Less else if a == b then Equal else Greater
  }

  /** `Ord for FeatureStatus`: activated features first, earlier slots
      before later ones, then pending, then inactive. */
  function Compare(a: FeatureStatus, b: FeatureStatus): (o: Ordering)
    ensures o == Equal <==> a == b
    ensures o == Less <==> Rank(a) < Rank(b)
    ensures o == Greater <==> Rank(a) > Rank(b)
  {
    match (a, b)
    case (Inactive, Inactive) => Equal
    case (Inactive, _) => Greater
    case (_, Inactive) => Less
    case (Pending, Pending) => Equal
    case (Pending, _) => Greater
    case (_, Pending) => Less
    case (Active(s), Active(t)) => CompareSlots(s, t)
  }

  /** The rank a status sorts by: activations by slot, then pending, then
      inactive, each above every slot. */
  function Rank(s: FeatureStatus): int {
    match s
    case Active(slot) => slot
    case Pending => U64Max + 1
    case Inactive => U64Max + 2
  }

  /** The comparison orders statuses exactly as their ranks do, so it is a
      total order: reflexive, antisymmetric, transitive and total. */
  lemma CompareIsRankOrder(a: FeatureStatus, b: FeatureStatus)
    ensures Compare(a, b) == Equal <==> a == b
    ensures Compare(a, b) == Less <==> Rank(a) < Rank(b)
    ensures Compare(a, b) == Greater <==> Rank(a) > Rank(b)
    ensures Compare(b, a) == Compare(a, b).Reverse()
  {
  }

  lemma CompareIsTransitive(a: FeatureStatus, b: FeatureStatus, c: FeatureStatus)
    requires Compare(a, b) != Greater && Compare(b, c) != Greater
    ensures Compare(a, c) != Greater
    ensures Compare(a, c) == Equal ==> a == b && b == c
  {
    CompareIsRankOrder(a, b);
    CompareIsRankOrder(b, c);
    CompareIsRankOrder(a, c);
  }

  /** Every activation sorts before every pending feature, which sorts
      before every inactive one. */
  lemma ActiveBeforePendingBeforeInactive(slot: U64)
    ensures Compare(Active(slot), Pending) == Less
    ensures Compare(Pending, Inactive) == Less
    ensures Compare(Active(slot), Inactive) == Less
  {
  }

  /** `From<Feature> for FeatureStatus`. */
  function StatusOf(f: Feature): (s: FeatureStatus)
    ensures s != Inactive
    ensures s == Pending <==> f.activatedAt.None?
    ensures f.activatedAt.Some? ==> s == Active(f.activatedAt.value)
  {
    match f.activatedAt
    case Some(slot) => Active(slot)
    case None => Pending
  }

  /** `From<FeatureStatus> for Option<Feature>`. */
  function FeatureOf(s: FeatureStatus): (f: Option<Feature>)
    ensures f.None? <==> s == Inactive
    ensures s.Active? ==> f == Some(Feature(Some(s.slot)))
    ensures s == Pending ==> f == Some(Feature(None))
  {
    match s
    case Inactive => None
    case Pending => Some(Feature(None))
    case Active(slot) => Some(Feature(Some(slot)))
  }

  /** The two conversions are inverse: a feature survives the round trip
      through its status, and every status but `Inactive` is the status of
      the feature it converts to. */
  lemma StatusRoundTrip(f: Feature, s: FeatureStatus)
    ensures FeatureOf(StatusOf(f)) == Some(f)
    ensures s != Inactive ==> FeatureOf(s).Some? && StatusOf(FeatureOf(s).value) == s
  {
  }

  /** `get_feature`: nothing for a missing account, the decoded feature
      otherwise, or `AccountDidNotDeserialize` when it does not decode. */
  function GetFeature(w: Wrapped<Getter>, id: Pubkey, fromAccount: Account -> Option<Feature>)
    : (r: ClientResult<Option<Feature>>)
    ensures w.Core().getAccount(id).Err? ==> r == Err(w.Core().getAccount(id).error)
    ensures w.Core().getAccount(id) == Ok(None) ==> r == Ok(None)
    ensures w.Core().getAccount(id).Ok? && w.Core().getAccount(id).value.Some? ==>
              var decoded := fromAccount(w.Core().getAccount(id).value.value);
              && (decoded.None? ==> r == Err(ClientError.AccountDidNotDeserialize(id)))
              && (decoded.Some? ==> r == Ok(decoded))
  {
    var found :- GetAccount(w, id);
    match found
    case None => Ok(None)
    case Some(account) =>
      var feature :- fromAccount(account).OkOr(ClientError.AccountDidNotDeserialize(id));
      Ok(Some(feature))
  }

  /** `try_get_feature`: a missing account is `AccountNotFound`. */
  function TryGetFeature(w: Wrapped<Getter>, id: Pubkey, fromAccount: Account -> Option<Feature>)
    : (r: ClientResult<Feature>)
    ensures var g := GetFeature(w, id, fromAccount);
            && (g.Err? ==> r == Err(g.error))
            && (g == Ok(None) ==> r == Err(ClientError.AccountNotFound(id)))
            && (g.Ok? && g.value.Some? ==> r == Ok(g.value.value))
  {
    var found :- GetFeature(w, id, fromAccount);
    found.OkOr(ClientError.AccountNotFound(id))
  }

  /** `get_feature_status`: the status of the stored feature; with no
      account, `Inactive` for a known feature id and nothing otherwise. */
  function GetFeatureStatus(w: Wrapped<Getter>, id: Pubkey, featureNames: set<Pubkey>, fromAccount: Account -> Option<Feature>)
    : (r: ClientResult<Option<FeatureStatus>>)
    ensures var g := GetFeature(w, id, fromAccount);
            && (g.Err? ==> r == Err(g.error))
            && (g.Ok? && g.value.Some? ==> r == Ok(Some(StatusOf(g.value.value))))
            && (g == Ok(None) && id in featureNames ==> r == Ok(Some(Inactive)))
            && (g == Ok(None) && id !in featureNames ==> r == Ok(None))
  {
    var found :- GetFeature(w, id, fromAccount);
    match found
    case Some(feature) => Ok(Some(StatusOf(feature)))
    case None => if id in featureNames then Ok(Some(Inactive)) else Ok(None)
  }

  /** `try_get_feature_status`: an unknown id without an account is
      `AccountNotFound`. */
  function TryGetFeatureStatus(w: Wrapped<Getter>, id: Pubkey, featureNames: set<Pubkey>, fromAccount: Account -> Option<Feature>)
    : (r: ClientResult<FeatureStatus>)
    ensures var g := GetFeatureStatus(w, id, featureNames, fromAccount);
            && (g.Err? ==> r == Err(g.error))
            && (g == Ok(None) ==> r == Err(ClientError.AccountNotFound(id)))
            && (g.Ok? && g.value.Some? ==> r == Ok(g.value.value))
  {
    var found :- GetFeatureStatus(w, id, featureNames, fromAccount);
    found.OkOr(ClientError.AccountNotFound(id))
  }

  /** The status read agrees with the feature read: an account's status
      converts back to the stored feature, and a status is reported
      `Inactive` exactly when a known feature has no account. */
  lemma StatusAgreesWithFeature(w: Wrapped<Getter>, id: Pubkey, featureNames: set<Pubkey>, fromAccount: Account -> Option<Feature>)
    ensures var g := GetFeature(w, id, fromAccount);
            var s := GetFeatureStatus(w, id, featureNames, fromAccount);
            && (s.Ok? <==> g.Ok?)
            && (s.Ok? && s.value.Some? ==> FeatureOf(s.value.value) == g.value)
            && (s == Ok(Some(Inactive)) <==> g == Ok(None) && id in featureNames)
  {
  }

  /** Decodes scanned feature accounts in scan order; the first account
      that does not decode aborts with its key. */
  function DecodeFeatures(entries: seq<(Pubkey, Account)>, fromAccount: Account -> Option<Feature>)
    : (r: ClientResult<seq<(Pubkey, Feature)>>)
    ensures r.Ok? <==> forall i :: 0 <= i < |entries| ==> fromAccount(entries[i].1).Some?
    ensures r.Ok? ==> |r.value| == |entries| && forall i :: 0 <= i < |entries| ==>
                        r.value[i] == (entries[i].0, fromAccount(entries[i].1).value)
    ensures r.Err? ==> exists i :: 0 <= i < |entries| && fromAccount(entries[i].1).None?
                                   && r.error == ClientError.AccountDidNotDeserialize(entries[i].0)
                                   && forall j :: 0 <= j < i ==> fromAccount(entries[j].1).Some?
    decreases |entries|
  {
    if |entries| == 0 then Ok([])
    else
      var first :- fromAccount(entries[0].1).OkOr(ClientError.AccountDidNotDeserialize(entries[0].0));
      var rest :- DecodeFeatures(entries[1..], fromAccount);
      Ok([(entries[0].0, first)] + rest)
  }

  /** `get_features`: a scan of the feature program for accounts of
      exactly `Feature::size_of()` bytes, each decoded. */
  function GetFeatures(w: Wrapped<Getter>, fromAccount: Account -> Option<Feature>)
    : (r: ClientResult<seq<(Pubkey, Feature)>>)
    ensures var scan := w.Core().getProgramAccounts(FeatureProgramId, Some([DataSize(FeatureSize)]));
            && (scan.Err? ==> r == Err(scan.error))
            && (scan.Ok? ==> r == DecodeFeatures(scan.value, fromAccount))
  {
    var entries :- GetProgramAccounts(w, FeatureProgramId, Some([DataSize(FeatureSize)]));
    DecodeFeatures(entries, fromAccount)
  }

  /** `FeatureSet`: activated features with their slots, and the features
      not yet active. */
  datatype FeatureSet = FeatureSet(active: map<Pubkey, U64>, inactive: set<Pubkey>) {

    /** `FeatureSet::activate`. */
    function Activate(id: Pubkey, slot: U64): (s: FeatureSet)
      ensures s.active == active[id := slot] && s.inactive == inactive - {id}
    {
      FeatureSet(active[id := slot], inactive - {id})
    }
  }

  /** `FeatureSet::default()`: every known feature inactive. */
  function DefaultFeatureSet(featureNames: set<Pubkey>): FeatureSet {
    FeatureSet(map[], featureNames)
  }

  /** Among the first `n` features, one with this id is activated. */
  predicate ActivatedAmong(features: seq<(Pubkey, Feature)>, n: nat, id: Pubkey)
    requires n <= |features|
  {
    exists i :: 0 <= i < n && features[i].0 == id && features[i].1.activatedAt.Some?
  }

  /** The first activated feature with this id among the first `n` is
      activated at `slot`. */
  predicate FirstActivationAt(features: seq<(Pubkey, Feature)>, n: nat, id: Pubkey, slot: U64)
    requires n <= |features|
  {
    exists i :: 0 <= i < n && features[i].0 == id && features[i].1.activatedAt == Some(slot)
                && forall j :: 0 <= j < i && features[j].0 == id ==> features[j].1.activatedAt.None?
  }

  /** What `get_feature_set` builds from the first `n` scanned features:
      known features activated by the scan are active at their first
      activation slot, and the other known features are inactive. */
  ghost predicate FeatureSetOf(featureNames: set<Pubkey>, features: seq<(Pubkey, Feature)>, n: nat, s: FeatureSet)
    requires n <= |features|
  {
    && (forall id :: id in s.active <==> id in featureNames && ActivatedAmong(features, n, id))
    && (forall id :: id in s.active ==> FirstActivationAt(features, n, id, s.active[id]))
    && s.inactive == featureNames - s.active.Keys
  }

  /** Folds the activations of the scanned features into the default set,
      skipping pending features and features no longer inactive. */
  method ActivateAll(featureNames: set<Pubkey>, features: seq<(Pubkey, Feature)>) returns (s: FeatureSet)
    ensures FeatureSetOf(featureNames, features, |features|, s)
  {
    s := DefaultFeatureSet(featureNames);
    var k := 0;
    while k < |features|
      invariant 0 <= k <= |features|
      invariant FeatureSetOf(featureNames, features, k, s)
    {
      var (id, feature) := features[k];
      if feature.activatedAt.Some? && id in s.inactive {
        var slot := feature.activatedAt.value;
        assert forall j :: 0 <= j < k && features[j].0 == id ==> features[j].1.activatedAt.None?;
        s := s.Activate(id, slot);
        assert FirstActivationAt(features, k + 1, id, slot);
      }
      forall other | other in s.active
        ensures FirstActivationAt(features, k + 1, other, s.active[other])
      {
        if other != id || feature.activatedAt.None? || (feature.activatedAt.Some? && id !in featureNames) {
          var i :| 0 <= i < k && features[i].0 == other && features[i].1.activatedAt == Some(s.active[other])
                   && forall j :: 0 <= j < i && features[j].0 == other ==> features[j].1.activatedAt.None?;
        }
      }
      k := k + 1;
    }
  }

  /** `get_feature_set`: the default set with every activation the feature
      scan reports applied, or the scan's failure. */
  method GetFeatureSet(w: Wrapped<Getter>, featureNames: set<Pubkey>, fromAccount: Account -> Option<Feature>)
    returns (r: ClientResult<FeatureSet>)
    ensures GetFeatures(w, fromAccount).Err? ==> r == Err(GetFeatures(w, fromAccount).error)
    ensures GetFeatures(w, fromAccount).Ok? ==>
              var features := GetFeatures(w, fromAccount).value;
              r.Ok? && FeatureSetOf(featureNames, features, |features|, r.value)
  {
    var features := GetFeatures(w, fromAccount);
    if features.Err? {
      return Err(features.error);
    }
    var s := ActivateAll(featureNames, features.value);
    return Ok(s);
  }
}

=== FILE: getter_ext.dfy ===
/** The derived readers every multi-reading backend gets for free
    (client/client-api/src/exts/getter.rs): single and multiple reads that
    fail on a missing account, and a lossy multi-read that drops them. */
module GetterExt {
  import opened Results
  import opened Ledger
  import opened Errors
  import opened Capabilities

  function Min(a: nat, b: nat): nat {
    if a <= b then a else b
  }

  /** `GetAccountExt::try_get_account`: the account, or `AccountNotFound`
      when the backend has none; a backend error passes through. */
  function TryGetAccount(w: Wrapped<Getter>, key: Pubkey): (r: ClientResult<Account>)
    ensures w.Core().getAccount(key).Err? ==> r == Err(w.Core().getAccount(key).error)
    ensures r.Ok? ==> w.Core().getAccount(key) == Ok(Some(r.value))
    ensures w.Core().getAccount(key).Ok? && w.Core().getAccount(key).value.Some? ==> r.Ok?
    ensures w.Core().getAccount(key) == Ok(None) ==> r == Err(ClientError.AccountNotFound(key))
  {
    var found :- GetAccount(w, key);
    found.OkOr(ClientError.AccountNotFound(key))
  }

  /** Pairs keys with the reply entries the way `Iterator::zip` does,
      stopping at the shorter of the two. */
  function Zip<A>(keys: seq<Pubkey>, entries: seq<A>): (z: seq<(Pubkey, A)>)
    ensures |z| == Min(|keys|, |entries|)
    ensures forall i :: 0 <= i < |z| ==> z[i] == (keys[i], entries[i])
  {
    seq(Min(|keys|, |entries|), i requires 0 <= i < Min(|keys|, |entries|) => (keys[i], entries[i]))
  }

  /** Collects `acc_opt.ok_or(AccountNotFound(key))` over zipped entries:
      all accounts in order, or the error for the first missing entry. */
  function CollectPresent<A>(z: seq<(Pubkey, Option<A>)>): (r: ClientResult<seq<A>>)
    ensures r.Ok? <==> forall i :: 0 <= i < |z| ==> z[i].1.Some?
    ensures r.Ok? ==> |r.value| == |z| && forall i :: 0 <= i < |z| ==> z[i].1 == Some(r.value[i])
    ensures r.Err? ==> exists i :: 0 <= i < |z| && z[i].1.None? && r.error == ClientError.AccountNotFound(z[i].0)
                                     && forall j :: 0 <= j < i ==> z[j].1.Some?
    decreases |z|
  {
    if |z| == 0 then Ok([])
    else match z[0].1
      case None => Err(ClientError.AccountNotFound(z[0].0))
      case Some(a) =>
        var rest :- CollectPresent(z[1..]);
        Ok([a] + rest)
  }

  /** `try_get_multiple_accounts`: every requested account in key order,
      or `AccountNotFound` for the first key whose account is missing. */
  function TryGetMultipleAccounts(w: Wrapped<Getter>, keys: seq<Pubkey>): (r: ClientResult<seq<Account>>)
    ensures w.Core().getMultipleAccounts(keys).Err? ==> r == Err(w.Core().getMultipleAccounts(keys).error)
    ensures w.Core().getMultipleAccounts(keys).Ok? ==> r == CollectPresent(Zip(keys, w.Core().getMultipleAccounts(keys).value))
  {
    var accounts :- GetMultipleAccounts(w, keys);
    CollectPresent(Zip(keys, accounts))
  }

  /** When the backend answers one entry per key, the all-or-first-missing
      read succeeds exactly when every key has an account, and then
      returns them in key order. */
  lemma TryGetMultipleAccountsAllOrFirstMissing(w: Wrapped<Getter>, keys: seq<Pubkey>)
    requires w.Core().getMultipleAccounts(keys).Ok?
    requires |w.Core().getMultipleAccounts(keys).value| == |keys|
    ensures var reply := w.Core().getMultipleAccounts(keys).value;
            var r := TryGetMultipleAccounts(w, keys);
            && (r.Ok? <==> forall i :: 0 <= i < |keys| ==> reply[i].Some?)
            && (r.Ok? ==> |r.value| == |keys| && forall i :: 0 <= i < |keys| ==> reply[i] == Some(r.value[i]))
            && (r.Err? ==> exists i :: 0 <= i < |keys| && reply[i].None? && r.error == ClientError.AccountNotFound(keys[i])
                                       && forall j :: 0 <= j < i ==> reply[j].Some?)
  {
    var reply := w.Core().getMultipleAccounts(keys).value;
    var z := Zip(keys, reply);
    assert forall i :: 0 <= i < |keys| ==> z[i] == (keys[i], reply[i]);
  }

  /** Positions of the present entries, in increasing order. */
  function PresentIndexes(z: seq<(Pubkey, Option<Account>)>): (ix: seq<nat>)
    ensures forall j :: 0 <= j < |ix| ==> ix[j] < |z| && z[ix[j]].1.Some?
    ensures forall j, k :: 0 <= j < k < |ix| ==> ix[j] < ix[k]
    ensures forall i :: 0 <= i < |z| && z[i].1.Some? ==> i in ix
    decreases |z|
  {
    if |z| == 0 then []
    else
      var p := PresentIndexes(z[..|z| - 1]);
      if z[|z| - 1].1.Some? then p + [|z| - 1] else p
  }

  /** `filter_map(|(key, acc_opt)| acc_opt.map(|acc| (key, acc)))`. */
  function FilterPresent(z: seq<(Pubkey, Option<Account>)>): (r: seq<(Pubkey, Account)>)
    ensures |r| <= |z|
    decreases |z|
  {
    if |z| == 0 then []
    else
      var init := FilterPresent(z[..|z| - 1]);
      match z[|z| - 1].1
      case Some(a) => init + [(z[|z| - 1].0, a)]
      case None => init
  }

  /** The lossy filter keeps exactly the present entries, in their original
      order, each paired with its own key. */
  lemma {:induction false} FilterPresentKeepsPresentInOrder(z: seq<(Pubkey, Option<Account>)>)
    ensures |FilterPresent(z)| == |PresentIndexes(z)|
    ensures forall j :: 0 <= j < |FilterPresent(z)| ==>
              FilterPresent(z)[j] == (z[PresentIndexes(z)[j]].0, z[PresentIndexes(z)[j]].1.value)
    decreases |z|
  {
    if |z| > 0 {
      var init := z[..|z| - 1];
      FilterPresentKeepsPresentInOrder(init);
      var ix, r := PresentIndexes(init), FilterPresent(init);
      forall j | 0 <= j < |r|
        ensures r[j] == (z[ix[j]].0, z[ix[j]].1.value)
      {
        assert z[ix[j]] == init[ix[j]];
      }
    }
  }

  /** `get_multiple_accounts_lossy`: the present accounts with their keys. */
  function GetMultipleAccountsLossy(w: Wrapped<Getter>, keys: seq<Pubkey>): (r: ClientResult<seq<(Pubkey, Account)>>)
    ensures w.Core().getMultipleAccounts(keys).Err? ==> r == Err(w.Core().getMultipleAccounts(keys).error)
    ensures w.Core().getMultipleAccounts(keys).Ok? ==> r.Ok? && |r.value| <= |keys|
    ensures w.Core().getMultipleAccounts(keys).Ok? ==> r.value == FilterPresent(Zip(keys, w.Core().getMultipleAccounts(keys).value))
  {
    var accounts :- GetMultipleAccounts(w, keys);
    Ok(FilterPresent(Zip(keys, accounts)))
  }

  /** `get_multiple_accounts_array`: the reply as an `N`-element array. The Rust
      client asserts the reply has `N` entries, so that is required here. */
  function GetMultipleAccountsArray(w: Wrapped<Getter>, keys: seq<Pubkey>): (r: ClientResult<seq<Option<Account>>>)
    requires w.Core().getMultipleAccounts(keys).Ok? ==> |w.Core().getMultipleAccounts(keys).value| == |keys|
    ensures r.Ok? ==> |r.value| == |keys|
    ensures r == w.Core().getMultipleAccounts(keys)
  {
    var accounts :- GetMultipleAccounts(w, keys);
    Ok(accounts)
  }

  /** `try_get_multiple_accounts_array`: the all-or-first-missing read as
      an `N`-element array, under the same length assertion. */
  function TryGetMultipleAccountsArray(w: Wrapped<Getter>, keys: seq<Pubkey>): (r: ClientResult<seq<Account>>)
    requires TryGetMultipleAccounts(w, keys).Ok? ==> |TryGetMultipleAccounts(w, keys).value| == |keys|
    ensures r.Ok? ==> |r.value| == |keys|
    ensures r == TryGetMultipleAccounts(w, keys)
  {
    var accounts :- TryGetMultipleAccounts(w, keys);
    Ok(accounts)
  }
}

=== FILE: key_order.dfy ===
/** The byte-lexicographic order on public keys (Rust's derived `Ord` for
    `[u8; 32]`) and sorting of keyed sequences by it, as done by
    `sort_by_key(|(key, _)| *key)`. */
module KeyOrder {
  import opened Ledger

  /** `a <= b` in lexicographic order. */
  predicate LexLe(a: seq<Byte>, b: seq<Byte>)
    decreases |a|
  {
    if |a| == 0 then true
    else if |b| == 0 then false
    else if a[0] != b[0] then a[0] < b[0]
    else LexLe(a[1..], b[1..])
  }

  lemma {:induction false} LexLeReflexive(a: seq<Byte>)
    ensures LexLe(a, a)
    decreases |a|
  {
    if |a| > 0 {
      LexLeReflexive(a[1..]);
    }
  }

  lemma {:induction false} LexLeAntisymmetric(a: seq<Byte>, b: seq<Byte>)
    requires LexLe(a, b) && LexLe(b, a)
    ensures a == b
    decreases |a|
  {
    if |a| > 0 && |b| > 0 {
      LexLeAntisymmetric(a[1..], b[1..]);
      assert a == [a[0]] + a[1..];
      assert b == [b[0]] + b[1..];
    }
  }

  lemma {:induction false} LexLeTransitive(a: seq<Byte>, b: seq<Byte>, c: seq<Byte>)
    requires LexLe(a, b) && LexLe(b, c)
    ensures LexLe(a, c)
    decreases |a|
  {
    if |a| > 0 && |b| > 0 && |c| > 0 && a[0] == b[0] && b[0] == c[0] {
      LexLeTransitive(a[1..], b[1..], c[1..]);
    }
  }

  lemma {:induction false} LexLeTotal(a: seq<Byte>, b: seq<Byte>)
    ensures LexLe(a, b) || LexLe(b, a)
    decreases |a|
  {
    if |a| > 0 && |b| > 0 && a[0] == b[0] {
      LexLeTotal(a[1..], b[1..]);
    }
  }

  /** Every earlier entry's key is at most every later entry's key. */
  predicate SortedByKey<V>(s: seq<(Pubkey, V)>) {
    forall i, j :: 0 <= i < j < |s| ==> LexLe(s[i].0, s[j].0)
  }

  /** Inserts one entry into a key-sorted sequence, before the first entry
      whose key is not smaller. */
  function Insert<V(==)>(x: (Pubkey, V), s: seq<(Pubkey, V)>): (r: seq<(Pubkey, V)>)
    ensures multiset(r) == multiset(s) + multiset{x}
    ensures |r| == |s| + 1
    decreases |s|
  {
    if |s| == 0 then [x]
    else if LexLe(x.0, s[0].0) then [x] + s
    else
      assert s == [s[0]] + s[1..];
      [s[0]] + Insert(x, s[1..])
  }

  lemma {:induction false} InsertSorted<V>(x: (Pubkey, V), s: seq<(Pubkey, V)>)
    requires SortedByKey(s)
    ensures SortedByKey(Insert(x, s))
    decreases |s|
  {
    if |s| == 0 {
    } else if LexLe(x.0, s[0].0) {
      var r := [x] + s;
      forall i, j | 0 <= i < j < |r|
        ensures LexLe(r[i].0, r[j].0)
      {
        if i == 0 && j > 1 {
          LexLeTransitive(x.0, s[0].0, s[j - 1].0);
        }
      }
    } else {
      LexLeTotal(x.0, s[0].0);
      var rest := Insert(x, s[1..]);
      InsertSorted(x, s[1..]);
      InsertLowerBound(s[0].0, x, s[1..]);
      var r := [s[0]] + rest;
      forall i, j | 0 <= i < j < |r|
        ensures LexLe(r[i].0, r[j].0)
      {
        if i > 0 {
          assert r[i] == rest[i - 1] && r[j] == rest[j - 1];
        }
      }
    }
  }

  /** A lower bound of the inserted key and of every key of the sequence
      bounds every key after the insertion. */
  lemma {:induction false} InsertLowerBound<V>(k: Pubkey, x: (Pubkey, V), s: seq<(Pubkey, V)>)
    requires LexLe(k, x.0)
    requires forall i :: 0 <= i < |s| ==> LexLe(k, s[i].0)
    ensures forall i :: 0 <= i < |Insert(x, s)| ==> LexLe(k, Insert(x, s)[i].0)
    decreases |s|
  {
    if |s| > 0 && !LexLe(x.0, s[0].0) {
      InsertLowerBound(k, x, s[1..]);
      var rest := Insert(x, s[1..]);
      assert Insert(x, s) == [s[0]] + rest;
      forall i | 0 <= i < |Insert(x, s)| ensures LexLe(k, Insert(x, s)[i].0) {
        if i > 0 {
          assert Insert(x, s)[i] == rest[i - 1];
        }
      }
    }
  }

  /** Sorts a keyed sequence by key (a functional insertion sort). */
  function SortByKey<V(==)>(s: seq<(Pubkey, V)>): (r: seq<(Pubkey, V)>)
    ensures SortedByKey(r)
    ensures multiset(r) == multiset(s)
    ensures |r| == |s|
    decreases |s|
  {
    if |s| == 0 then []
    else
      assert s == [s[0]] + s[1..];
      InsertSorted(s[0], SortByKey(s[1..]));
      Insert(s[0], SortByKey(s[1..]))
  }
}

=== FILE: ledger.dfy ===
/** Ledger value types shared by every component: bytes, fixed-width
    integers, 32-byte public keys, account snapshots, hashes, signatures,
    the rent oracle and the well-known program and sysvar addresses. */
module Ledger {

  type Byte = b: int | 0 <= b < 0x100
  type U8 = Byte
  type U32 = n: int | 0 <= n < 0x1_0000_0000
  type U64 = n: int | 0 <= n < 0x1_0000_0000_0000_0000

  /** `u64::MAX`, used as the rent epoch of rent-exempt accounts and as
      the "current slot" of address lookups. */
  const U64Max: U64 := 0xFFFF_FFFF_FFFF_FFFF

  /** A 32-byte public key (address). */
  type Pubkey = k: seq<Byte> | |k| == 32 witness seq(32, _ => 0)

  /** A 32-byte hash (blockhash). */
  datatype Hash = Hash(bytes: seq<Byte>)

  /** A 64-byte transaction signature; its bytes are produced by foreign
      cryptography and never inspected here. */
  datatype Signature = Signature(bytes: seq<Byte>)

  /** An account snapshot as the ledger stores it. */
  datatype Account = Account(
    lamports: U64,
    data: seq<Byte>,
    owner: Pubkey,
    executable: bool,
    rentEpoch: U64)

  /** The authoritative state of a backend that holds accounts locally. */
  type LedgerState = map<Pubkey, Account>

  /** The rent parameters of a cluster. `Rent::minimum_balance` is computed
      in the SDK from a floating-point exemption threshold; the model
      carries it as an uninterpreted function of the data length. */
  datatype Rent = Rent(minimumBalance: nat -> U64)

  /** An empty, zero-balance account owned by the system program: what the
      runtime leaves behind for an address that does not exist. */
  predicate IsEmptySystemAccount(a: Account) {
    a.owner == SystemProgramId && |a.data| == 0 && a.lamports == 0
  }

  /** `11111111111111111111111111111111`, the system program. */
  const SystemProgramId: Pubkey := [0, 0, 0, 0, 0, 0, 0, 0, 0, 0, 0, 0, 0, 0, 0, 0,
    0, 0, 0, 0, 0, 0, 0, 0, 0, 0, 0, 0, 0, 0, 0, 0]

  /** `AddressLookupTab1e1111111111111111111111111`, the address-lookup-table program. */
  const LookupTableProgramId: Pubkey := [2, 119, 166, 175, 151, 51, 155, 122, 200, 141, 24, 146, 201, 4, 70, 245,
    0, 2, 48, 146, 102, 246, 46, 83, 193, 24, 36, 73, 130, 0, 0, 0]

  /** `ComputeBudget111111111111111111111111111111`, the compute-budget program. */
  const ComputeBudgetProgramId: Pubkey := [3, 6, 70, 111, 229, 33, 23, 50, 255, 236, 173, 186, 114, 195, 155, 231,
    188, 140, 229, 187, 197, 247, 18, 107, 44, 67, 155, 58, 64, 0, 0, 0]

  /** `TokenkegQfeZyiNwAJbNbGKPFXCWuBvf9Ss623VQ5DA`, the SPL token program. */
  const TokenProgramId: Pubkey := [6, 221, 246, 225, 215, 101, 161, 147, 217, 203, 225, 70, 206, 235, 121, 172,
    28, 180, 133, 237, 95, 91, 55, 145, 58, 140, 245, 133, 126, 255, 0, 169]

  /** `So11111111111111111111111111111111111111112`, the SPL token native (wrapped SOL) mint. */
  const NativeMintId: Pubkey := [6, 155, 136, 87, 254, 171, 129, 132, 251, 104, 127, 99, 70, 24, 192, 53,
    218, 196, 57, 220, 26, 235, 59, 85, 152, 160, 240, 0, 0, 0, 0, 1]

  /** `BPFLoader1111111111111111111111111111111111`, the deprecated BPF loader. */
  const BpfLoaderDeprecatedId: Pubkey := [2, 168, 246, 145, 78, 136, 161, 107, 189, 35, 149, 133, 95, 100, 4, 217,
    180, 244, 86, 183, 130, 27, 176, 20, 87, 73, 66, 140, 0, 0, 0, 0]

  /** `BPFLoader2111111111111111111111111111111111`, the BPF loader. */
  const BpfLoaderId: Pubkey := [2, 168, 246, 145, 78, 136, 161, 110, 57, 90, 225, 40, 148, 143, 250, 105,
    86, 147, 55, 104, 24, 221, 71, 67, 82, 33, 243, 198, 0, 0, 0, 0]

  /** `BPFLoaderUpgradeab1e11111111111111111111111`, the upgradeable BPF loader. */
  const BpfLoaderUpgradeableId: Pubkey := [2, 168, 246, 145, 78, 136, 161, 176, 226, 16, 21, 62, 247, 99, 174, 43,
    0, 194, 185, 61, 22, 193, 36, 210, 192, 83, 122, 16, 4, 128, 0, 0]

  /** `LoaderV411111111111111111111111111111111111`, loader v4. */
  const LoaderV4Id: Pubkey := [5, 18, 180, 17, 81, 81, 227, 122, 173, 10, 139, 197, 211, 136, 46, 123,
    127, 218, 76, 243, 210, 192, 40, 200, 207, 131, 54, 24, 0, 0, 0, 0]

  /** `Feature111111111111111111111111111111111111`, the feature-gate program. */
  const FeatureProgramId: Pubkey := [3, 192, 160, 205, 203, 6, 210, 218, 239, 174, 130, 209, 111, 238, 122, 207,
    97, 236, 115, 123, 35, 72, 27, 33, 148, 106, 118, 112, 0, 0, 0, 0]

  /** `SysvarC1ock11111111111111111111111111111111`, the clock sysvar. */
  const ClockSysvarId: Pubkey := [6, 167, 213, 23, 24, 199, 116, 201, 40, 86, 99, 152, 105, 29, 94, 182,
    139, 94, 184, 163, 155, 75, 109, 92, 115, 85, 91, 33, 0, 0, 0, 0]

  /** `SysvarRent111111111111111111111111111111111`, the rent sysvar. */
  const RentSysvarId: Pubkey := [6, 167, 213, 23, 25, 44, 92, 81, 33, 140, 201, 76, 61, 74, 241, 127,
    88, 218, 238, 8, 155, 161, 253, 68, 227, 219, 217, 138, 0, 0, 0, 0]

  /** `SysvarS1otHashes111111111111111111111111111`, the slot-hashes sysvar. */
  const SlotHashesSysvarId: Pubkey := [6, 167, 213, 23, 25, 47, 10, 175, 198, 242, 101, 227, 251, 119, 204, 122,
    218, 130, 197, 41, 208, 190, 59, 19, 110, 45, 0, 85, 32, 0, 0, 0]

  /** `SysvarS1otHistory11111111111111111111111111`, the slot-history sysvar. */
  const SlotHistorySysvarId: Pubkey := [6, 167, 213, 23, 25, 47, 10, 175, 200, 117, 226, 225, 132, 87, 124, 80,
    105, 207, 200, 70, 73, 227, 235, 146, 120, 47, 149, 141, 72, 0, 0, 0]

  /** `SysvarRecentB1ockHashes11111111111111111111`, the recent-blockhashes sysvar. */
  const RecentBlockhashesSysvarId: Pubkey := [6, 167, 213, 23, 25, 44, 86, 142, 224, 138, 132, 95, 115, 210, 151, 136,
    207, 3, 92, 49, 69, 178, 26, 179, 68, 216, 6, 46, 169, 64, 0, 0]
}

=== FILE: lookup_table.dfy ===
/** Reading address lookup tables and driving their lifecycle through a
    backend (client/client-sys/src/address_lookup_table.rs). The lookup
    table program's instruction builders, including the derivation of a
    new table's address, are SDK routines, given as the functions of a
    `TableInstructions` record. */
module LookupTables {
  import opened Results
  import opened Ledger
  import opened Transactions
  import opened Errors
  import opened Capabilities
  import opened GetterExt
  import opened ExecutorExt
  import opened Execution
  import opened Sysvars
  import opened Bytes

  /** Where the authority key starts in a table account's data. */
  const AuthorityOffset: nat := 22

  /** Which slot-hashes entry a new table takes its recent slot from. */
  const RecentSlotIndex: nat := 1

  const ComputeUnitLimit: U32 := 2000
  const ComputeUnitPrice: U64 := 1_000_000

  /** `ComputeBudgetInstruction::set_compute_unit_limit`: variant tag 2 and
      the limit as a little-endian `u32`, no accounts. */
  function SetComputeUnitLimit(units: U32): (ix: Instruction)
    ensures ix.programId == ComputeBudgetProgramId && ix.accounts == []
    ensures |ix.data| == 5 && ix.data[0] == 2
  {
    Instruction(ComputeBudgetProgramId, [], [2] + U32Bytes(units))
  }

  /** `ComputeBudgetInstruction::set_compute_unit_price`: variant tag 3 and
      the price as a little-endian `u64`, no accounts. */
  function SetComputeUnitPrice(microLamports: U64): (ix: Instruction)
    ensures ix.programId == ComputeBudgetProgramId && ix.accounts == []
    ensures |ix.data| == 9 && ix.data[0] == 3
  {
    Instruction(ComputeBudgetProgramId, [], [3] + U64Bytes(microLamports))
  }

  /** The budget instructions carry their values: decoding the bytes after
      the tag gives back the limit and the price. */
  lemma ComputeBudgetDataDecodes(units: U32, microLamports: U64)
    ensures FromLittleEndian(SetComputeUnitLimit(units).data[1..]) == units
    ensures FromLittleEndian(SetComputeUnitPrice(microLamports).data[1..]) == microLamports
  {
    FixedWidthRoundTrips(units, microLamports);
    assert SetComputeUnitLimit(units).data[1..] == U32Bytes(units);
    assert SetComputeUnitPrice(microLamports).data[1..] == U64Bytes(microLamports);
  }

  /** `with_compute_budget`: the instruction, preceded by a 2000-unit
      limit and a price of 1 000 000 micro-lamports per unit. */
  function WithComputeBudget(ix: Instruction): (ixs: seq<Instruction>)
    ensures |ixs| == 3 && ixs[2] == ix && |ixs[0].data| == 5 && |ixs[1].data| == 9
    ensures ixs[0].programId == ComputeBudgetProgramId && ixs[1].programId == ComputeBudgetProgramId
    ensures FromLittleEndian(ixs[0].data[1..]) == 2000 && ixs[0].data[0] == 2
    ensures FromLittleEndian(ixs[1].data[1..]) == 1_000_000 && ixs[1].data[0] == 3
  {
    ComputeBudgetDataDecodes(ComputeUnitLimit, ComputeUnitPrice);
    [SetComputeUnitLimit(ComputeUnitLimit), SetComputeUnitPrice(ComputeUnitPrice), ix]
  }

  /** `get_address_lookup_table`: nothing for a missing account, the decoded
      table otherwise, or `AccountDidNotDeserialize`. */
  function GetAddressLookupTable(w: Wrapped<Getter>, key: Pubkey, decodeTable: seq<Byte> -> Option<AddressLookupTable>)
    : (r: ClientResult<Option<AddressLookupTable>>)
    ensures var found := w.Core().getAccount(key);
            && (found.Err? ==> r == Err(found.error))
            && (found == Ok(None) ==> r == Ok(None))
            && ((found.Ok? && found.value.Some? && decodeTable(found.value.value.data).None?)
                  ==> r == Err(ClientError.AccountDidNotDeserialize(key)))
            && ((found.Ok? && found.value.Some? && decodeTable(found.value.value.data).Some?)
                  ==> r == Ok(decodeTable(found.value.value.data)))
  {
    var found :- GetAccount(w, key);
    match found
    case None => Ok(None)
    case Some(account) =>
      var table :- decodeTable(account.data).OkOr(ClientError.AccountDidNotDeserialize(key));
      Ok(Some(table))
  }

  /** The scan filter selecting the tables of one authority. */
  function AuthorityFilter(authority: Pubkey): (f: seq<ProgramAccountsFilter>)
    ensures f == [Memcmp(AuthorityOffset, authority)]
  {
    [Memcmp(AuthorityOffset, authority)]
  }

  /** `get_address_lookup_tables_for_authority`: every table account the
      scan reports, decoded in scan order. The Rust client unwraps each decode,
      so every scanned account must decode. */
  function GetAddressLookupTablesForAuthority(w: Wrapped<Getter>, authority: Pubkey,
                                              decodeTable: seq<Byte> -> Option<AddressLookupTable>)
    : (r: ClientResult<seq<(Pubkey, AddressLookupTable)>>)
    requires var scan := w.Core().getProgramAccounts(LookupTableProgramId, Some(AuthorityFilter(authority)));
             scan.Ok? ==> forall i :: 0 <= i < |scan.value| ==> decodeTable(scan.value[i].1.data).Some?
    ensures var scan := w.Core().getProgramAccounts(LookupTableProgramId, Some(AuthorityFilter(authority)));
            && (scan.Err? ==> r == Err(scan.error))
            && (scan.Ok? ==> r.Ok? && |r.value| == |scan.value|)
            && (scan.Ok? ==> forall i :: 0 <= i < |scan.value| ==>
                               r.value[i] == (scan.value[i].0, decodeTable(scan.value[i].1.data).value))
  {
    var accounts :- GetProgramAccounts(w, LookupTableProgramId, Some(AuthorityFilter(authority)));
    Ok(seq(|accounts|, i requires 0 <= i < |accounts| && decodeTable(accounts[i].1.data).Some? =>
             (accounts[i].0, decodeTable(accounts[i].1.data).value)))
  }

  /** The signers of an `extend`: the payer alone when it is also the
      authority, both otherwise. */
  function ExtendSigners(payer: Signer, authority: Signer): (s: seq<Signer>)
    ensures payer.pubkey == authority.pubkey ==> s == [payer]
    ensures payer.pubkey != authority.pubkey ==> s == [payer, authority]
  {
    if payer.pubkey == authority.pubkey then [payer] else [payer, authority]
  }

  /** Whichever list the extend picks, its keys are the payer's and the
      authority's, with no key repeated; `deactivate` and `close` always
      pass both and so repeat the key when payer and authority coincide. */
  lemma ExtendSignerKeysAreExactAndDistinct(payer: Signer, authority: Signer)
    ensures var keys := SignerList(ExtendSigners(payer, authority)).pubkeys;
            && (forall k :: k in keys <==> k == payer.pubkey || k == authority.pubkey)
            && (forall i, j :: 0 <= i < j < |keys| ==> keys[i] != keys[j])
            && keys[0] == payer.pubkey
    ensures var keys := SignerList([payer, authority]).pubkeys;
            forall k :: k in keys <==> k == payer.pubkey || k == authority.pubkey
  {
    var keys := SignerList(ExtendSigners(payer, authority)).pubkeys;
    if payer.pubkey == authority.pubkey {
      assert keys == [payer.pubkey];
    } else {
      assert keys == [payer.pubkey, authority.pubkey];
    }
    assert SignerList([payer, authority]).pubkeys == [payer.pubkey, authority.pubkey];
  }

  /** The lookup table program's instruction builders. `create` also
      derives the new table's address from the authority and the slot. */
  datatype TableInstructions = TableInstructions(
    create: (Pubkey, Pubkey, U64) -> (Instruction, Pubkey),
    extend: (Pubkey, Pubkey, Option<Pubkey>, seq<Pubkey>) -> Instruction,
    deactivate: (Pubkey, Pubkey) -> Instruction,
    close: (Pubkey, Pubkey, Pubkey) -> Instruction)

  /** What the process operations need of a backend: reads, transaction
      submission, compilation and the slot-hashes codec. */
  datatype TableClient = TableClient(
    getter: Wrapped<Getter>,
    executor: Wrapped<Executor<ExecutionOutput>>,
    compiler: Compiler,
    builders: TableInstructions,
    decodeSlotHashes: seq<Byte> -> Option<SlotHashes>)

  /** Submits the instruction behind the compute budget, paid by `payer`,
      with no lookup tables: the blockhash is read once, the
      three-instruction message compiled against it, the signers' keys
      taken in order and de-duplicated; only a signed transaction reaches
      the executor. */
  function Submit(c: TableClient, ix: Instruction, payer: Signer, signers: seq<Signer>): (r: ClientResult<ExecutionOutput>)
    ensures var blockhash := c.getter.Core().getLatestBlockhash;
            && (blockhash.Err? ==> r == Err(blockhash.error))
            && (blockhash.Ok? ==>
                  var budgeted := [SetComputeUnitLimit(ComputeUnitLimit), SetComputeUnitPrice(ComputeUnitPrice), ix];
                  var message := c.compiler.tryCompile(payer.pubkey, budgeted, [], blockhash.value);
                  var keys := TryPubkeysOf(signers);
                  && (message.Err? ==> r == Err(CompileError(message.error)))
                  && (message.Ok? && keys.Err? ==> r == Err(ClientError.SigningError(keys.error)))
                  && (message.Ok? && keys.Ok? ==>
                        var signed := c.compiler.tryNew(message.value, PrimeSigners(SignerList(signers), FirstOccurrences(keys.value)));
                        && (signed.Err? ==> r == Err(ClientError.SigningError(signed.error)))
                        && (signed.Ok? ==> r == c.executor.Core().process(signed.value))))
  {
    CompilingProcessTransaction(c.getter, c.executor, c.compiler, WithComputeBudget(ix), payer.pubkey, SignerList(signers), [])
  }

  /** The slot a new table is created at: the second entry of the
      slot-hashes sysvar. The Rust client indexes it, so the sysvar must hold
      two entries. */
  function RecentSlot(c: TableClient): (r: ClientResult<U64>)
    requires TryGetSysvar(c.getter, SysvarKind.SlotHashes, c.decodeSlotHashes).Ok? ==>
               |TryGetSysvar(c.getter, SysvarKind.SlotHashes, c.decodeSlotHashes).value.entries| > RecentSlotIndex
    ensures var hashes := TryGetSysvar(c.getter, SysvarKind.SlotHashes, c.decodeSlotHashes);
            && (hashes.Err? ==> r == Err(hashes.error))
            && (hashes.Ok? ==> r == Ok(hashes.value.entries[RecentSlotIndex].0))
  {
    var hashes :- TryGetSysvar(c.getter, SysvarKind.SlotHashes, c.decodeSlotHashes);
    Ok(hashes.entries[RecentSlotIndex].0)
  }

  /** `process_create_lookup_table`: creates the table at the recent slot,
      signed by the payer alone, and returns its derived address. */
  function ProcessCreateLookupTable(c: TableClient, payer: Signer, authority: Pubkey): (r: ClientResult<Pubkey>)
    requires TryGetSysvar(c.getter, SysvarKind.SlotHashes, c.decodeSlotHashes).Ok? ==>
               |TryGetSysvar(c.getter, SysvarKind.SlotHashes, c.decodeSlotHashes).value.entries| > RecentSlotIndex
    ensures RecentSlot(c).Err? ==> r == Err(RecentSlot(c).error)
    ensures RecentSlot(c).Ok? ==>
              var (ix, address) := c.builders.create(authority, payer.pubkey, RecentSlot(c).value);
              var sent := Submit(c, ix, payer, [payer]);
              && (sent.Err? ==> r == Err(sent.error))
              && (sent.Ok? ==> r == Ok(address))
  {
    var slot :- RecentSlot(c);
    var (ix, address) := c.builders.create(authority, payer.pubkey, slot);
    var _ :- Submit(c, ix, payer, [payer]);
    Ok(address)
  }

  /** `process_extend_lookup_table`: extends the table, the payer funding
      the growth. */
  function ProcessExtendLookupTable(c: TableClient, payer: Signer, authority: Signer, table: Pubkey, newAddresses: seq<Pubkey>)
    : (r: ClientResult<()>)
    ensures var sent := Submit(c, c.builders.extend(table, authority.pubkey, Some(payer.pubkey), newAddresses),
                               payer, ExtendSigners(payer, authority));
            && (sent.Err? ==> r == Err(sent.error))
            && (sent.Ok? ==> r == Ok(()))
  {
    var _ :- Submit(c, c.builders.extend(table, authority.pubkey, Some(payer.pubkey), newAddresses),
                    payer, ExtendSigners(payer, authority));
    Ok(())
  }

  /** `process_deactivate_lookup_table`, signed by payer and authority. */
  function ProcessDeactivateLookupTable(c: TableClient, payer: Signer, authority: Signer, table: Pubkey)
    : (r: ClientResult<()>)
    ensures var sent := Submit(c, c.builders.deactivate(table, authority.pubkey), payer, [payer, authority]);
            && (sent.Err? ==> r == Err(sent.error))
            && (sent.Ok? ==> r == Ok(()))
  {
    var _ :- Submit(c, c.builders.deactivate(table, authority.pubkey), payer, [payer, authority]);
    Ok(())
  }

  /** `process_close_lookup_table`, signed by payer and authority; the
      table's lamports go to the recipient. */
  function ProcessCloseLookupTable(c: TableClient, payer: Signer, authority: Signer, table: Pubkey, recipient: Pubkey)
    : (r: ClientResult<()>)
    ensures var sent := Submit(c, c.builders.close(table, authority.pubkey, recipient), payer, [payer, authority]);
            && (sent.Err? ==> r == Err(sent.error))
            && (sent.Ok? ==> r == Ok(()))
  {
    var _ :- Submit(c, c.builders.close(table, authority.pubkey, recipient), payer, [payer, authority]);
    Ok(())
  }

  /** What a lifecycle call answers for `ix`: the compile error when the
      budgeted transaction does not compile, the executor's error when it
      fails to process it, and success exactly when it is processed. */
  predicate AnswersProcessing<T(==)>(c: TableClient, ix: Instruction, payer: Signer, signers: seq<Signer>,
                                 success: T, r: ClientResult<T>)
  {
    var tx := CompileTransaction(c.getter, c.compiler, WithComputeBudget(ix), payer.pubkey, SignerList(signers), []);
    && (tx.Err? ==> r == Err(tx.error))
    && (tx.Ok? && c.executor.Core().process(tx.value).Err? ==> r == Err(c.executor.Core().process(tx.value).error))
    && (tx.Ok? && c.executor.Core().process(tx.value).Ok? ==> r == Ok(success))
  }

  /** Each lifecycle operation compiles its one instruction behind the
      compute budget and reports the processing of it, the execution
      output dropped: `create` is built for the slot of the second
      slot-hashes entry, signed by the payer alone, and answers the
      derived address; `extend` is signed by the de-duplicated payer and
      authority; `deactivate` and `close` by both. */
  lemma LifecycleAnswersProcessing(c: TableClient, payer: Signer, authority: Signer, table: Pubkey,
                                   newAddresses: seq<Pubkey>, recipient: Pubkey)
    requires TryGetSysvar(c.getter, SysvarKind.SlotHashes, c.decodeSlotHashes).Ok? ==>
               |TryGetSysvar(c.getter, SysvarKind.SlotHashes, c.decodeSlotHashes).value.entries| > RecentSlotIndex
    ensures var hashes := TryGetSysvar(c.getter, SysvarKind.SlotHashes, c.decodeSlotHashes);
            && (hashes.Err? ==> ProcessCreateLookupTable(c, payer, authority.pubkey) == Err(hashes.error))
            && (hashes.Ok? ==>
                  var (ix, address) := c.builders.create(authority.pubkey, payer.pubkey, hashes.value.entries[1].0);
                  AnswersProcessing(c, ix, payer, [payer], address, ProcessCreateLookupTable(c, payer, authority.pubkey)))
    ensures AnswersProcessing(c, c.builders.extend(table, authority.pubkey, Some(payer.pubkey), newAddresses),
                              payer, ExtendSigners(payer, authority), (), ProcessExtendLookupTable(c, payer, authority, table, newAddresses))
    ensures AnswersProcessing(c, c.builders.deactivate(table, authority.pubkey), payer, [payer, authority], (),
                              ProcessDeactivateLookupTable(c, payer, authority, table))
    ensures AnswersProcessing(c, c.builders.close(table, authority.pubkey, recipient), payer, [payer, authority], (),
                              ProcessCloseLookupTable(c, payer, authority, table, recipient))
  {
  }

  /** Nothing is submitted before the transaction compiles: when the
      deactivate does not compile, the call answers the same whichever
      executor the backend has. */
  lemma LifecycleIgnoresExecutorOnCompileError(c: TableClient, executor: Wrapped<Executor<ExecutionOutput>>,
                                                payer: Signer, authority: Signer, table: Pubkey, recipient: Pubkey)
    requires CompileTransaction(c.getter, c.compiler, WithComputeBudget(c.builders.deactivate(table, authority.pubkey)),
                                payer.pubkey, SignerList([payer, authority]), []).Err?
    ensures ProcessDeactivateLookupTable(c.(executor := executor), payer, authority, table)
            == ProcessDeactivateLookupTable(c, payer, authority, table)
  {
  }
}

=== FILE: pack.dfy ===
/** Storing a `Pack`-encoded value as an account
    (client/client-sys/src/pack.rs). The encoding and its fixed length are
    given as parameters. */
module Packing {
  import opened Results
  import opened Ledger
  import opened Capabilities

  /** `packing_set_account`: a fresh account (`Account::new`, so rent epoch
      zero and not executable) of the packed length, filled with the packed
      value, stored at `key` and returned. The Rust client packs into a slice of
      exactly the packed length, so the encoding must have that length. */
  function PackingSetAccount<T>(w: Wrapped<LedgerState>, key: Pubkey, lamports: U64, owner: Pubkey, value: T,
                                packedLen: nat, pack: T -> seq<Byte>)
    : (r: (Wrapped<LedgerState>, Account))
    requires w.Mutable()
    requires |pack(value)| == packedLen
    ensures var (ledger, account) := r;
            && ledger.Mutable() && ledger.Layers() == w.Layers()
            && ledger.Core() == w.Core()[key := account]
            && account.lamports == lamports && account.owner == owner
            && |account.data| == packedLen && account.data == pack(value)
            && !account.executable && account.rentEpoch == 0
  {
    var account := Account(lamports, pack(value), owner, false, 0);
    (SetAccount(w, key, account), account)
  }

  /** The stored account is the one returned, and its data unpacks to the
      value whenever the encoding round-trips. */
  lemma PackedAccountUnpacks<T>(w: Wrapped<LedgerState>, key: Pubkey, lamports: U64, owner: Pubkey, value: T,
                                packedLen: nat, pack: T -> seq<Byte>, unpack: seq<Byte> -> T)
    requires w.Mutable()
    requires |pack(value)| == packedLen
    requires unpack(pack(value)) == value
    ensures var (ledger, account) := PackingSetAccount(w, key, lamports, owner, value, packedLen, pack);
            && ReadLedger(ledger.Core(), key) == Some(account)
            && unpack(account.data) == value
  {
  }
}

=== FILE: program.dfy ===
/** Reading a deployed program's bytes through a backend
    (client/client-sys/src/program.rs), for each of the four loaders. The
    upgradeable loader's bincode state is a codec, given as a function. */
module Programs {
  import opened Results
  import opened Ledger
  import opened Errors
  import opened Capabilities
  import opened GetterExt

  /** `UpgradeableLoaderState`. */
  datatype UpgradeableLoaderState =
    | Uninitialized
    | Buffer(authority: Option<Pubkey>)
    | Program(programdataAddress: Pubkey)
    | ProgramData(slot: U64, upgradeAuthority: Option<Pubkey>)

  /** `UpgradeableLoaderState::size_of_programdata_metadata()`: the slot and
      optional authority ahead of the program bytes. */
  const ProgramDataMetadataSize: nat := 45

  /** `LoaderV4State::program_data_offset()`. */
  const LoaderV4ProgramDataOffset: nat := 48

  /** The two loaders whose program accounts hold the program bytes whole. */
  predicate IsPlainLoader(owner: Pubkey) {
    owner == BpfLoaderId || owner == BpfLoaderDeprecatedId
  }

  /** What the Rust client assumes of a program account it reads: a loader-v4
      account holds at least the state header, any other non-upgradeable
      account belongs to one of the plain loaders, and an upgradeable
      program's data account, when read, holds at least its metadata. */
  predicate ReadableProgram(w: Wrapped<Getter>, id: Pubkey, decodeState: seq<Byte> -> Option<UpgradeableLoaderState>) {
    var found := w.Core().getAccount(id);
    found.Ok? && found.value.Some? ==>
      var account := found.value.value;
      && (account.owner == LoaderV4Id ==> |account.data| >= LoaderV4ProgramDataOffset)
      && (account.owner != BpfLoaderUpgradeableId && account.owner != LoaderV4Id ==> IsPlainLoader(account.owner))
      && (account.owner == BpfLoaderUpgradeableId && decodeState(account.data).Some? && decodeState(account.data).value.Program? ==>
            var programdata := TryGetAccount(w, decodeState(account.data).value.programdataAddress);
            programdata.Ok? ==> |programdata.value.data| >= ProgramDataMetadataSize)
  }

  /** `get_program`: nothing for a missing account; an upgradeable
      program's bytes after its data account's metadata; a loader-v4
      program's bytes after the state header; a plain loader's account data
      whole. An upgradeable account that is not a `Program` does not
      deserialize, and a missing data account is `AccountNotFound`. */
  function GetProgram(w: Wrapped<Getter>, id: Pubkey, decodeState: seq<Byte> -> Option<UpgradeableLoaderState>)
    : (r: ClientResult<Option<seq<Byte>>>)
    requires ReadableProgram(w, id, decodeState)
    ensures w.Core().getAccount(id).Err? ==> r == Err(w.Core().getAccount(id).error)
    ensures w.Core().getAccount(id) == Ok(None) ==> r == Ok(None)
    ensures w.Core().getAccount(id).Ok? && w.Core().getAccount(id).value.Some? ==>
              var account := w.Core().getAccount(id).value.value;
              && (account.owner == LoaderV4Id ==> r == Ok(Some(account.data[LoaderV4ProgramDataOffset..])))
              && (IsPlainLoader(account.owner) ==> r == Ok(Some(account.data)))
              && (account.owner == BpfLoaderUpgradeableId ==>
                    var state := decodeState(account.data);
                    && (state.None? || !state.value.Program? ==> r == Err(ClientError.AccountDidNotDeserialize(id)))
                    && (state.Some? && state.value.Program? ==>
                          var programdata := TryGetAccount(w, state.value.programdataAddress);
                          && (programdata.Err? ==> r == Err(programdata.error))
                          && (programdata.Ok? ==> r == Ok(Some(programdata.value.data[ProgramDataMetadataSize..])))))
  {
    var found :- GetAccount(w, id);
    match found
    case None => Ok(None)
    case Some(account) =>
      if account.owner == BpfLoaderUpgradeableId then
        var state :- decodeState(account.data).OkOr(ClientError.AccountDidNotDeserialize(id));
        if !state.Program? then Err(ClientError.AccountDidNotDeserialize(id))
        else
          var programdata :- TryGetAccount(w, state.programdataAddress);
          Ok(Some(programdata.data[ProgramDataMetadataSize..]))
      else if account.owner == LoaderV4Id then
        Ok(Some(account.data[LoaderV4ProgramDataOffset..]))
      else
        Ok(Some(account.data))
  }

  /** `try_get_program`: a missing program account is `AccountNotFound`. */
  function TryGetProgram(w: Wrapped<Getter>, id: Pubkey, decodeState: seq<Byte> -> Option<UpgradeableLoaderState>)
    : (r: ClientResult<seq<Byte>>)
    requires ReadableProgram(w, id, decodeState)
    ensures var g := GetProgram(w, id, decodeState);
            && (g.Err? ==> r == Err(g.error))
            && (g == Ok(None) ==> r == Err(ClientError.AccountNotFound(id)))
            && (g.Ok? && g.value.Some? ==> r == Ok(g.value.value))
  {
    var found :- GetProgram(w, id, decodeState);
    found.OkOr(ClientError.AccountNotFound(id))
  }

  /** The bytes read are what is left of the account holding them once the
      loader's header is removed: the header and the program put back
      together give that account's data. */
  lemma ProgramIsDataAfterHeader(w: Wrapped<Getter>, id: Pubkey, decodeState: seq<Byte> -> Option<UpgradeableLoaderState>)
    requires ReadableProgram(w, id, decodeState)
    requires GetProgram(w, id, decodeState).Ok? && GetProgram(w, id, decodeState).value.Some?
    ensures var program := GetProgram(w, id, decodeState).value.value;
            var account := w.Core().getAccount(id).value.value;
            && (account.owner == LoaderV4Id ==>
                  account.data == account.data[..LoaderV4ProgramDataOffset] + program)
            && (IsPlainLoader(account.owner) ==> account.data == program)
            && (account.owner == BpfLoaderUpgradeableId ==>
                  var programdata := w.Core().getAccount(decodeState(account.data).value.programdataAddress).value.value;
                  && programdata.data == programdata.data[..ProgramDataMetadataSize] + program
                  && |program| == |programdata.data| - ProgramDataMetadataSize)
  {
    var account := w.Core().getAccount(id).value.value;
    var program := GetProgram(w, id, decodeState).value.value;
    if account.owner == LoaderV4Id {
      assert account.data == account.data[..LoaderV4ProgramDataOffset] + account.data[LoaderV4ProgramDataOffset..];
    } else if account.owner == BpfLoaderUpgradeableId {
      var programdata := TryGetAccount(w, decodeState(account.data).value.programdataAddress).value;
      assert programdata.data == programdata.data[..ProgramDataMetadataSize] + programdata.data[ProgramDataMetadataSize..];
    }
  }
}

=== FILE: results.dfy ===
/** Failure-compatible Option and Result types used throughout the model,
    in the shape of Rust's `Option` and `Result`. */
module Results {

  datatype Option<+T> = None | Some(value: T) {
    predicate IsFailure() { None? }

    function PropagateFailure<U>(): Option<U>
      requires None?
    {
      None
    }

    function Extract(): T
      requires Some?
    {
      value
    }

    /** `Option::ok_or`: a missing value becomes the given error. */
    function OkOr<E>(error: E): Result<T, E> {
      match this
      case Some(v) => Ok(v)
      case None => Err(error)
    }
  }

  datatype Result<+T, +E> = Ok(value: T) | Err(error: E) {
    predicate IsFailure() { Err? }

    function PropagateFailure<U>(): Result<U, E>
      requires Err?
    {
      Err(error)
    }

    function Extract(): T
      requires Ok?
    {
      value
    }

    /** `Result::map_err`. */
    function MapErr<F>(f: E -> F): Result<T, F> {
      match this
      case Ok(v) => Ok(v)
      case Err(e) => Err(f(e))
    }
  }
}

=== FILE: rpc_client.dfy ===
/** The remote-node client backend
    (client/client-api/src/base_impls/rpc_client.rs). The node's JSON-RPC
    methods are represented by their replies, already decoded from their
    wire encodings; every native error is translated into a `ClientError`. */
module RpcClientBackend {
  import opened Results
  import opened Ledger
  import opened Transactions
  import opened Errors
  import opened KeyOrder
  import opened Execution
  import opened Capabilities
  import opened GetterExt
  import opened Sanitize

  /** The status metadata of a confirmed transaction. Fields the node may
      omit are optional. */
  datatype StatusMeta = StatusMeta(
    err: Option<TransactionError>,
    fee: U64,
    logMessages: Option<seq<string>>,
    returnData: Option<ReturnData>,
    computeUnitsConsumed: Option<U64>)

  datatype ConfirmedTransaction = ConfirmedTransaction(slot: U64, meta: Option<StatusMeta>)

  type RpcResult<T> = Result<T, RpcClientError>

  /** The node's methods the backend calls, at the client's commitment.
      `getTransaction` is indexed by the attempt number, since successive
      polls may answer differently. */
  datatype RpcNode = RpcNode(
    getAccountWithCommitment: Pubkey -> RpcResult<Option<Account>>,
    getProgramAccountsWithConfig: (Pubkey, Option<seq<ProgramAccountsFilter>>) -> RpcResult<seq<(Pubkey, Account)>>,
    getMultipleAccountsWithCommitment: seq<Pubkey> -> RpcResult<seq<Option<Account>>>,
    getMinimumBalanceForRentExemption: nat -> RpcResult<U64>,
    getLatestBlockhashWithCommitment: RpcResult<(Hash, U64)>,
    sendTransaction: VersionedTransaction -> RpcResult<Signature>,
    sendAndConfirmTransaction: VersionedTransaction -> RpcResult<Signature>,
    getTransaction: (Signature, nat) -> RpcResult<ConfirmedTransaction>,
    simulateTransaction: (VersionedTransaction, seq<Pubkey>) -> RpcResult<RpcSimulateResult>,
    getFeeForMessage: Message -> RpcResult<Option<U64>>)
  {
    /** The multi-read answers one entry per requested key (the backend
        asserts this of every reply). */
    ghost predicate AnswersEveryKey() {
      forall keys: seq<Pubkey> :: getMultipleAccountsWithCommitment(keys).Ok?
        ==> |getMultipleAccountsWithCommitment(keys).value| == |keys|
    }
  }

  type RpcClient = c: RpcNode | c.AnswersEveryKey()
    witness RpcNode(
      _ => Ok(None), (_, _) => Ok([]), (ks: seq<Pubkey>) => Ok(seq(|ks|, _ => None)), _ => Ok(0),
      Ok((Hash([]), 0)), _ => Ok(Signature([])), _ => Ok(Signature([])),
      (_, _) => Err(RpcClientError(RpcClientErrorKind.Custom(""))), (_, _) => Err(RpcClientError(RpcClientErrorKind.Custom(""))), _ => Ok(None))

  function Translate<T>(r: RpcResult<T>): (t: ClientResult<T>)
    ensures r.Ok? <==> t.Ok?
    ensures r.Ok? ==> t.value == r.value
    ensures r.Err? ==> t.error == FromRpcClientError(r.error)
  {
    match r
    case Ok(v) => Ok(v)
    case Err(e) => Err(FromRpcClientError(e))
  }

  function GetAccount(c: RpcClient, key: Pubkey): (r: ClientResult<Option<Account>>)
    ensures r == Translate(c.getAccountWithCommitment(key))
  {
    var account :- Translate(c.getAccountWithCommitment(key));
    Ok(account)
  }

  /** `get_program_accounts`: the node's reply, sorted by key, because a
      node with account indexing answers in no particular order. */
  function GetProgramAccounts(c: RpcClient, programId: Pubkey, filters: Option<seq<ProgramAccountsFilter>>)
    : (r: ClientResult<seq<(Pubkey, Account)>>)
    ensures (c.getProgramAccountsWithConfig(programId, filters).Err?)
              ==> r == Err(FromRpcClientError(c.getProgramAccountsWithConfig(programId, filters).error))
    ensures r.Ok? ==> && c.getProgramAccountsWithConfig(programId, filters).Ok?
                      && SortedByKey(r.value)
                      && multiset(r.value) == multiset(c.getProgramAccountsWithConfig(programId, filters).value)
  {
    var accounts :- Translate(c.getProgramAccountsWithConfig(programId, filters));
    Ok(SortByKey(accounts))
  }

  /** `get_multiple_accounts`: the node's reply, one entry per key. */
  function GetMultipleAccounts(c: RpcClient, keys: seq<Pubkey>): (r: ClientResult<seq<Option<Account>>>)
    ensures r.Ok? ==> |r.value| == |keys|
    ensures r == Translate(c.getMultipleAccountsWithCommitment(keys))
  {
    var accounts :- Translate(c.getMultipleAccountsWithCommitment(keys));
    Ok(accounts)
  }

  function GetMinimumBalanceForRentExemption(c: RpcClient, dataLen: nat): (r: ClientResult<U64>)
    ensures r == Translate(c.getMinimumBalanceForRentExemption(dataLen))
  {
    var minimum :- Translate(c.getMinimumBalanceForRentExemption(dataLen));
    Ok(minimum)
  }

  /** The blockhash of the node's latest blockhash reply. */
  function GetLatestBlockhash(c: RpcClient): (r: ClientResult<Hash>)
    ensures c.getLatestBlockhashWithCommitment.Ok? ==> r == Ok(c.getLatestBlockhashWithCommitment.value.0)
    ensures c.getLatestBlockhashWithCommitment.Err? ==> r == Err(FromRpcClientError(c.getLatestBlockhashWithCommitment.error))
  {
    var (blockhash, _) :- Translate(c.getLatestBlockhashWithCommitment);
    Ok(blockhash)
  }

  /** The node as a reading capability, for the derived readers. */
  function AsGetter(c: RpcClient): (g: Getter)
    ensures forall key :: g.getAccount(key) == GetAccount(c, key)
    ensures forall keys :: g.getMultipleAccounts(keys) == GetMultipleAccounts(c, keys)
  {
    Getter(
      (key: Pubkey) => GetAccount(c, key),
      (programId: Pubkey, filters: Option<seq<ProgramAccountsFilter>>) => GetProgramAccounts(c, programId, filters),
      (keys: seq<Pubkey>) => GetMultipleAccounts(c, keys),
      (dataLen: nat) => GetMinimumBalanceForRentExemption(c, dataLen),
      GetLatestBlockhash(c))
  }

  /** A send rejected by its preflight simulation. */
  predicate IsPreflightFailure(r: RpcResult<Signature>) {
    && r.Err? && r.error.kind.RpcError? && r.error.kind.rpc.RpcResponseError?
    && r.error.kind.rpc.data.SendTransactionPreflightFailure?
  }

  /** The simulation a preflight failure carries. */
  function PreflightSimulation(r: RpcResult<Signature>): (s: RpcSimulateResult)
    requires IsPreflightFailure(r)
    ensures r.error.kind == RpcClientErrorKind.RpcError(RpcResponseError(r.error.kind.rpc.code, r.error.kind.rpc.message,
                                                                         SendTransactionPreflightFailure(s)))
  {
    r.error.kind.rpc.data.simulation
  }

  /** A preflight failure that consumed no compute units: the transaction
      could not even start executing. */
  predicate FailedBeforeExecution(r: RpcResult<Signature>)
    requires IsPreflightFailure(r) ==> PreflightSimulation(r).unitsConsumed.Some?
  {
    IsPreflightFailure(r) && PreflightSimulation(r).unitsConsumed.value == 0
  }

  /** `process_transaction` returning the signature. A send with preflight
      first; when the preflight shows the transaction failed before
      executing, its error is returned. Otherwise the transaction is sent
      again without preflight and confirmed: a confirmation, or a
      confirmed on-chain failure, yields the transaction's first
      signature; any other failure is translated. The Rust client unwraps the
      preflight's units and error, indexes the first signature and asserts
      the confirmed signature is that signature. */
  function ProcessForSignature(c: RpcClient, transaction: VersionedTransaction): (r: ClientResult<Signature>)
    requires |transaction.signatures| > 0
    requires IsPreflightFailure(c.sendTransaction(transaction)) ==>
               var simulation := PreflightSimulation(c.sendTransaction(transaction));
               simulation.unitsConsumed.Some? && (simulation.unitsConsumed.value == 0 ==> simulation.err.Some?)
    requires (!FailedBeforeExecution(c.sendTransaction(transaction)) && c.sendAndConfirmTransaction(transaction).Ok?)
             ==> c.sendAndConfirmTransaction(transaction).value == transaction.signatures[0]
    ensures (FailedBeforeExecution(c.sendTransaction(transaction)))
              ==> r == Err(ClientError.TransactionError(PreflightSimulation(c.sendTransaction(transaction)).err.value))
    ensures !FailedBeforeExecution(c.sendTransaction(transaction)) ==>
              var confirmed := c.sendAndConfirmTransaction(transaction);
              && (r.Ok? <==> confirmed.Ok? || confirmed.error.kind.TransactionError?)
              && (r.Ok? ==> r.value == transaction.signatures[0])
              && (r.Err? ==> r.error == FromRpcClientError(confirmed.error))
  {
    var signature := transaction.signatures[0];
    var preflight := c.sendTransaction(transaction);
    if FailedBeforeExecution(preflight) then
      Err(ClientError.TransactionError(PreflightSimulation(preflight).err.value))
    else
      match c.sendAndConfirmTransaction(transaction)
      case Ok(_) => Ok(signature)
      case Err(error) =>
        if error.kind.TransactionError? then Ok(signature) else Err(FromRpcClientError(error))
  }

  /** The number of re-polls after the first poll for a confirmed transaction. */
  const MaxRetries: nat := 10

  /** Polls for the confirmed transaction starting at attempt `attempt`: the
      first successful poll wins; when every poll up to attempt
      `MaxRetries` fails, the last failure is the result. */
  function Confirm(fetch: (Signature, nat) -> RpcResult<ConfirmedTransaction>, signature: Signature, attempt: nat)
    : (r: RpcResult<ConfirmedTransaction>)
    requires attempt <= MaxRetries
    ensures r.Ok? ==> exists n :: attempt <= n <= MaxRetries && fetch(signature, n) == r
                                  && forall m :: attempt <= m < n ==> fetch(signature, m).Err?
    ensures r.Err? ==> r == fetch(signature, MaxRetries)
                       && forall n :: attempt <= n <= MaxRetries ==> fetch(signature, n).Err?
    decreases MaxRetries - attempt
  {
    match fetch(signature, attempt)
    case Ok(confirmed) => Ok(confirmed)
    case Err(err) => if attempt >= MaxRetries then Err(err) else Confirm(fetch, signature, attempt + 1)
  }

  /** The polling loop of `process_transaction`: at most `MaxRetries + 1`
      polls, with the result `Confirm` describes. */
  method AwaitConfirmation(fetch: (Signature, nat) -> RpcResult<ConfirmedTransaction>, signature: Signature)
    returns (r: RpcResult<ConfirmedTransaction>, polls: nat)
    ensures r == Confirm(fetch, signature, 0)
    ensures 1 <= polls <= MaxRetries + 1
    ensures r == fetch(signature, polls - 1)
  {
    var numRetries := 0;
    while true
      invariant numRetries <= MaxRetries
      invariant Confirm(fetch, signature, 0) == Confirm(fetch, signature, numRetries)
      decreases MaxRetries - numRetries
    {
      var result := fetch(signature, numRetries);
      match result {
        case Ok(confirmed) =>
          return Ok(confirmed), numRetries + 1;
        case Err(err) =>
          if numRetries >= MaxRetries {
            return Err(err), numRetries + 1;
          }
          numRetries := numRetries + 1;
      }
    }
  }

  /** The confirmed transaction has the shape `convert_processed` matches
      on; anything else panics there. */
  predicate IsConvertible(confirmed: ConfirmedTransaction) {
    confirmed.meta.Some? && confirmed.meta.value.logMessages.Some? && confirmed.meta.value.computeUnitsConsumed.Some?
  }

  /** `Option<TransactionError>` as a transaction result. */
  function ResultOf(err: Option<TransactionError>): (r: Result<(), TransactionError>)
    ensures r.Ok? <==> err.None?
    ensures r.Err? ==> r.error == err.value
  {
    match err
    case None => Ok(())
    case Some(e) => Err(e)
  }

  /** `convert_processed`: the output of a confirmed transaction, taken
      from its status metadata. */
  function ConvertProcessed(transaction: VersionedTransaction, confirmed: ConfirmedTransaction): (out: ExecutionOutput)
    requires IsConvertible(confirmed)
    ensures out.transaction == transaction
    ensures out.IsSuccess() <==> confirmed.meta.value.err.None?
    ensures out.result.Err? ==> out.result.error == confirmed.meta.value.err.value
    ensures out.logs == confirmed.meta.value.logMessages.value
    ensures out.computeUnitsConsumed == confirmed.meta.value.computeUnitsConsumed.value
    ensures out.returnData == confirmed.meta.value.returnData && out.fee == confirmed.meta.value.fee
  {
    var meta := confirmed.meta.value;
    ExecutionOutput(transaction, ResultOf(meta.err), meta.logMessages.value, meta.computeUnitsConsumed.value,
                    meta.returnData, meta.fee)
  }

  /** `process_transaction` returning an execution output: submit, then
      poll for the confirmed transaction and convert it. A poll that keeps
      failing reports its last failure. */
  function ProcessForOutput(c: RpcClient, transaction: VersionedTransaction): (r: ClientResult<ExecutionOutput>)
    requires |transaction.signatures| > 0
    requires IsPreflightFailure(c.sendTransaction(transaction)) ==>
               var simulation := PreflightSimulation(c.sendTransaction(transaction));
               simulation.unitsConsumed.Some? && (simulation.unitsConsumed.value == 0 ==> simulation.err.Some?)
    requires (!FailedBeforeExecution(c.sendTransaction(transaction)) && c.sendAndConfirmTransaction(transaction).Ok?)
             ==> c.sendAndConfirmTransaction(transaction).value == transaction.signatures[0]
    requires (ProcessForSignature(c, transaction).Ok? && Confirm(c.getTransaction, transaction.signatures[0], 0).Ok?)
             ==> IsConvertible(Confirm(c.getTransaction, transaction.signatures[0], 0).value)
    ensures ProcessForSignature(c, transaction).Err? ==> r == Err(ProcessForSignature(c, transaction).error)
    ensures ProcessForSignature(c, transaction).Ok? ==>
              var polled := Confirm(c.getTransaction, transaction.signatures[0], 0);
              && (polled.Err? ==> r == Err(FromRpcClientError(polled.error)))
              && (polled.Ok? ==> r == Ok(ConvertProcessed(transaction, polled.value)))
  {
    var signature :- ProcessForSignature(c, transaction);
    var confirmed :- Translate(Confirm(c.getTransaction, signature, 0));
    Ok(ConvertProcessed(transaction, confirmed))
  }

  /** Whenever `process_transaction` produces an output, the signature
      form of the call succeeds with that output's fee-payer signature. */
  lemma SignatureAgreesWithOutput(c: RpcClient, transaction: VersionedTransaction)
    requires |transaction.signatures| > 0
    requires IsPreflightFailure(c.sendTransaction(transaction)) ==>
               var simulation := PreflightSimulation(c.sendTransaction(transaction));
               simulation.unitsConsumed.Some? && (simulation.unitsConsumed.value == 0 ==> simulation.err.Some?)
    requires (!FailedBeforeExecution(c.sendTransaction(transaction)) && c.sendAndConfirmTransaction(transaction).Ok?)
             ==> c.sendAndConfirmTransaction(transaction).value == transaction.signatures[0]
    requires (ProcessForSignature(c, transaction).Ok? && Confirm(c.getTransaction, transaction.signatures[0], 0).Ok?)
             ==> IsConvertible(Confirm(c.getTransaction, transaction.signatures[0], 0).value)
    ensures ProcessForOutput(c, transaction).Ok? ==>
              ProcessForSignature(c, transaction) == Ok(ProcessForOutput(c, transaction).value.Signature())
  {
  }

  /** `get_fee_for_versioned_message`: the node's fee; a message whose
      blockhash the node does not know has none. */
  function GetFeeForVersionedMessage(c: RpcClient, message: Message): (r: RpcResult<U64>)
    ensures c.getFeeForMessage(message).Err? ==> r == Err(c.getFeeForMessage(message).error)
    ensures c.getFeeForMessage(message) == Ok(None) ==> r == Err(RpcClientError(RpcClientErrorKind.Custom("Invalid blockhash")))
    ensures (c.getFeeForMessage(message).Ok? && c.getFeeForMessage(message).value.Some?)
              ==> r == Ok(c.getFeeForMessage(message).value.value)
  {
    var fee :- c.getFeeForMessage(message);
    fee.OkOr(RpcClientError(RpcClientErrorKind.Custom("Invalid blockhash")))
  }

  /** A simulated account state as reported: an empty system account is a
      closed (absent) account. */
  function Normalise(account: Option<Account>): (r: Option<Account>)
    ensures r.Some? <==> account.Some? && !IsEmptySystemAccount(account.value)
    ensures r.Some? ==> r == account
  {
    match account
    case Some(a) => if IsEmptySystemAccount(a) then None else Some(a)
    case None => None
  }

  /** The account keys paired with their normalised simulated states. */
  function NormalisedPairs(keys: seq<Pubkey>, accounts: seq<Option<Account>>): (post: seq<(Pubkey, Option<Account>)>)
    requires |accounts| == |keys|
    ensures |post| == |keys|
    ensures forall i :: 0 <= i < |keys| ==> post[i] == (keys[i], Normalise(accounts[i]))
  {
    seq(|keys|, i requires 0 <= i < |keys| => (keys[i], Normalise(accounts[i])))
  }

  /** The keys of the live executable entries, in order. */
  function ProgramIds(post: seq<(Pubkey, Option<Account>)>): (ids: seq<Pubkey>)
    decreases |post|
  {
    if |post| == 0 then []
    else
      var init := ProgramIds(post[..|post| - 1]);
      var last := post[|post| - 1];
      if last.1.Some? && last.1.value.executable then init + [last.0] else init
  }

  /** A key is a program id exactly when some entry for it is live and
      executable. */
  lemma {:induction false} ProgramIdsExact(post: seq<(Pubkey, Option<Account>)>, k: Pubkey)
    ensures k in ProgramIds(post) <==> exists i :: 0 <= i < |post| && post[i].0 == k && post[i].1.Some? && post[i].1.value.executable
    decreases |post|
  {
    if |post| > 0 {
      var init := post[..|post| - 1];
      ProgramIdsExact(init, k);
      assert forall i :: 0 <= i < |init| ==> init[i] == post[i];
      if exists i :: 0 <= i < |post| && post[i].0 == k && post[i].1.Some? && post[i].1.value.executable {
        var i :| 0 <= i < |post| && post[i].0 == k && post[i].1.Some? && post[i].1.value.executable;
        if i < |init| {
          assert init[i].0 == k;
        }
      }
    }
  }

  /** Zipping ids with the re-read accounts into a map; a later id
      replaces an earlier one. */
  function ProgramMap(ids: seq<Pubkey>, accounts: seq<Account>): (m: map<Pubkey, Account>)
    requires |accounts| == |ids|
    ensures forall k :: k in m <==> k in ids
    decreases |ids|
  {
    if |ids| == 0 then map[]
    else
      var n := |ids| - 1;
      ProgramMap(ids[..n], accounts[..n])[ids[n] := accounts[n]]
  }

  /** With distinct ids, each id maps to the account read for it. */
  lemma {:induction false} ProgramMapDistinct(ids: seq<Pubkey>, accounts: seq<Account>, j: nat)
    requires |accounts| == |ids| && j < |ids|
    requires forall a, b :: 0 <= a < b < |ids| ==> ids[a] != ids[b]
    ensures ProgramMap(ids, accounts)[ids[j]] == accounts[j]
    decreases |ids|
  {
    var n := |ids| - 1;
    if j < n {
      assert ids[..n][j] == ids[j] && accounts[..n][j] == accounts[j];
      ProgramMapDistinct(ids[..n], accounts[..n], j);
    }
  }

  /** Replaces each live entry whose key has a re-read program account by
      that account, consuming it (`BTreeMap::remove`), so a repeated key
      is replaced only once. */
  function ReplacePrograms(post: seq<(Pubkey, Option<Account>)>, programs: map<Pubkey, Account>)
    : (r: seq<(Pubkey, Option<Account>)>)
    ensures |r| == |post|
    ensures forall i :: 0 <= i < |post| ==> r[i].0 == post[i].0 && (r[i].1.Some? <==> post[i].1.Some?)
    decreases |post|
  {
    if |post| == 0 then []
    else
      var (key, state) := post[0];
      if state.Some? && key in programs then [(key, Some(programs[key]))] + ReplacePrograms(post[1..], programs - {key})
      else [(key, state)] + ReplacePrograms(post[1..], programs)
  }

  /** With distinct keys, a live entry is replaced by its program account
      when there is one, and kept otherwise. */
  lemma {:induction false} ReplaceProgramsAt(post: seq<(Pubkey, Option<Account>)>, programs: map<Pubkey, Account>, i: nat)
    requires i < |post|
    requires forall a, b :: 0 <= a < b < |post| ==> post[a].0 != post[b].0
    ensures ReplacePrograms(post, programs)[i].1
              == if post[i].1.Some? && post[i].0 in programs then Some(programs[post[i].0]) else post[i].1
    decreases |post|
  {
    if i > 0 {
      var key := post[0].0;
      var m := if post[0].1.Some? && key in programs then programs - {key} else programs;
      assert post[1..][i - 1] == post[i];
      assert post[i].0 != key;
      ReplaceProgramsAt(post[1..], m, i - 1);
    }
  }

  /** The re-read of the program accounts among the simulated states: one
      multi-read of the program ids, which succeeds exactly when every id
      has an account and otherwise names the first id that has none. */
  function ProgramReread(c: RpcClient, post: seq<(Pubkey, Option<Account>)>): (r: ClientResult<seq<Account>>)
    ensures r.Ok? ==> |r.value| == |ProgramIds(post)|
    ensures var ids := ProgramIds(post);
            var reply := GetMultipleAccounts(c, ids);
            && (reply.Err? ==> r == Err(reply.error))
            && (reply.Ok? ==>
                  && (r.Ok? <==> forall i :: 0 <= i < |ids| ==> reply.value[i].Some?)
                  && (r.Ok? ==> forall i :: 0 <= i < |ids| ==> reply.value[i] == Some(r.value[i]))
                  && (r.Err? ==> exists i :: 0 <= i < |ids| && reply.value[i].None? && r.error == ClientError.AccountNotFound(ids[i])
                                             && forall j :: 0 <= j < i ==> reply.value[j].Some?))
  {
    var ids := ProgramIds(post);
    var accounts := TryGetMultipleAccounts(Bare(AsGetter(c)), ids);
    assert accounts.Ok? ==> |accounts.value| == |Zip(ids, GetMultipleAccounts(c, ids).value)|;
    if GetMultipleAccounts(c, ids).Ok? then
      TryGetMultipleAccountsAllOrFirstMissing(Bare(AsGetter(c)), ids);
      accounts
    else accounts
  }

  /** The simulation reply has the shape `convert_simulated` unwraps. */
  predicate IsConvertibleSimulation(c: RpcClient, keys: seq<Pubkey>, result: RpcSimulateResult) {
    && result.accounts.Some? && |result.accounts.value| == |keys| && result.unitsConsumed.Some?
    && (ProgramReread(c, NormalisedPairs(keys, result.accounts.value)).Ok? ==> result.logs.Some?)
  }

  /** `convert_simulated`: the post accounts are the reported states of
      the transaction's account keys, normalised, with every executable one
      replaced by a fresh read of the program account; a program account
      that cannot be read fails the conversion. */
  function ConvertSimulated(c: RpcClient, transaction: VersionedTransaction, sanitized: SanitizedTransaction,
                            result: RpcSimulateResult, fee: U64): (r: ClientResult<ExecutionEffect>)
    requires IsConvertibleSimulation(c, sanitized.AccountKeys(), result)
    ensures var post := NormalisedPairs(sanitized.AccountKeys(), result.accounts.value);
            var reread := ProgramReread(c, post);
            && (reread.Err? ==> r == Err(reread.error))
            && (reread.Ok? ==>
                  && r.Ok?
                  && r.value.postAccounts == CollectPostAccounts(ReplacePrograms(post, ProgramMap(ProgramIds(post), reread.value))))
    ensures r.Ok? ==> && r.value.transaction == transaction && r.value.fee == fee
                      && r.value.result == ResultOf(result.err) && r.value.logs == result.logs.value
                      && r.value.computeUnitsConsumed == result.unitsConsumed.value
                      && r.value.returnData == result.returnData
  {
    var post := NormalisedPairs(sanitized.AccountKeys(), result.accounts.value);
    var programs :- ProgramReread(c, post);
    var replaced := ReplacePrograms(post, ProgramMap(ProgramIds(post), programs));
    Ok(ExecutionEffect(transaction, ResultOf(result.err), result.logs.value, result.unitsConsumed.value,
                       result.returnData, fee, CollectPostAccounts(replaced)))
  }

  /** With distinct keys, the replaced state of entry `i` is: absent when
      the simulation reports it closed or missing; the program account
      re-read for its key when it is executable; the simulated account
      otherwise. */
  lemma ReplacedEntry(post: seq<(Pubkey, Option<Account>)>, programs: seq<Account>, i: nat)
    requires i < |post|
    requires forall a, b :: 0 <= a < b < |post| ==> post[a].0 != post[b].0
    requires |programs| == |ProgramIds(post)|
    ensures var ids := ProgramIds(post);
            var state := ReplacePrograms(post, ProgramMap(ids, programs))[i].1;
            && (post[i].1.None? ==> state.None?)
            && (post[i].1.Some? && !post[i].1.value.executable ==> state == post[i].1)
            && (post[i].1.Some? && post[i].1.value.executable ==>
                  exists j :: 0 <= j < |ids| && ids[j] == post[i].0 && state == Some(programs[j]))
  {
    var ids := ProgramIds(post);
    var m := ProgramMap(ids, programs);
    var key := post[i].0;
    ReplaceProgramsAt(post, m, i);
    ProgramIdsExact(post, key);
    if post[i].1.Some? && post[i].1.value.executable {
      assert key in ids;
      var j :| 0 <= j < |ids| && ids[j] == key;
      ProgramIdsDistinct(post);
      ProgramMapDistinct(ids, programs, j);
    }
  }

  /** The post account recorded for `key`, whose simulated state was
      `account`: absent when the simulation reports it closed or missing;
      the freshly read program account when it is executable; the
      simulated account otherwise. */
  predicate DescribesPostAccount(collected: map<Pubkey, Option<Account>>, ids: seq<Pubkey>, programs: seq<Account>,
                                 key: Pubkey, account: Option<Account>)
  {
    && key in collected
    && (Normalise(account).None? ==> collected[key].None?)
    && (Normalise(account).Some? && !account.value.executable ==> collected[key] == account)
    && (Normalise(account).Some? && account.value.executable ==>
          exists j :: 0 <= j < |ids| && j < |programs| && ids[j] == key && collected[key] == Some(programs[j]))
  }

  /** The post accounts of a converted simulation: the simulated states,
      normalised, with the program accounts re-read. */
  function SimulatedCollection(keys: seq<Pubkey>, accounts: seq<Option<Account>>, programs: seq<Account>)
    : map<Pubkey, Option<Account>>
    requires |accounts| == |keys|
    requires |programs| == |ProgramIds(NormalisedPairs(keys, accounts))|
  {
    var post := NormalisedPairs(keys, accounts);
    CollectPostAccounts(ReplacePrograms(post, ProgramMap(ProgramIds(post), programs))).accounts
  }

  /** With distinct account keys, the post account of key `i` is described
      by its simulated state. */
  lemma PostAccountAt(keys: seq<Pubkey>, accounts: seq<Option<Account>>, programs: seq<Account>, i: nat)
    requires |accounts| == |keys| && i < |keys|
    requires forall a, b :: 0 <= a < b < |keys| ==> keys[a] != keys[b]
    requires |programs| == |ProgramIds(NormalisedPairs(keys, accounts))|
    ensures DescribesPostAccount(SimulatedCollection(keys, accounts, programs), ProgramIds(NormalisedPairs(keys, accounts)),
                                 programs, keys[i], accounts[i])
  {
    var post := NormalisedPairs(keys, accounts);
    assert post[i] == (keys[i], Normalise(accounts[i]));
    assert forall a, b :: 0 <= a < b < |post| ==> post[a].0 != post[b].0 by {
      forall a, b | 0 <= a < b < |post| ensures post[a].0 != post[b].0 {
        assert post[a].0 == keys[a] && post[b].0 == keys[b];
      }
    }
    var replaced := ReplacePrograms(post, ProgramMap(ProgramIds(post), programs));
    assert replaced[i].0 == keys[i];
    assert forall j :: i < j < |replaced| ==> replaced[j].0 != replaced[i].0 by {
      forall j | i < j < |replaced| ensures replaced[j].0 != replaced[i].0 {
        assert replaced[j].0 == post[j].0;
      }
    }
    CollectPostAccountsLastWins(replaced, i);
    ReplacedEntry(post, programs, i);
  }

  /** The per-key description of `PostAccountAt`, for every account key. */
  lemma SimulatedPostAccounts(keys: seq<Pubkey>, accounts: seq<Option<Account>>, programs: seq<Account>)
    requires |accounts| == |keys|
    requires forall a, b :: 0 <= a < b < |keys| ==> keys[a] != keys[b]
    requires |programs| == |ProgramIds(NormalisedPairs(keys, accounts))|
    ensures forall i :: 0 <= i < |keys| ==>
              DescribesPostAccount(SimulatedCollection(keys, accounts, programs), ProgramIds(NormalisedPairs(keys, accounts)),
                                   programs, keys[i], accounts[i])
  {
    forall i | 0 <= i < |keys| {
      PostAccountAt(keys, accounts, programs, i);
    }
  }

  /** Distinct entry keys give distinct program ids. */
  lemma {:induction false} ProgramIdsDistinct(post: seq<(Pubkey, Option<Account>)>)
    requires forall a, b :: 0 <= a < b < |post| ==> post[a].0 != post[b].0
    ensures var ids := ProgramIds(post); forall a, b :: 0 <= a < b < |ids| ==> ids[a] != ids[b]
    decreases |post|
  {
    if |post| > 0 {
      var init := post[..|post| - 1];
      ProgramIdsDistinct(init);
      var last := post[|post| - 1];
      ProgramIdsExact(init, last.0);
    }
  }

  /** What a simulation needs of the node: the reply has units, an error
      when no units were consumed, and the convertible shape otherwise. */
  predicate IsSimulatable(c: RpcClient, transaction: VersionedTransaction, sanitized: SanitizedTransaction) {
    var reply := c.simulateTransaction(transaction, sanitized.AccountKeys());
    reply.Ok? ==>
      && reply.value.unitsConsumed.Some?
      && (reply.value.unitsConsumed.value == 0 ==> reply.value.err.Some?)
      && ((reply.value.unitsConsumed.value != 0 && GetFeeForVersionedMessage(c, transaction.message).Ok?)
            ==> IsConvertibleSimulation(c, sanitized.AccountKeys(), reply.value))
  }

  /** `simulate_transaction` returning an execution effect: sanitize
      through the node, simulate asking for the post states of every
      account key, report a simulation that consumed no units as its
      transaction error, then fetch the fee and convert. */
  function SimulateForEffect(c: RpcClient, env: SanitizeEnv, transaction: VersionedTransaction): (r: ClientResult<ExecutionEffect>)
    requires var s := SanitizeTransaction(ks => GetMultipleAccounts(c, ks), env, transaction);
             s.Ok? ==> IsSimulatable(c, transaction, s.value)
    ensures var s := SanitizeTransaction(ks => GetMultipleAccounts(c, ks), env, transaction);
            && (s.Err? ==> r == Err(s.error))
            && (s.Ok? ==>
                  var reply := c.simulateTransaction(transaction, s.value.AccountKeys());
                  var fee := GetFeeForVersionedMessage(c, transaction.message);
                  && (reply.Err? ==> r == Err(FromRpcClientError(reply.error)))
                  && ((reply.Ok? && reply.value.unitsConsumed.value == 0)
                        ==> r == Err(ClientError.TransactionError(reply.value.err.value)))
                  && ((reply.Ok? && reply.value.unitsConsumed.value != 0 && fee.Err?)
                        ==> r == Err(FromRpcClientError(fee.error)))
                  && ((reply.Ok? && reply.value.unitsConsumed.value != 0 && fee.Ok?)
                        ==> r == ConvertSimulated(c, transaction, s.value, reply.value, fee.value)))
  {
    var sanitized :- SanitizeTransaction(ks => GetMultipleAccounts(c, ks), env, transaction);
    var result :- Translate(c.simulateTransaction(transaction, sanitized.AccountKeys()));
    if result.unitsConsumed.value == 0 then Err(ClientError.TransactionError(result.err.value))
    else
      var fee :- Translate(GetFeeForVersionedMessage(c, transaction.message));
      ConvertSimulated(c, transaction, sanitized, result, fee)
  }

  /** `simulate_transaction` returning an execution output: the effect
      without its post accounts. */
  function SimulateForOutput(c: RpcClient, env: SanitizeEnv, transaction: VersionedTransaction): (r: ClientResult<ExecutionOutput>)
    requires var s := SanitizeTransaction(ks => GetMultipleAccounts(c, ks), env, transaction);
             s.Ok? ==> IsSimulatable(c, transaction, s.value)
    ensures var effect := SimulateForEffect(c, env, transaction);
            && (effect.Err? ==> r == Err(effect.error))
            && (effect.Ok? ==> r == Ok(EffectToOutput(effect.value)))
  {
    var effect :- SimulateForEffect(c, env, transaction);
    Ok(EffectToOutput(effect))
  }
}

=== FILE: sanitize.dfy ===
/** Sanitization of a versioned transaction against a backend that can
    multi-read accounts (client/client-api/src/internals/sanitize.rs); the
    backend is represented by its `get_multiple_accounts`, which any
    wrapping forwards unchanged:
    address-table lookups are resolved from the on-chain tables, fetched
    together with the slot-hashes sysvar in one multi-read.

    The bincode decoders, the table decoder and
    `SanitizedTransaction::try_create` are SDK routines, given as the
    functions of a `SanitizeEnv`. */
module Sanitize {
  import opened Results
  import opened Ledger
  import opened Transactions
  import opened Errors
  import opened Capabilities

  datatype SanitizeEnv = SanitizeEnv(
    decodeSlotHashes: seq<Byte> -> Option<SlotHashes>,
    decodeTable: seq<Byte> -> Option<AddressLookupTable>,
    tryCreate: (VersionedTransaction, LoadedAddresses) -> Result<SanitizedTransaction, TransactionError>)

  /** `AddressLookupTable::lookup` at the current slot, reduced to its
      bounds check: every index must address an entry of the table. */
  function Lookup(table: AddressLookupTable, indexes: seq<U8>): (r: Result<seq<Pubkey>, AddressLookupError>)
    ensures r.Ok? <==> forall j :: 0 <= j < |indexes| ==> indexes[j] < |table.addresses|
    ensures r.Err? ==> r.error == InvalidLookupIndex
    ensures r.Ok? ==> |r.value| == |indexes|
                      && forall j :: 0 <= j < |indexes| ==> r.value[j] == table.addresses[indexes[j]]
    decreases |indexes|
  {
    if |indexes| == 0 then Ok([])
    else if indexes[0] >= |table.addresses| then Err(InvalidLookupIndex)
    else
      var rest :- Lookup(table, indexes[1..]);
      Ok([table.addresses[indexes[0]]] + rest)
  }

  /** Resolves one table reference against its fetched account: the
      account must exist, then be owned by the lookup-table program, then
      decode; the writable indexes are resolved before the readonly ones. */
  function LoadTable(lookup: LookupTableRef, tableAccount: Option<Account>, decodeTable: seq<Byte> -> Option<AddressLookupTable>)
    : (r: Result<LoadedAddresses, AddressLookupError>)
    ensures tableAccount.None? ==> r == Err(LookupTableAccountNotFound)
    ensures tableAccount.Some? && tableAccount.value.owner != LookupTableProgramId ==> r == Err(InvalidAccountOwner)
    ensures (tableAccount.Some? && tableAccount.value.owner == LookupTableProgramId && decodeTable(tableAccount.value.data).None?)
              ==> r == Err(InvalidAccountData)
    ensures r.Ok? <==> tableAccount.Some? && tableAccount.value.owner == LookupTableProgramId
                       && decodeTable(tableAccount.value.data).Some?
                       && Lookup(decodeTable(tableAccount.value.data).value, lookup.writableIndexes).Ok?
                       && Lookup(decodeTable(tableAccount.value.data).value, lookup.readonlyIndexes).Ok?
    ensures r.Ok? ==> var table := decodeTable(tableAccount.value.data).value;
                      r.value == LoadedAddresses(Lookup(table, lookup.writableIndexes).value,
                                                 Lookup(table, lookup.readonlyIndexes).value)
  {
    var account :- tableAccount.OkOr(LookupTableAccountNotFound);
    if account.owner != LookupTableProgramId then Err(InvalidAccountOwner)
    else
      var table :- decodeTable(account.data).OkOr(InvalidAccountData);
      var writable :- Lookup(table, lookup.writableIndexes);
      var readonly :- Lookup(table, lookup.readonlyIndexes);
      Ok(LoadedAddresses(writable, readonly))
  }

  /** Resolves the references against the fetched tables pairwise (as
      `zip`), in reference order; the first failing table aborts. */
  function LoadAll(lookups: seq<LookupTableRef>, tables: seq<Option<Account>>, decodeTable: seq<Byte> -> Option<AddressLookupTable>)
    : (r: Result<seq<LoadedAddresses>, AddressLookupError>)
    ensures var n := if |lookups| <= |tables| then |lookups| else |tables|;
            r.Ok? ==> |r.value| == n && forall i :: 0 <= i < n ==>
                        LoadTable(lookups[i], tables[i], decodeTable).Ok? && r.value[i] == LoadTable(lookups[i], tables[i], decodeTable).value
    decreases |lookups|
  {
    if |lookups| == 0 || |tables| == 0 then Ok([])
    else
      var first :- LoadTable(lookups[0], tables[0], decodeTable);
      var rest :- LoadAll(lookups[1..], tables[1..], decodeTable);
      Ok([first] + rest)
  }

  /** `LoadAll` succeeds exactly when every paired table loads, and
      otherwise fails with the error of the first table that does not. */
  lemma {:induction false} LoadAllFailsAtFirstError(lookups: seq<LookupTableRef>, tables: seq<Option<Account>>,
                                                    decodeTable: seq<Byte> -> Option<AddressLookupTable>)
    ensures var n := if |lookups| <= |tables| then |lookups| else |tables|;
            var r := LoadAll(lookups, tables, decodeTable);
            && (r.Ok? <==> forall i :: 0 <= i < n ==> LoadTable(lookups[i], tables[i], decodeTable).Ok?)
            && (r.Err? ==> exists i :: 0 <= i < n && LoadTable(lookups[i], tables[i], decodeTable).Err?
                                       && r.error == LoadTable(lookups[i], tables[i], decodeTable).error
                                       && forall j :: 0 <= j < i ==> LoadTable(lookups[j], tables[j], decodeTable).Ok?)
    decreases |lookups|
  {
    if |lookups| > 0 && |tables| > 0 {
      var first := LoadTable(lookups[0], tables[0], decodeTable);
      if first.Ok? {
        LoadAllFailsAtFirstError(lookups[1..], tables[1..], decodeTable);
        var r := LoadAll(lookups, tables, decodeTable);
        var rest := LoadAll(lookups[1..], tables[1..], decodeTable);
        var n := if |lookups| <= |tables| then |lookups| else |tables|;
        forall i | 1 <= i < n
          ensures LoadTable(lookups[i], tables[i], decodeTable) == LoadTable(lookups[1..][i - 1], tables[1..][i - 1], decodeTable)
        {
        }
        if rest.Err? {
          var k :| 0 <= k < n - 1 && LoadTable(lookups[1..][k], tables[1..][k], decodeTable).Err?
                   && rest.error == LoadTable(lookups[1..][k], tables[1..][k], decodeTable).error
                   && forall j :: 0 <= j < k ==> LoadTable(lookups[1..][j], tables[1..][j], decodeTable).Ok?;
          assert r.error == LoadTable(lookups[k + 1], tables[k + 1], decodeTable).error;
          forall j | 0 <= j < k + 1 ensures LoadTable(lookups[j], tables[j], decodeTable).Ok? {
            if j > 0 {
              assert LoadTable(lookups[1..][j - 1], tables[1..][j - 1], decodeTable).Ok?;
            }
          }
        }
      }
    }
  }

  /** Collecting per-table addresses into one `LoadedAddresses`: every
      table's writables, then every table's readonlys. */
  function Concat(loaded: seq<LoadedAddresses>): (r: LoadedAddresses)
    ensures |loaded| > 0 ==> loaded[0].writable <= r.writable
    ensures forall k :: k in r.writable <==> exists i :: 0 <= i < |loaded| && k in loaded[i].writable
    ensures forall k :: k in r.readonly <==> exists i :: 0 <= i < |loaded| && k in loaded[i].readonly
    decreases |loaded|
  {
    if |loaded| == 0 then LoadedAddresses([], [])
    else
      var rest := Concat(loaded[1..]);
      LoadedAddresses(loaded[0].writable + rest.writable, loaded[0].readonly + rest.readonly)
  }

  /** The keys of the single multi-read: the table keys in reference
      order, then the slot-hashes sysvar. */
  function ReadKeys(lookups: seq<LookupTableRef>): (keys: seq<Pubkey>)
    ensures |keys| == |lookups| + 1 && keys[|lookups|] == SlotHashesSysvarId
    ensures forall i :: 0 <= i < |lookups| ==> keys[i] == lookups[i].accountKey
  {
    seq(|lookups|, i requires 0 <= i < |lookups| => lookups[i].accountKey) + [SlotHashesSysvarId]
  }

  /** The addresses a version-0 message loads, or the first error. The
      slot-hashes entry is the last of the reply; the Rust client unwraps it,
      so the reply must not be empty. */
  function LoadAddresses(multiRead: seq<Pubkey> -> ClientResult<seq<Option<Account>>>, env: SanitizeEnv, lookups: seq<LookupTableRef>): (r: ClientResult<LoadedAddresses>)
    requires multiRead(ReadKeys(lookups)).Ok? ==> |multiRead(ReadKeys(lookups)).value| > 0
    ensures multiRead(ReadKeys(lookups)).Err? ==> r == Err(multiRead(ReadKeys(lookups)).error)
    ensures multiRead(ReadKeys(lookups)).Ok? ==>
              var reply := multiRead(ReadKeys(lookups)).value;
              var last := reply[|reply| - 1];
              && (last.None? ==> r == Err(ClientError.AccountNotFound(SlotHashesSysvarId)))
              && ((last.Some? && env.decodeSlotHashes(last.value.data).None?)
                    ==> r == Err(ClientError.AccountDidNotDeserialize(SlotHashesSysvarId)))
              && (last.Some? && env.decodeSlotHashes(last.value.data).Some? ==>
                    var loaded := LoadAll(lookups, reply[..|reply| - 1], env.decodeTable);
                    r == if loaded.Err? then Err(ClientError.AddressLookupError(loaded.error)) else Ok(Concat(loaded.value)))
  {
    var accounts :- multiRead(ReadKeys(lookups));
    var slotHashesAccount :- accounts[|accounts| - 1].OkOr(ClientError.AccountNotFound(SlotHashesSysvarId));
    var _ :- env.decodeSlotHashes(slotHashesAccount.data).OkOr(ClientError.AccountDidNotDeserialize(SlotHashesSysvarId));
    var loaded :- LoadAll(lookups, accounts[..|accounts| - 1], env.decodeTable).MapErr(e => ClientError.AddressLookupError(e));
    Ok(Concat(loaded))
  }

  /** `SanitizeTransaction::sanitize_transaction`. Every version-0 message
      (even one without lookups) loads its addresses; a legacy message loads
      none and reads nothing. A `try_create` failure is a transaction error. */
  function SanitizeTransaction(multiRead: seq<Pubkey> -> ClientResult<seq<Option<Account>>>, env: SanitizeEnv, transaction: VersionedTransaction): (r: ClientResult<SanitizedTransaction>)
    requires transaction.message.V0? && multiRead(ReadKeys(transaction.message.lookups)).Ok?
             ==> |multiRead(ReadKeys(transaction.message.lookups)).value| > 0
    ensures transaction.message.Legacy? ==>
              r == env.tryCreate(transaction, LoadedAddresses([], [])).MapErr(e => ClientError.TransactionError(e))
    ensures transaction.message.V0? ==>
              var loaded := LoadAddresses(multiRead, env, transaction.message.lookups);
              r == if loaded.Err? then Err(loaded.error)
                   else env.tryCreate(transaction, loaded.value).MapErr(e => ClientError.TransactionError(e))
  {
    var loaded :- match transaction.message.AddressTableLookups()
      case Some(lookups) => LoadAddresses(multiRead, env, lookups)
      case None => Ok(LoadedAddresses([], []));
    env.tryCreate(transaction, loaded).MapErr(e => ClientError.TransactionError(e))
  }

  /** A legacy message never consults the backend: any two backends give
      the same result. */
  lemma LegacyReadsNothing(multiRead1: seq<Pubkey> -> ClientResult<seq<Option<Account>>>, multiRead2: seq<Pubkey> -> ClientResult<seq<Option<Account>>>, env: SanitizeEnv, transaction: VersionedTransaction)
    requires transaction.message.Legacy?
    ensures SanitizeTransaction(multiRead1, env, transaction) == SanitizeTransaction(multiRead2, env, transaction)
  {
  }

  /** The backend is consulted through one multi-read of `ReadKeys` only:
      backends that agree on that read give the same result. */
  lemma OnlyTheOneMultiRead(multiRead1: seq<Pubkey> -> ClientResult<seq<Option<Account>>>, multiRead2: seq<Pubkey> -> ClientResult<seq<Option<Account>>>, env: SanitizeEnv, transaction: VersionedTransaction)
    requires transaction.message.V0?
    requires multiRead1(ReadKeys(transaction.message.lookups))
             == multiRead2(ReadKeys(transaction.message.lookups))
    requires multiRead1(ReadKeys(transaction.message.lookups)).Ok?
             ==> |multiRead1(ReadKeys(transaction.message.lookups)).value| > 0
    ensures SanitizeTransaction(multiRead1, env, transaction) == SanitizeTransaction(multiRead2, env, transaction)
  {
  }

  function SumWritable(lookups: seq<LookupTableRef>): nat
    decreases |lookups|
  {
    if |lookups| == 0 then 0 else |lookups[0].writableIndexes| + SumWritable(lookups[1..])
  }

  function SumReadonly(lookups: seq<LookupTableRef>): nat
    decreases |lookups|
  {
    if |lookups| == 0 then 0 else |lookups[0].readonlyIndexes| + SumReadonly(lookups[1..])
  }

  /** When every table resolves, the loaded addresses hold one writable
      address per writable index and one readonly address per readonly
      index, over all references. */
  lemma {:induction false} LoadedCounts(lookups: seq<LookupTableRef>, tables: seq<Option<Account>>, decodeTable: seq<Byte> -> Option<AddressLookupTable>)
    requires |tables| == |lookups|
    requires LoadAll(lookups, tables, decodeTable).Ok?
    ensures |Concat(LoadAll(lookups, tables, decodeTable).value).writable| == SumWritable(lookups)
    ensures |Concat(LoadAll(lookups, tables, decodeTable).value).readonly| == SumReadonly(lookups)
    decreases |lookups|
  {
    if |lookups| > 0 {
      LoadedCounts(lookups[1..], tables[1..], decodeTable);
    }
  }

  /** When `try_create` keeps the addresses it is given and the backend
      answers one entry per read key, a sanitized version-0 transaction's
      account keys are its static keys, then the writable addresses of every
      table in reference order, then their readonly addresses: one key per
      static key and per lookup index. */
  lemma SanitizedKeysAreStaticThenLoaded(multiRead: seq<Pubkey> -> ClientResult<seq<Option<Account>>>, env: SanitizeEnv, transaction: VersionedTransaction)
    requires transaction.message.V0?
    requires multiRead(ReadKeys(transaction.message.lookups)).Ok?
             ==> |multiRead(ReadKeys(transaction.message.lookups)).value| == |transaction.message.lookups| + 1
    requires forall l :: env.tryCreate(transaction, l).Ok? ==> env.tryCreate(transaction, l).value == SanitizedTransaction(transaction, l)
    ensures var lookups := transaction.message.lookups;
            var r := SanitizeTransaction(multiRead, env, transaction);
            r.Ok? ==>
              && multiRead(ReadKeys(lookups)).Ok?
              && var reply := multiRead(ReadKeys(lookups)).value;
                 var all := LoadAll(lookups, reply[..|reply| - 1], env.decodeTable);
                 && all.Ok?
                 && var loaded := Concat(all.value);
                    && r.value.AccountKeys() == transaction.message.staticKeys + loaded.writable + loaded.readonly
                    && |loaded.writable| == SumWritable(lookups)
                    && |loaded.readonly| == SumReadonly(lookups)
                    && |r.value.AccountKeys()| == |transaction.message.staticKeys| + SumWritable(lookups) + SumReadonly(lookups)
  {
    var lookups := transaction.message.lookups;
    var r := SanitizeTransaction(multiRead, env, transaction);
    if r.Ok? {
      var reply := multiRead(ReadKeys(lookups)).value;
      LoadedCounts(lookups, reply[..|reply| - 1], env.decodeTable);
    }
  }
}

=== FILE: sysvar.dfy ===
/** Reading the cluster's sysvars through a backend
    (client/client-sys/src/sysvar.rs). Each sysvar lives at its well-known
    id; its bincode layout is a codec, given as a function. */
module Sysvars {
  import opened Results
  import opened Ledger
  import opened Errors
  import opened Capabilities
  import opened GetterExt

  /** The five sysvars the getters name. */
  datatype SysvarKind = Clock | RentSysvar | SlotHashes | SlotHistory | RecentBlockhashes {

    /** `Sysvar::id()`. */
    function Id(): (k: Pubkey)
    {
      match this
      case Clock => ClockSysvarId
      case RentSysvar => RentSysvarId
      case SlotHashes => SlotHashesSysvarId
      case SlotHistory => SlotHistorySysvarId
      case RecentBlockhashes => RecentBlockhashesSysvarId
    }
  }

  /** Distinct sysvars live at distinct ids, so each getter reads its own
      account. */
  lemma SysvarIdsAreDistinct(a: SysvarKind, b: SysvarKind)
    ensures a.Id() == b.Id() <==> a == b
  {
  }

  /** `get_sysvar` (and the five named getters, one per kind): nothing for a
      missing account, the decoded value otherwise, or
      `AccountDidNotDeserialize` of the sysvar's id. */
  function GetSysvar<T>(w: Wrapped<Getter>, kind: SysvarKind, deserialize: seq<Byte> -> Option<T>)
    : (r: ClientResult<Option<T>>)
    ensures var found := w.Core().getAccount(kind.Id());
            && (found.Err? ==> r == Err(found.error))
            && (found == Ok(None) ==> r == Ok(None))
            && ((found.Ok? && found.value.Some? && deserialize(found.value.value.data).None?)
                  ==> r == Err(ClientError.AccountDidNotDeserialize(kind.Id())))
            && ((found.Ok? && found.value.Some? && deserialize(found.value.value.data).Some?)
                  ==> r == Ok(deserialize(found.value.value.data)))
  {
    var found :- GetAccount(w, kind.Id());
    match found
    case None => Ok(None)
    case Some(account) =>
      var value :- deserialize(account.data).OkOr(ClientError.AccountDidNotDeserialize(kind.Id()));
      Ok(Some(value))
  }

  /** `try_get_sysvar` (and its five named forms): reads through
      `try_get_account`, so a missing account is `AccountNotFound`. */
  function TryGetSysvar<T>(w: Wrapped<Getter>, kind: SysvarKind, deserialize: seq<Byte> -> Option<T>)
    : (r: ClientResult<T>)
    ensures var found := TryGetAccount(w, kind.Id());
            && (found.Err? ==> r == Err(found.error))
            && (found.Ok? ==> r == deserialize(found.value.data).OkOr(ClientError.AccountDidNotDeserialize(kind.Id())))
  {
    var account :- TryGetAccount(w, kind.Id());
    deserialize(account.data).OkOr(ClientError.AccountDidNotDeserialize(kind.Id()))
  }

  /** The two reads agree: the failing read returns the value exactly when
      the optional read finds one, reports the same errors, and turns a
      missing sysvar into `AccountNotFound`. */
  lemma TryGetSysvarAgreesWithGetSysvar<T>(w: Wrapped<Getter>, kind: SysvarKind, deserialize: seq<Byte> -> Option<T>)
    ensures var g := GetSysvar(w, kind, deserialize);
            var t := TryGetSysvar(w, kind, deserialize);
            && (t.Ok? <==> g.Ok? && g.value.Some?)
            && (t.Ok? ==> g.value == Some(t.value))
            && (g.Err? ==> t == Err(g.error))
            && (g == Ok(None) ==> t == Err(ClientError.AccountNotFound(kind.Id())))
  {
  }
}

=== FILE: token.dfy ===
/** The SPL token program through a backend (client/client-spl/src/token.rs):
    typed reads of mints and token accounts, the instruction sets that
    create them, the transactions that drive them, and direct writes of
    initialised mints and token accounts into a writable ledger. The token
    and system programs' instruction encoders are SDK routines, given as
    the functions of a `TokenInstructions` record. */
module Tokens {
  import opened Results
  import opened Ledger
  import opened Transactions
  import opened Errors
  import opened Capabilities
  import opened GetterExt
  import opened ExecutorExt
  import opened Execution
  import opened AnchorAccounts
  import opened AnchorGetter
  import opened Packing
  import opened BankBackend
  import opened TokenState

  /** `get_mint`. */
  function GetMint(w: Wrapped<Getter>, key: Pubkey): (r: ClientResult<Option<AnchorAccount<Mint>>>)
    ensures var found := w.Core().getAccount(key);
            && (found.Err? ==> r == Err(found.error))
            && (found == Ok(None) ==> r == Ok(None))
            && ((found.Ok? && found.value.Some? && UnpackMint(found.value.value.data).None?)
                  ==> r == Err(ClientError.AccountDidNotDeserialize(key)))
            && ((found.Ok? && found.value.Some? && UnpackMint(found.value.value.data).Some?)
                  ==> r == Ok(Some(AnchorAccount(key, found.value.value, UnpackMint(found.value.value.data).value))))
  {
    GetAnchorAccount(w, key, DecodeMint)
  }

  /** `try_get_mint`. */
  function TryGetMint(w: Wrapped<Getter>, key: Pubkey): (r: ClientResult<AnchorAccount<Mint>>)
    ensures var g := GetMint(w, key);
            && (g.Err? ==> r == Err(g.error))
            && (g == Ok(None) ==> r == Err(ClientError.AccountNotFound(key)))
            && (g.Ok? && g.value.Some? ==> r == Ok(g.value.value))
  {
    TryGetAnchorAccount(w, key, DecodeMint)
  }

  /** `get_token_account`. */
  function GetTokenAccount(w: Wrapped<Getter>, key: Pubkey): (r: ClientResult<Option<AnchorAccount<TokenAccount>>>)
    ensures var found := w.Core().getAccount(key);
            && (found.Err? ==> r == Err(found.error))
            && (found == Ok(None) ==> r == Ok(None))
            && ((found.Ok? && found.value.Some? && UnpackTokenAccount(found.value.value.data).None?)
                  ==> r == Err(ClientError.AccountDidNotDeserialize(key)))
            && ((found.Ok? && found.value.Some? && UnpackTokenAccount(found.value.value.data).Some?)
                  ==> r == Ok(Some(AnchorAccount(key, found.value.value, UnpackTokenAccount(found.value.value.data).value))))
  {
    GetAnchorAccount(w, key, DecodeTokenAccount)
  }

  /** `try_get_token_account`. */
  function TryGetTokenAccount(w: Wrapped<Getter>, key: Pubkey): (r: ClientResult<AnchorAccount<TokenAccount>>)
    ensures var g := GetTokenAccount(w, key);
            && (g.Err? ==> r == Err(g.error))
            && (g == Ok(None) ==> r == Err(ClientError.AccountNotFound(key)))
            && (g.Ok? && g.value.Some? ==> r == Ok(g.value.value))
  {
    TryGetAnchorAccount(w, key, DecodeTokenAccount)
  }

  /** `get_token_account_balance`: the decoded account's token amount. */
  function GetTokenAccountBalance(w: Wrapped<Getter>, key: Pubkey): (r: ClientResult<Option<U64>>)
    ensures var g := GetTokenAccount(w, key);
            && (g.Err? ==> r == Err(g.error))
            && (g == Ok(None) ==> r == Ok(None))
            && (g.Ok? && g.value.Some? ==> r == Ok(Some(g.value.value.data.amount)))
  {
    var found :- GetTokenAccount(w, key);
    match found
    case None => Ok(None)
    case Some(account) => Ok(Some(account.data.amount))
  }

  /** `try_get_token_account_balance`. */
  function TryGetTokenAccountBalance(w: Wrapped<Getter>, key: Pubkey): (r: ClientResult<U64>)
    ensures var t := TryGetTokenAccount(w, key);
            && (t.Err? ==> r == Err(t.error))
            && (t.Ok? ==> r == Ok(t.value.data.amount))
  {
    var account :- TryGetTokenAccount(w, key);
    Ok(account.data.amount)
  }

  /** `get_mint_supply`: the decoded mint's supply. */
  function GetMintSupply(w: Wrapped<Getter>, key: Pubkey): (r: ClientResult<Option<U64>>)
    ensures var g := GetMint(w, key);
            && (g.Err? ==> r == Err(g.error))
            && (g == Ok(None) ==> r == Ok(None))
            && (g.Ok? && g.value.Some? ==> r == Ok(Some(g.value.value.data.supply)))
  {
    var found :- GetMint(w, key);
    match found
    case None => Ok(None)
    case Some(mint) => Ok(Some(mint.data.supply))
  }

  /** `try_get_mint_supply`. */
  function TryGetMintSupply(w: Wrapped<Getter>, key: Pubkey): (r: ClientResult<U64>)
    ensures var t := TryGetMint(w, key);
            && (t.Err? ==> r == Err(t.error))
            && (t.Ok? ==> r == Ok(t.value.data.supply))
  {
    var mint :- TryGetMint(w, key);
    Ok(mint.data.supply)
  }

  /** The balance and supply reads agree with each other: the failing
      forms return exactly what the optional forms find, report the same
      errors, and turn a missing account into `AccountNotFound`; and a
      stored token account's balance is the amount in bytes 64 to 72 of its
      data. */
  lemma BalanceAndSupplyReadsAgree(w: Wrapped<Getter>, key: Pubkey)
    ensures var g := GetTokenAccountBalance(w, key);
            var t := TryGetTokenAccountBalance(w, key);
            && (t.Ok? <==> g.Ok? && g.value.Some?)
            && (t.Ok? ==> g.value == Some(t.value))
            && (g.Err? ==> t == Err(g.error))
            && (g == Ok(None) ==> t == Err(ClientError.AccountNotFound(key)))
    ensures var g := GetMintSupply(w, key);
            var t := TryGetMintSupply(w, key);
            && (t.Ok? <==> g.Ok? && g.value.Some?)
            && (t.Ok? ==> g.value == Some(t.value))
            && (g.Err? ==> t == Err(g.error))
            && (g == Ok(None) ==> t == Err(ClientError.AccountNotFound(key)))
    ensures GetTokenAccountBalance(w, key).Ok? && GetTokenAccountBalance(w, key).value.Some? ==>
              GetTokenAccountBalance(w, key).value.value == Bytes.ReadU64(w.Core().getAccount(key).value.value.data[64..72])
  {
  }

  /** The size-and-owner filter pair admits a decodable token account
      exactly when the account's owner is `owner`. */
  lemma SizeAndOwnerSelectOwner(owner: Pubkey)
    ensures forall account: Account, validTokenAccount: seq<Byte> -> bool | UnpackTokenAccount(account.data).Some? ::
              AllFiltersAllow([DataSize(TokenAccountLen), Memcmp(TokenOwnerOffset, owner)], account, validTokenAccount)
              <==> UnpackTokenAccount(account.data).value.owner == owner
  {
    var filters := [DataSize(TokenAccountLen), Memcmp(TokenOwnerOffset, owner)];
    forall account: Account, validTokenAccount: seq<Byte> -> bool | UnpackTokenAccount(account.data).Some?
      ensures AllFiltersAllow(filters, account, validTokenAccount) <==> UnpackTokenAccount(account.data).value.owner == owner
    {
      assert filters[0] == DataSize(TokenAccountLen) && filters[1] == Memcmp(TokenOwnerOffset, owner);
    }
  }

  /** The scan filters of the owner query: token-account size, and the
      owner's key at the owner offset. They admit a decodable token account
      exactly when it belongs to the owner. */
  function OwnerFilters(owner: Pubkey): (f: seq<ProgramAccountsFilter>)
    ensures forall account: Account, validTokenAccount: seq<Byte> -> bool | UnpackTokenAccount(account.data).Some? ::
              AllFiltersAllow(f, account, validTokenAccount) <==> UnpackTokenAccount(account.data).value.owner == owner
  {
    SizeAndOwnerSelectOwner(owner);
    [DataSize(TokenAccountLen), Memcmp(TokenOwnerOffset, owner)]
  }

  /** `get_token_accounts_for_owner`: the token program's accounts the
      scan selects, decoded in scan order. The Rust client unwraps each decode,
      so every scanned account must decode. */
  function GetTokenAccountsForOwner(w: Wrapped<Getter>, owner: Pubkey): (r: ClientResult<seq<(Pubkey, TokenAccount)>>)
    requires var scan := w.Core().getProgramAccounts(TokenProgramId, Some(OwnerFilters(owner)));
             scan.Ok? ==> forall i :: 0 <= i < |scan.value| ==> UnpackTokenAccount(scan.value[i].1.data).Some?
    ensures var scan := w.Core().getProgramAccounts(TokenProgramId, Some(OwnerFilters(owner)));
            && (scan.Err? ==> r == Err(scan.error))
            && (scan.Ok? ==> r.Ok? && |r.value| == |scan.value|)
            && (scan.Ok? ==> forall i :: 0 <= i < |scan.value| ==>
                               r.value[i] == (scan.value[i].0, UnpackTokenAccount(scan.value[i].1.data).value))
  {
    var accounts :- GetProgramAccounts(w, TokenProgramId, Some(OwnerFilters(owner)));
    Ok(seq(|accounts|, i requires 0 <= i < |accounts| && UnpackTokenAccount(accounts[i].1.data).Some? =>
             (accounts[i].0, UnpackTokenAccount(accounts[i].1.data).value)))
  }

  /** The token and system programs' instruction encoders. Each takes the
      token program id first, as the token-2022 interface does. */
  datatype TokenInstructions = TokenInstructions(
    createAccount: (Pubkey, Pubkey, U64, U64, Pubkey) -> Instruction,
    initializeMint: (Pubkey, Pubkey, Pubkey, Option<Pubkey>, U8) -> Instruction,
    initializeAccount: (Pubkey, Pubkey, Pubkey, Pubkey) -> Instruction,
    mintTo: (Pubkey, Pubkey, Pubkey, Pubkey, U64) -> Instruction,
    transfer: (Pubkey, Pubkey, Pubkey, Pubkey, U64) -> Instruction,
    transferChecked: (Pubkey, Pubkey, Pubkey, Pubkey, Pubkey, seq<Pubkey>, U64, U8) -> Instruction,
    systemTransfer: (Pubkey, Pubkey, U64) -> Instruction,
    syncNative: (Pubkey, Pubkey) -> Instruction)

  /** `build_create_and_initialize_mint` (both the SPL and the interface
      form): a system `create_account` of `MintLen` bytes funded with the
      backend's rent-exemption minimum for that size and owned by the token
      program, then the mint's initialisation. */
  function BuildCreateAndInitializeMint(w: Wrapped<Getter>, b: TokenInstructions, programId: Pubkey, payer: Pubkey,
                                        mint: Pubkey, authority: Pubkey, freeze: Option<Pubkey>, decimals: U8)
    : (r: ClientResult<seq<Instruction>>)
    ensures var rent := w.Core().getMinimumBalanceForRentExemption(MintLen);
            && (rent.Err? ==> r == Err(rent.error))
            && (rent.Ok? ==> r == Ok([b.createAccount(payer, mint, rent.value, MintLen, programId),
                                      b.initializeMint(programId, mint, authority, freeze, decimals)]))
  {
    var lamports :- GetMinimumBalanceForRentExemption(w, MintLen);
    Ok([b.createAccount(payer, mint, lamports, MintLen, programId),
        b.initializeMint(programId, mint, authority, freeze, decimals)])
  }

  /** `build_create_and_initialize_token_account`: the same for a token
      account of `TokenAccountLen` bytes. */
  function BuildCreateAndInitializeTokenAccount(w: Wrapped<Getter>, b: TokenInstructions, programId: Pubkey, payer: Pubkey,
                                                account: Pubkey, mint: Pubkey, owner: Pubkey)
    : (r: ClientResult<seq<Instruction>>)
    ensures var rent := w.Core().getMinimumBalanceForRentExemption(TokenAccountLen);
            && (rent.Err? ==> r == Err(rent.error))
            && (rent.Ok? ==> r == Ok([b.createAccount(payer, account, rent.value, TokenAccountLen, programId),
                                      b.initializeAccount(programId, account, mint, owner)]))
  {
    var lamports :- GetMinimumBalanceForRentExemption(w, TokenAccountLen);
    Ok([b.createAccount(payer, account, lamports, TokenAccountLen, programId),
        b.initializeAccount(programId, account, mint, owner)])
  }

  /** What the token processors need of a backend. */
  datatype TokenClient = TokenClient(
    getter: Wrapped<Getter>,
    executor: Wrapped<Executor<ExecutionOutput>>,
    compiler: Compiler,
    builders: TokenInstructions)

  /** Compiles and submits, paid by the first signer, with no lookup
      tables: the blockhash is read once and the message compiled against
      it; the payer's key is taken before the other signer's; the two sign
      as one when their keys coincide; only a signed transaction reaches
      the executor. */
  function Send(c: TokenClient, ixs: seq<Instruction>, payer: Signer, other: Signer): (r: ClientResult<ExecutionOutput>)
    ensures var blockhash := c.getter.Core().getLatestBlockhash;
            && (blockhash.Err? ==> r == Err(blockhash.error))
            && (blockhash.Ok? ==>
                  var message := c.compiler.tryCompile(payer.pubkey, ixs, [], blockhash.value);
                  && (message.Err? ==> r == Err(CompileError(message.error)))
                  && (message.Ok? && payer.tryPubkey.Err? ==> r == Err(ClientError.SigningError(payer.tryPubkey.error)))
                  && (message.Ok? && payer.tryPubkey.Ok? && other.tryPubkey.Err? ==>
                        r == Err(ClientError.SigningError(other.tryPubkey.error)))
                  && (message.Ok? && payer.tryPubkey.Ok? && other.tryPubkey.Ok? ==>
                        var merged: seq<nat> := if payer.tryPubkey.value == other.tryPubkey.value then [0] else [0, 1];
                        var signed := c.compiler.tryNew(message.value, PrimeSigners(SignerList([payer, other]), merged));
                        && (signed.Err? ==> r == Err(ClientError.SigningError(signed.error)))
                        && (signed.Ok? ==> r == c.executor.Core().process(signed.value))))
  {
    PairSignerKeys(payer, other);
    CompilingProcessTransaction(c.getter, c.executor, c.compiler, ixs, payer.pubkey, SignerList([payer, other]), [])
  }

  /** Whatever instructions it is given, `Send` is the compile-then-process
      of exactly those instructions, signed by the payer and the other
      signer; and the keys that sign are exactly theirs, none repeated,
      the payer's first. */
  lemma SendSignerKeysAreExactAndDistinct(c: TokenClient, ixs: seq<Instruction>, payer: Signer, other: Signer)
    ensures var tx := CompileTransaction(c.getter, c.compiler, ixs, payer.pubkey, SignerList([payer, other]), []);
            Send(c, ixs, payer, other) == if tx.Err? then Err(tx.error) else c.executor.Core().process(tx.value)
    ensures payer.tryPubkey.Ok? && other.tryPubkey.Ok? ==>
              var signers := SignerList([payer, other]);
              var keys := [payer.tryPubkey.value, other.tryPubkey.value];
              var primed := PrimeSigners(signers, FirstOccurrences(signers.tryPubkeys.value)).TryPubkeys();
              && signers.tryPubkeys == Ok(keys)
              && primed.Ok?
              && (forall k :: k in primed.value <==> k in keys)
              && (forall i, j :: 0 <= i < j < |primed.value| ==> primed.value[i] != primed.value[j])
              && 1 <= |primed.value| && primed.value[0] == payer.tryPubkey.value
  {
    PairSignerKeys(payer, other);
    if payer.tryPubkey.Ok? && other.tryPubkey.Ok? {
      PairPrimeKeysExactAndDistinct(SignerList([payer, other]), payer.tryPubkey.value, other.tryPubkey.value);
    }
  }

  /** `process_create_and_initialize_mint`: signed by the payer and the
      new mint's keypair. */
  function ProcessCreateAndInitializeMint(c: TokenClient, payer: Signer, mint: Signer, authority: Pubkey,
                                          freeze: Option<Pubkey>, decimals: U8)
    : (r: ClientResult<ExecutionOutput>)
    ensures var ixs := BuildCreateAndInitializeMint(c.getter, c.builders, TokenProgramId, payer.pubkey, mint.pubkey,
                                                    authority, freeze, decimals);
            && (ixs.Err? ==> r == Err(ixs.error))
            && (ixs.Ok? ==> r == Send(c, ixs.value, payer, mint))
  {
    var ixs :- BuildCreateAndInitializeMint(c.getter, c.builders, TokenProgramId, payer.pubkey, mint.pubkey,
                                           authority, freeze, decimals);
    Send(c, ixs, payer, mint)
  }

  /** `process_create_and_initialize_token_account`: signed by the payer
      and the new account's keypair. */
  function ProcessCreateAndInitializeTokenAccount(c: TokenClient, payer: Signer, account: Signer, mint: Pubkey, owner: Pubkey)
    : (r: ClientResult<ExecutionOutput>)
    ensures var ixs := BuildCreateAndInitializeTokenAccount(c.getter, c.builders, TokenProgramId, payer.pubkey,
                                                            account.pubkey, mint, owner);
            && (ixs.Err? ==> r == Err(ixs.error))
            && (ixs.Ok? ==> r == Send(c, ixs.value, payer, account))
  {
    var ixs :- BuildCreateAndInitializeTokenAccount(c.getter, c.builders, TokenProgramId, payer.pubkey,
                                                   account.pubkey, mint, owner);
    Send(c, ixs, payer, account)
  }

  /** `process_mint_to`: one `mint_to` signed by the payer and the mint
      authority. */
  function ProcessMintTo(c: TokenClient, payer: Signer, account: Pubkey, mint: Pubkey, authority: Signer, amount: U64)
    : (r: ClientResult<ExecutionOutput>)
    ensures var tx := CompileTransaction(c.getter, c.compiler, [c.builders.mintTo(TokenProgramId, mint, account, authority.pubkey, amount)],
                                         payer.pubkey, SignerList([payer, authority]), []);
            && (tx.Err? ==> r == Err(tx.error))
            && (tx.Ok? ==> r == c.executor.Core().process(tx.value))
  {
    var ixs := [c.builders.mintTo(TokenProgramId, mint, account, authority.pubkey, amount)];
    SendSignerKeysAreExactAndDistinct(c, ixs, payer, authority);
    Send(c, ixs, payer, authority)
  }

  /** `process_transfer_token`: one unchecked `transfer` signed by the
      payer and the source token account's authority. */
  function ProcessTransferToken(c: TokenClient, payer: Signer, source: Pubkey, destination: Pubkey, authority: Signer, amount: U64)
    : (r: ClientResult<ExecutionOutput>)
    ensures var tx := CompileTransaction(c.getter, c.compiler, [c.builders.transfer(TokenProgramId, source, destination, authority.pubkey, amount)],
                                         payer.pubkey, SignerList([payer, authority]), []);
            && (tx.Err? ==> r == Err(tx.error))
            && (tx.Ok? ==> r == c.executor.Core().process(tx.value))
  {
    var ixs := [c.builders.transfer(TokenProgramId, source, destination, authority.pubkey, amount)];
    SendSignerKeysAreExactAndDistinct(c, ixs, payer, authority);
    Send(c, ixs, payer, authority)
  }

  /** `process_wrap_native`: moves lamports from the source signer into the
      wrapped-SOL account, then syncs its token amount. */
  function ProcessWrapNative(c: TokenClient, payer: Signer, source: Signer, destination: Pubkey, lamports: U64)
    : (r: ClientResult<ExecutionOutput>)
    ensures var tx := CompileTransaction(c.getter, c.compiler, [c.builders.systemTransfer(source.pubkey, destination, lamports),
                                          c.builders.syncNative(TokenProgramId, destination)],
                                         payer.pubkey, SignerList([payer, source]), []);
            && (tx.Err? ==> r == Err(tx.error))
            && (tx.Ok? ==> r == c.executor.Core().process(tx.value))
  {
    var ixs := [c.builders.systemTransfer(source.pubkey, destination, lamports),
                c.builders.syncNative(TokenProgramId, destination)];
    SendSignerKeysAreExactAndDistinct(c, ixs, payer, source);
    Send(c, ixs, payer, source)
  }

  /** `set_mint` (both the SPL and the interface form, with the owning
      program given): stores an initialised mint, rent-exempt for its size,
      and returns it decoded. The decode cannot fail. */
  function SetMintOwnedBy(w: Wrapped<LedgerState>, h: Wrapped<RentHolder>, programId: Pubkey, key: Pubkey,
                          authority: Option<Pubkey>, supply: U64, decimals: U8, freeze: Option<Pubkey>)
    : (r: (Wrapped<LedgerState>, AnchorAccount<Mint>))
    requires w.Mutable()
    ensures var (ledger, mint) := r;
            && ledger.Mutable() && ledger.Layers() == w.Layers()
            && ledger.Core() == w.Core()[key := mint.account]
            && mint.key == key
            && mint.data == Mint(authority, supply, decimals, true, freeze)
            && mint.account == Account(MinimumBalanceForRentExemption(h, MintLen), PackMint(mint.data), programId, false, 0)
  {
    var state := Mint(authority, supply, decimals, true, freeze);
    var (ledger, account) := PackingSetAccount(w, key, MinimumBalanceForRentExemption(h, MintLen), programId, state,
                                               MintLen, PackMint);
    MintRoundTrip(state);
    (ledger, TryFromAccount(key, account, DecodeMint).value)
  }

  /** `set_token_account` (both forms, with the owning program given):
      stores an initialised token account with no delegate and no close
      authority. A wrapped-SOL account (of the SPL native mint) is funded
      with the rent reserve plus its amount and records the reserve; any
      other with the reserve alone. The decode cannot fail; the Rust client's
      unchecked sum must fit. */
  function SetTokenAccountOwnedBy(w: Wrapped<LedgerState>, h: Wrapped<RentHolder>, programId: Pubkey, key: Pubkey,
                                  mint: Pubkey, owner: Pubkey, amount: U64)
    : (r: (Wrapped<LedgerState>, AnchorAccount<TokenAccount>))
    requires w.Mutable()
    requires mint == NativeMintId ==> MinimumBalanceForRentExemption(h, TokenAccountLen) + amount <= U64Max
    ensures var (ledger, account) := r;
            var rentExempt := MinimumBalanceForRentExemption(h, TokenAccountLen);
            && ledger.Mutable() && ledger.Layers() == w.Layers()
            && ledger.Core() == w.Core()[key := account.account]
            && account.key == key
            && account.data == FreshTokenAccount(mint, owner, amount, if mint == NativeMintId then Some(rentExempt) else None)
            && account.account.lamports == (if mint == NativeMintId then rentExempt + amount else rentExempt)
            && account.account == Account(account.account.lamports, PackTokenAccount(account.data), programId, false, 0)
  {
    var (lamports, isNative) := NativeFunding(MinimumBalanceForRentExemption(h, TokenAccountLen), amount, mint == NativeMintId);
    var state := FreshTokenAccount(mint, owner, amount, isNative);
    var (ledger, account) := PackingSetAccount(w, key, lamports, programId, state, TokenAccountLen, PackTokenAccount);
    TokenAccountRoundTrip(state);
    (ledger, TryFromAccount(key, account, DecodeTokenAccount).value)
  }

  /** `set_mint` of the SPL form: owned by the token program. */
  function SetMint(w: Wrapped<LedgerState>, h: Wrapped<RentHolder>, key: Pubkey,
                   authority: Option<Pubkey>, supply: U64, decimals: U8, freeze: Option<Pubkey>)
    : (r: (Wrapped<LedgerState>, AnchorAccount<Mint>))
    requires w.Mutable()
    ensures r == SetMintOwnedBy(w, h, TokenProgramId, key, authority, supply, decimals, freeze)
    ensures r.1.account.owner == TokenProgramId
  {
    SetMintOwnedBy(w, h, TokenProgramId, key, authority, supply, decimals, freeze)
  }

  /** `set_token_account` of the SPL form: owned by the token program. */
  function SetTokenAccount(w: Wrapped<LedgerState>, h: Wrapped<RentHolder>, key: Pubkey, mint: Pubkey, owner: Pubkey, amount: U64)
    : (r: (Wrapped<LedgerState>, AnchorAccount<TokenAccount>))
    requires w.Mutable()
    requires mint == NativeMintId ==> MinimumBalanceForRentExemption(h, TokenAccountLen) + amount <= U64Max
    ensures r == SetTokenAccountOwnedBy(w, h, TokenProgramId, key, mint, owner, amount)
    ensures r.1.account.owner == TokenProgramId
  {
    SetTokenAccountOwnedBy(w, h, TokenProgramId, key, mint, owner, amount)
  }

  /** A set mint or token account reads back through the typed getters as
      exactly what the setter returned, and the read balance is the set
      amount. */
  lemma SetThenGetTokenAccount(w: Wrapped<LedgerState>, h: Wrapped<RentHolder>, key: Pubkey, mint: Pubkey, owner: Pubkey,
                               amount: U64, view: Wrapped<Getter>)
    requires w.Mutable()
    requires mint == NativeMintId ==> MinimumBalanceForRentExemption(h, TokenAccountLen) + amount <= U64Max
    requires var (ledger, _) := SetTokenAccount(w, h, key, mint, owner, amount);
             view.Core().getAccount(key) == Ok(ReadLedger(ledger.Core(), key))
    ensures var (_, account) := SetTokenAccount(w, h, key, mint, owner, amount);
            && GetTokenAccount(view, key) == Ok(Some(account))
            && GetTokenAccountBalance(view, key) == Ok(Some(amount))
  {
    var (ledger, account) := SetTokenAccount(w, h, key, mint, owner, amount);
    TokenAccountRoundTrip(account.data);
  }

  lemma SetThenGetMint(w: Wrapped<LedgerState>, h: Wrapped<RentHolder>, key: Pubkey,
                       authority: Option<Pubkey>, supply: U64, decimals: U8, freeze: Option<Pubkey>, view: Wrapped<Getter>)
    requires w.Mutable()
    requires var (ledger, _) := SetMint(w, h, key, authority, supply, decimals, freeze);
             view.Core().getAccount(key) == Ok(ReadLedger(ledger.Core(), key))
    ensures var (_, mint) := SetMint(w, h, key, authority, supply, decimals, freeze);
            && GetMint(view, key) == Ok(Some(mint))
            && GetMintSupply(view, key) == Ok(Some(supply))
  {
    var (ledger, mint) := SetMint(w, h, key, authority, supply, decimals, freeze);
    MintRoundTrip(mint.data);
  }

  /** `process_create_and_initialize_mint` funds and sizes the new mint as
      `set_mint` stores one: when the backend's rent-exemption minimum
      agrees with the holder's, the created account has the stored
      account's lamports, data length and owner, and is initialised with
      the stored mint's authorities and decimals. */
  lemma CreateMintMatchesSetMint(c: TokenClient, w: Wrapped<LedgerState>, h: Wrapped<RentHolder>, payer: Signer, mint: Signer,
                                 authority: Pubkey, freeze: Option<Pubkey>, decimals: U8)
    requires w.Mutable()
    requires c.getter.Core().getMinimumBalanceForRentExemption(MintLen) == Ok(MinimumBalanceForRentExemption(h, MintLen))
    ensures var (_, stored) := SetMint(w, h, mint.pubkey, Some(authority), 0, decimals, freeze);
            ProcessCreateAndInitializeMint(c, payer, mint, authority, freeze, decimals)
            == Send(c, [c.builders.createAccount(payer.pubkey, mint.pubkey, stored.account.lamports, |stored.account.data|,
                                                 stored.account.owner),
                        c.builders.initializeMint(stored.account.owner, mint.pubkey, stored.data.mintAuthority.value,
                                                  stored.data.freezeAuthority, stored.data.decimals)],
                     payer, mint)
  {
  }

  /** `process_create_and_initialize_token_account` funds and sizes the
      new account as `set_token_account` stores an empty one, wrapped SOL
      included: the rent-exemption minimum, `TokenAccountLen` bytes, owned
      by the token program, initialised for the stored mint and owner. */
  lemma CreateTokenAccountMatchesSetTokenAccount(c: TokenClient, w: Wrapped<LedgerState>, h: Wrapped<RentHolder>, payer: Signer,
                                                 account: Signer, mint: Pubkey, owner: Pubkey)
    requires w.Mutable()
    requires c.getter.Core().getMinimumBalanceForRentExemption(TokenAccountLen)
             == Ok(MinimumBalanceForRentExemption(h, TokenAccountLen))
    ensures var (_, stored) := SetTokenAccount(w, h, account.pubkey, mint, owner, 0);
            ProcessCreateAndInitializeTokenAccount(c, payer, account, mint, owner)
            == Send(c, [c.builders.createAccount(payer.pubkey, account.pubkey, stored.account.lamports, |stored.account.data|,
                                                 stored.account.owner),
                        c.builders.initializeAccount(stored.account.owner, account.pubkey, stored.data.mint, stored.data.owner)],
                     payer, account)
  {
  }

  /** The SPL processors take the token program as a constant and read no
      account: over any two views that agree on the latest blockhash they
      submit the same transaction. */
  lemma SplProcessorsReadNoAccounts(c: TokenClient, view: Wrapped<Getter>, payer: Signer, other: Signer,
                                    account: Pubkey, mint: Pubkey, destination: Pubkey, amount: U64)
    requires view.Core().getLatestBlockhash == c.getter.Core().getLatestBlockhash
    ensures ProcessMintTo(c.(getter := view), payer, account, mint, other, amount) == ProcessMintTo(c, payer, account, mint, other, amount)
    ensures ProcessTransferToken(c.(getter := view), payer, account, destination, other, amount)
            == ProcessTransferToken(c, payer, account, destination, other, amount)
    ensures ProcessWrapNative(c.(getter := view), payer, other, destination, amount) == ProcessWrapNative(c, payer, other, destination, amount)
  {
  }
}

=== FILE: token_interface.dfy ===
/** Either token program through a backend
    (client/client-spl/src/token_interface.rs): the owning program of a
    mint, typed reads through the token-interface decoders, and
    transactions that take the token program from the accounts they touch.
    The interface decoders parse token-2022 extensions as well; they are
    given as an `InterfaceCodec`, required to agree with the base layout on
    base-size data. */
module TokenInterface {
  import opened Results
  import opened Ledger
  import opened Transactions
  import opened Errors
  import opened Capabilities
  import opened ExecutorExt
  import opened Execution
  import opened AnchorAccounts
  import opened GetterExt
  import opened AnchorGetter
  import opened TokenState
  import opened Tokens

  /** `token_interface::{Mint, TokenAccount}` deserialisers. */
  datatype InterfaceCodec = InterfaceCodec(
    decodeMint: seq<Byte> -> Result<Mint, AnchorError>,
    decodeTokenAccount: seq<Byte> -> Result<TokenAccount, AnchorError>)

  /** On data of exactly the base size there are no extensions, and the
      interface decoders decode the base layout. */
  ghost predicate ExtendsBaseLayout(codec: InterfaceCodec) {
    && (forall b: seq<Byte> :: |b| == MintLen ==> codec.decodeMint(b) == DecodeMint(b))
    && (forall b: seq<Byte> :: |b| == TokenAccountLen ==> codec.decodeTokenAccount(b) == DecodeTokenAccount(b))
  }

  /** `get_mint` of the interface: nothing for a missing account, the
      account with its interface-decoded mint, or `AccountDidNotDeserialize`
      when the interface decoder rejects the data. */
  function GetMint(w: Wrapped<Getter>, codec: InterfaceCodec, key: Pubkey): (r: ClientResult<Option<AnchorAccount<Mint>>>)
    ensures var found := w.Core().getAccount(key);
            && (found.Err? ==> r == Err(found.error))
            && (found == Ok(None) ==> r == Ok(None))
            && (found.Ok? && found.value.Some? ==>
                  var decoded := codec.decodeMint(found.value.value.data);
                  && (decoded.Err? ==> r == Err(ClientError.AccountDidNotDeserialize(key)))
                  && (decoded.Ok? ==> r == Ok(Some(AnchorAccount(key, found.value.value, decoded.value)))))
  {
    GetAnchorAccount(w, key, codec.decodeMint)
  }

  /** `try_get_mint` of the interface. */
  function TryGetMint(w: Wrapped<Getter>, codec: InterfaceCodec, key: Pubkey): (r: ClientResult<AnchorAccount<Mint>>)
    ensures var g := GetMint(w, codec, key);
            && (g.Err? ==> r == Err(g.error))
            && (g == Ok(None) ==> r == Err(ClientError.AccountNotFound(key)))
            && (g.Ok? && g.value.Some? ==> r == Ok(g.value.value))
  {
    TryGetAnchorAccount(w, key, codec.decodeMint)
  }

  /** `get_token_account` of the interface: the same three outcomes
      through the interface token-account decoder. */
  function GetTokenAccount(w: Wrapped<Getter>, codec: InterfaceCodec, key: Pubkey)
    : (r: ClientResult<Option<AnchorAccount<TokenAccount>>>)
    ensures var found := w.Core().getAccount(key);
            && (found.Err? ==> r == Err(found.error))
            && (found == Ok(None) ==> r == Ok(None))
            && (found.Ok? && found.value.Some? ==>
                  var decoded := codec.decodeTokenAccount(found.value.value.data);
                  && (decoded.Err? ==> r == Err(ClientError.AccountDidNotDeserialize(key)))
                  && (decoded.Ok? ==> r == Ok(Some(AnchorAccount(key, found.value.value, decoded.value)))))
  {
    GetAnchorAccount(w, key, codec.decodeTokenAccount)
  }

  /** `try_get_token_account` of the interface. */
  function TryGetTokenAccount(w: Wrapped<Getter>, codec: InterfaceCodec, key: Pubkey): (r: ClientResult<AnchorAccount<TokenAccount>>)
    ensures var g := GetTokenAccount(w, codec, key);
            && (g.Err? ==> r == Err(g.error))
            && (g == Ok(None) ==> r == Err(ClientError.AccountNotFound(key)))
            && (g.Ok? && g.value.Some? ==> r == Ok(g.value.value))
  {
    TryGetAnchorAccount(w, key, codec.decodeTokenAccount)
  }

  /** `get_token_program_id`: the program owning the mint account. */
  function GetTokenProgramId(w: Wrapped<Getter>, codec: InterfaceCodec, mint: Pubkey): (r: ClientResult<Option<Pubkey>>)
    ensures var g := GetMint(w, codec, mint);
            && (g.Err? ==> r == Err(g.error))
            && (g == Ok(None) ==> r == Ok(None))
            && (g.Ok? && g.value.Some? ==> r == Ok(Some(w.Core().getAccount(mint).value.value.owner)))
  {
    var found :- GetMint(w, codec, mint);
    match found
    case None => Ok(None)
    case Some(m) => Ok(Some(m.account.owner))
  }

  /** `try_get_token_program_id`. */
  function TryGetTokenProgramId(w: Wrapped<Getter>, codec: InterfaceCodec, mint: Pubkey): (r: ClientResult<Pubkey>)
    ensures var g := GetTokenProgramId(w, codec, mint);
            && (g.Err? ==> r == Err(g.error))
            && (g == Ok(None) ==> r == Err(ClientError.AccountNotFound(mint)))
            && (g.Ok? && g.value.Some? ==> r == Ok(g.value.value))
  {
    var m :- TryGetMint(w, codec, mint);
    Ok(m.account.owner)
  }

  /** `get_token_account_balance` of the interface. */
  function GetTokenAccountBalance(w: Wrapped<Getter>, codec: InterfaceCodec, key: Pubkey): (r: ClientResult<Option<U64>>)
    ensures var g := GetTokenAccount(w, codec, key);
            && (g.Err? ==> r == Err(g.error))
            && (g == Ok(None) ==> r == Ok(None))
            && (g.Ok? && g.value.Some? ==> r == Ok(Some(g.value.value.data.amount)))
  {
    var found :- GetTokenAccount(w, codec, key);
    match found
    case None => Ok(None)
    case Some(account) => Ok(Some(account.data.amount))
  }

  /** `try_get_token_account_balance` of the interface. */
  function TryGetTokenAccountBalance(w: Wrapped<Getter>, codec: InterfaceCodec, key: Pubkey): (r: ClientResult<U64>)
    ensures var t := TryGetTokenAccount(w, codec, key);
            && (t.Err? ==> r == Err(t.error))
            && (t.Ok? ==> r == Ok(t.value.data.amount))
  {
    var account :- TryGetTokenAccount(w, codec, key);
    Ok(account.data.amount)
  }

  /** `get_mint_supply` of the interface. */
  function GetMintSupply(w: Wrapped<Getter>, codec: InterfaceCodec, key: Pubkey): (r: ClientResult<Option<U64>>)
    ensures var g := GetMint(w, codec, key);
            && (g.Err? ==> r == Err(g.error))
            && (g == Ok(None) ==> r == Ok(None))
            && (g.Ok? && g.value.Some? ==> r == Ok(Some(g.value.value.data.supply)))
  {
    var found :- GetMint(w, codec, key);
    match found
    case None => Ok(None)
    case Some(mint) => Ok(Some(mint.data.supply))
  }

  /** `try_get_mint_supply` of the interface. */
  function TryGetMintSupply(w: Wrapped<Getter>, codec: InterfaceCodec, key: Pubkey): (r: ClientResult<U64>)
    ensures var t := TryGetMint(w, codec, key);
            && (t.Err? ==> r == Err(t.error))
            && (t.Ok? ==> r == Ok(t.value.data.supply))
  {
    var mint :- TryGetMint(w, codec, key);
    Ok(mint.data.supply)
  }

  /** `get_mints`: the multi-read, position by position: a missing mint
      stays missing, a present one is decoded with its key; if any present
      mint does not decode, the error names the first that does not. */
  function GetMints(w: Wrapped<Getter>, codec: InterfaceCodec, keys: seq<Pubkey>)
    : (r: ClientResult<seq<Option<AnchorAccount<Mint>>>>)
    ensures var reply := w.Core().getMultipleAccounts(keys);
            && (reply.Err? ==> r == Err(reply.error))
            && (reply.Ok? ==>
                  var n := Min(|keys|, |reply.value|);
                  && (r.Ok? <==> forall i :: 0 <= i < n && reply.value[i].Some? ==> codec.decodeMint(reply.value[i].value.data).Ok?)
                  && (r.Ok? ==> |r.value| == n && forall i :: 0 <= i < n ==>
                                  && (reply.value[i].None? ==> r.value[i].None?)
                                  && (reply.value[i].Some? ==>
                                        r.value[i] == Some(AnchorAccount(keys[i], reply.value[i].value,
                                                                         codec.decodeMint(reply.value[i].value.data).value))))
                  && (r.Err? ==> exists i :: 0 <= i < n && reply.value[i].Some? && codec.decodeMint(reply.value[i].value.data).Err?
                                             && r.error == ClientError.AccountDidNotDeserialize(keys[i])
                                             && forall j :: 0 <= j < i && reply.value[j].Some? ==>
                                                              codec.decodeMint(reply.value[j].value.data).Ok?))
  {
    GetAnchorMultipleAccounts(w, keys, codec.decodeMint)
  }

  /** `try_get_mints`: every mint present and decoded, in key order; a
      decode failure anywhere is reported before a missing mint, and a
      missing mint is reported by the first missing key. */
  function TryGetMints(w: Wrapped<Getter>, codec: InterfaceCodec, keys: seq<Pubkey>)
    : (r: ClientResult<seq<AnchorAccount<Mint>>>)
    ensures var reply := w.Core().getMultipleAccounts(keys);
            && (reply.Err? ==> r == Err(reply.error))
            && (reply.Ok? ==>
                  var n := Min(|keys|, |reply.value|);
                  var decodes := forall i :: 0 <= i < n && reply.value[i].Some? ==> codec.decodeMint(reply.value[i].value.data).Ok?;
                  && (r.Ok? ==> decodes && |r.value| == n && forall i :: 0 <= i < n ==>
                                  && reply.value[i].Some?
                                  && r.value[i] == AnchorAccount(keys[i], reply.value[i].value,
                                                                 codec.decodeMint(reply.value[i].value.data).value))
                  && (!decodes ==> exists i :: 0 <= i < n && reply.value[i].Some? && codec.decodeMint(reply.value[i].value.data).Err?
                                               && r == Err(ClientError.AccountDidNotDeserialize(keys[i]))
                                               && forall j :: 0 <= j < i && reply.value[j].Some? ==>
                                                                codec.decodeMint(reply.value[j].value.data).Ok?)
                  && (decodes && r.Err? ==> exists i :: 0 <= i < n && reply.value[i].None?
                                                        && r.error == ClientError.AccountNotFound(keys[i])
                                                        && forall j :: 0 <= j < i ==> reply.value[j].Some?)
                  && (decodes && (forall i :: 0 <= i < n ==> reply.value[i].Some?) ==> r.Ok?))
  {
    var found :- GetMints(w, codec, keys);
    CollectPresent(Zip(keys, found))
  }

  /** On an account of the base size, the interface reads answer what the
      SPL token reads answer. */
  lemma InterfaceReadsAgreeOnBaseLayout(w: Wrapped<Getter>, codec: InterfaceCodec, key: Pubkey)
    requires ExtendsBaseLayout(codec)
    requires w.Core().getAccount(key).Ok? && w.Core().getAccount(key).value.Some?
    ensures |w.Core().getAccount(key).value.value.data| == MintLen ==>
              && GetMint(w, codec, key) == Tokens.GetMint(w, key)
              && GetMintSupply(w, codec, key) == Tokens.GetMintSupply(w, key)
    ensures |w.Core().getAccount(key).value.value.data| == TokenAccountLen ==>
              && GetTokenAccount(w, codec, key) == Tokens.GetTokenAccount(w, key)
              && GetTokenAccountBalance(w, codec, key) == Tokens.GetTokenAccountBalance(w, key)
  {
    var data := w.Core().getAccount(key).value.value.data;
    if |data| == MintLen {
      assert codec.decodeMint(data) == DecodeMint(data);
    }
    if |data| == TokenAccountLen {
      assert codec.decodeTokenAccount(data) == DecodeTokenAccount(data);
    }
  }

  /** `process_create_and_initialize_mint` of the interface: the mint is
      created under the given token program. */
  function ProcessCreateAndInitializeMint(c: TokenClient, payer: Signer, programId: Pubkey, mint: Signer, authority: Pubkey,
                                          freeze: Option<Pubkey>, decimals: U8)
    : (r: ClientResult<ExecutionOutput>)
    ensures var ixs := BuildCreateAndInitializeMint(c.getter, c.builders, programId, payer.pubkey, mint.pubkey,
                                                    authority, freeze, decimals);
            && (ixs.Err? ==> r == Err(ixs.error))
            && (ixs.Ok? ==> r == Send(c, ixs.value, payer, mint))
  {
    var ixs :- BuildCreateAndInitializeMint(c.getter, c.builders, programId, payer.pubkey, mint.pubkey,
                                           authority, freeze, decimals);
    Send(c, ixs, payer, mint)
  }

  /** `process_create_and_initialize_token_account` of the interface. */
  function ProcessCreateAndInitializeTokenAccount(c: TokenClient, payer: Signer, programId: Pubkey, account: Signer,
                                                  mint: Pubkey, owner: Pubkey)
    : (r: ClientResult<ExecutionOutput>)
    ensures var ixs := BuildCreateAndInitializeTokenAccount(c.getter, c.builders, programId, payer.pubkey,
                                                            account.pubkey, mint, owner);
            && (ixs.Err? ==> r == Err(ixs.error))
            && (ixs.Ok? ==> r == Send(c, ixs.value, payer, account))
  {
    var ixs :- BuildCreateAndInitializeTokenAccount(c.getter, c.builders, programId, payer.pubkey,
                                                   account.pubkey, mint, owner);
    Send(c, ixs, payer, account)
  }

  /** `process_mint_to` of the interface: reads the token account first;
      the program is the one owning it and the mint is the one it records. */
  function ProcessMintTo(c: TokenClient, codec: InterfaceCodec, payer: Signer, account: Pubkey, authority: Signer, amount: U64)
    : (r: ClientResult<ExecutionOutput>)
    ensures var ta := TryGetTokenAccount(c.getter, codec, account);
            && (ta.Err? ==> r == Err(ta.error))
            && (ta.Ok? ==>
                  r == Send(c, [c.builders.mintTo(ta.value.account.owner, ta.value.data.mint, account, authority.pubkey, amount)],
                            payer, authority))
  {
    var ta :- TryGetTokenAccount(c.getter, codec, account);
    Send(c, [c.builders.mintTo(ta.account.owner, ta.data.mint, account, authority.pubkey, amount)], payer, authority)
  }

  /** `process_transfer_checked`: reads the source token account and then its
      mint; the program is the one owning the mint, and the transfer is
      checked against the mint's key and decimals. */
  function ProcessTransferChecked(c: TokenClient, codec: InterfaceCodec, payer: Signer, source: Pubkey, destination: Pubkey,
                                  authority: Signer, multisig: seq<Pubkey>, amount: U64)
    : (r: ClientResult<ExecutionOutput>)
    ensures var src := TryGetTokenAccount(c.getter, codec, source);
            && (src.Err? ==> r == Err(src.error))
            && (src.Ok? ==>
                  var m := TryGetMint(c.getter, codec, src.value.data.mint);
                  && (m.Err? ==> r == Err(m.error))
                  && (m.Ok? ==>
                        && m.value.key == src.value.data.mint
                        && r == Send(c, [c.builders.transferChecked(m.value.account.owner, source, src.value.data.mint, destination,
                                                                    authority.pubkey, multisig, amount, m.value.data.decimals)],
                                     payer, authority)))
  {
    var src :- TryGetTokenAccount(c.getter, codec, source);
    var m :- TryGetMint(c.getter, codec, src.data.mint);
    Send(c, [c.builders.transferChecked(m.account.owner, source, m.key, destination, authority.pubkey, multisig, amount,
                                        m.data.decimals)], payer, authority)
  }

  /** `process_wrap_native` of the interface: the sync goes to the program
      owning the destination's mint. */
  function ProcessWrapNative(c: TokenClient, codec: InterfaceCodec, payer: Signer, source: Signer, destination: Pubkey, lamports: U64)
    : (r: ClientResult<ExecutionOutput>)
    ensures var dst := TryGetTokenAccount(c.getter, codec, destination);
            && (dst.Err? ==> r == Err(dst.error))
            && (dst.Ok? ==>
                  var program := TryGetTokenProgramId(c.getter, codec, dst.value.data.mint);
                  && (program.Err? ==> r == Err(program.error))
                  && (program.Ok? ==>
                        r == Send(c, [c.builders.systemTransfer(source.pubkey, destination, lamports),
                                      c.builders.syncNative(program.value, destination)], payer, source)))
  {
    var dst :- TryGetTokenAccount(c.getter, codec, destination);
    var program :- TryGetTokenProgramId(c.getter, codec, dst.data.mint);
    Send(c, [c.builders.systemTransfer(source.pubkey, destination, lamports), c.builders.syncNative(program, destination)],
         payer, source)
  }

  /** `set_mint` of the interface: stored under the given program, decoded
      by the interface decoder, which on the base layout cannot fail. */
  function SetMint(w: Wrapped<LedgerState>, h: Wrapped<RentHolder>, codec: InterfaceCodec, programId: Pubkey, key: Pubkey,
                   authority: Option<Pubkey>, supply: U64, decimals: U8, freeze: Option<Pubkey>)
    : (r: (Wrapped<LedgerState>, AnchorAccount<Mint>))
    requires w.Mutable() && ExtendsBaseLayout(codec)
    ensures r == SetMintOwnedBy(w, h, programId, key, authority, supply, decimals, freeze)
    ensures r.1.account.owner == programId && r.1.data.isInitialized
  {
    var (ledger, mint) := SetMintOwnedBy(w, h, programId, key, authority, supply, decimals, freeze);
    assert codec.decodeMint(mint.account.data) == DecodeMint(mint.account.data);
    MintRoundTrip(mint.data);
    (ledger, TryFromAccount(key, mint.account, codec.decodeMint).value)
  }

  /** `set_token_account` of the interface: stored under the given program;
      the native-mint rule still uses the SPL native mint. */
  function SetTokenAccount(w: Wrapped<LedgerState>, h: Wrapped<RentHolder>, codec: InterfaceCodec, programId: Pubkey,
                           key: Pubkey, mint: Pubkey, owner: Pubkey, amount: U64)
    : (r: (Wrapped<LedgerState>, AnchorAccount<TokenAccount>))
    requires w.Mutable() && ExtendsBaseLayout(codec)
    requires mint == NativeMintId ==> MinimumBalanceForRentExemption(h, TokenAccountLen) + amount <= U64Max
    ensures r == SetTokenAccountOwnedBy(w, h, programId, key, mint, owner, amount)
    ensures r.1.account.owner == programId
    ensures mint == NativeMintId <==> r.1.data.isNative.Some?
  {
    var (ledger, account) := SetTokenAccountOwnedBy(w, h, programId, key, mint, owner, amount);
    assert codec.decodeTokenAccount(account.account.data) == DecodeTokenAccount(account.account.data);
    TokenAccountRoundTrip(account.data);
    (ledger, TryFromAccount(key, account.account, codec.decodeTokenAccount).value)
  }

  /** A token account set under a program is one `process_mint_to` would
      mint into through that same program, for the mint it records. */
  lemma MintToTargetsStoredProgram(w: Wrapped<LedgerState>, h: Wrapped<RentHolder>, codec: InterfaceCodec, programId: Pubkey,
                                   key: Pubkey, mint: Pubkey, owner: Pubkey, amount: U64,
                                   c: TokenClient, payer: Signer, authority: Signer, minted: U64)
    requires w.Mutable() && ExtendsBaseLayout(codec)
    requires mint == NativeMintId ==> MinimumBalanceForRentExemption(h, TokenAccountLen) + amount <= U64Max
    requires var (ledger, _) := SetTokenAccount(w, h, codec, programId, key, mint, owner, amount);
             c.getter.Core().getAccount(key) == Ok(ReadLedger(ledger.Core(), key))
    ensures ProcessMintTo(c, codec, payer, key, authority, minted)
            == Send(c, [c.builders.mintTo(programId, mint, key, authority.pubkey, minted)], payer, authority)
    ensures programId == TokenProgramId ==>
              ProcessMintTo(c, codec, payer, key, authority, minted) == Tokens.ProcessMintTo(c, payer, key, mint, authority, minted)
  {
    var (ledger, account) := SetTokenAccount(w, h, codec, programId, key, mint, owner, amount);
    TokenAccountRoundTrip(account.data);
    assert codec.decodeTokenAccount(account.account.data) == DecodeTokenAccount(account.account.data);
  }

  /** The interface `process_create_and_initialize_mint` funds, sizes and
      assigns the new mint as the interface `set_mint` stores one under the
      same program, given agreeing rent; under the token program it is the
      SPL processor. */
  lemma CreateMintMatchesSetMintUnder(c: TokenClient, w: Wrapped<LedgerState>, h: Wrapped<RentHolder>, codec: InterfaceCodec,
                                      programId: Pubkey, payer: Signer, mint: Signer, authority: Pubkey,
                                      freeze: Option<Pubkey>, decimals: U8)
    requires w.Mutable() && ExtendsBaseLayout(codec)
    requires c.getter.Core().getMinimumBalanceForRentExemption(MintLen) == Ok(MinimumBalanceForRentExemption(h, MintLen))
    ensures var (_, stored) := SetMint(w, h, codec, programId, mint.pubkey, Some(authority), 0, decimals, freeze);
            ProcessCreateAndInitializeMint(c, payer, programId, mint, authority, freeze, decimals)
            == Send(c, [c.builders.createAccount(payer.pubkey, mint.pubkey, stored.account.lamports, |stored.account.data|,
                                                 stored.account.owner),
                        c.builders.initializeMint(stored.account.owner, mint.pubkey, stored.data.mintAuthority.value,
                                                  stored.data.freezeAuthority, stored.data.decimals)],
                     payer, mint)
    ensures ProcessCreateAndInitializeMint(c, payer, TokenProgramId, mint, authority, freeze, decimals)
            == Tokens.ProcessCreateAndInitializeMint(c, payer, mint, authority, freeze, decimals)
  {
  }

  /** The interface `process_create_and_initialize_token_account` funds,
      sizes and assigns the new account as the interface
      `set_token_account` stores an empty one under the same program. */
  lemma CreateTokenAccountMatchesSetTokenAccountUnder(c: TokenClient, w: Wrapped<LedgerState>, h: Wrapped<RentHolder>,
                                                      codec: InterfaceCodec, programId: Pubkey, payer: Signer,
                                                      account: Signer, mint: Pubkey, owner: Pubkey)
    requires w.Mutable() && ExtendsBaseLayout(codec)
    requires c.getter.Core().getMinimumBalanceForRentExemption(TokenAccountLen)
             == Ok(MinimumBalanceForRentExemption(h, TokenAccountLen))
    ensures var (_, stored) := SetTokenAccount(w, h, codec, programId, account.pubkey, mint, owner, 0);
            ProcessCreateAndInitializeTokenAccount(c, payer, programId, account, mint, owner)
            == Send(c, [c.builders.createAccount(payer.pubkey, account.pubkey, stored.account.lamports, |stored.account.data|,
                                                 stored.account.owner),
                        c.builders.initializeAccount(stored.account.owner, account.pubkey, stored.data.mint, stored.data.owner)],
                     payer, account)
    ensures ProcessCreateAndInitializeTokenAccount(c, payer, TokenProgramId, account, mint, owner)
            == Tokens.ProcessCreateAndInitializeTokenAccount(c, payer, account, mint, owner)
  {
  }

  /** The ledger after setting a token account at `key` for `mint` under
      `accountProgram`, then the mint itself under `mintProgram`. */
  function AccountThenMint(w: Wrapped<LedgerState>, h: Wrapped<RentHolder>, codec: InterfaceCodec,
                           accountProgram: Pubkey, key: Pubkey, mint: Pubkey, owner: Pubkey, amount: U64,
                           mintProgram: Pubkey, decimals: U8): (ledger: LedgerState)
    requires w.Mutable() && ExtendsBaseLayout(codec)
    requires mint == NativeMintId ==> MinimumBalanceForRentExemption(h, TokenAccountLen) + amount <= U64Max
    ensures key != mint ==> ReadLedger(ledger, key).Some? && ReadLedger(ledger, key).value.owner == accountProgram
    ensures ReadLedger(ledger, mint).Some? && ReadLedger(ledger, mint).value.owner == mintProgram
  {
    var (withAccount, _) := SetTokenAccount(w, h, codec, accountProgram, key, mint, owner, amount);
    var (ledger, _) := SetMint(withAccount, h, codec, mintProgram, mint, None, 0, decimals, None);
    ledger.Core()
  }

  /** After a token account is set for a mint and the mint is set with
      `decimals` under `mintProgram`, `process_transfer_checked` from that
      account sends, to the mint's program, a checked transfer naming the
      mint and carrying its decimals; the account's own program plays no
      part. */
  lemma TransferCheckedUsesStoredMint(w: Wrapped<LedgerState>, h: Wrapped<RentHolder>, codec: InterfaceCodec,
                                      accountProgram: Pubkey, source: Pubkey, mint: Pubkey, owner: Pubkey, amount: U64,
                                      mintProgram: Pubkey, decimals: U8,
                                      c: TokenClient, payer: Signer, destination: Pubkey, authority: Signer,
                                      multisig: seq<Pubkey>, sent: U64)
    requires w.Mutable() && ExtendsBaseLayout(codec) && source != mint
    requires mint == NativeMintId ==> MinimumBalanceForRentExemption(h, TokenAccountLen) + amount <= U64Max
    requires var ledger := AccountThenMint(w, h, codec, accountProgram, source, mint, owner, amount, mintProgram, decimals);
             && c.getter.Core().getAccount(source) == Ok(ReadLedger(ledger, source))
             && c.getter.Core().getAccount(mint) == Ok(ReadLedger(ledger, mint))
    ensures ProcessTransferChecked(c, codec, payer, source, destination, authority, multisig, sent)
            == Send(c, [c.builders.transferChecked(mintProgram, source, mint, destination, authority.pubkey, multisig, sent, decimals)],
                    payer, authority)
  {
    var (withAccount, account) := SetTokenAccount(w, h, codec, accountProgram, source, mint, owner, amount);
    var (ledger, stored) := SetMint(withAccount, h, codec, mintProgram, mint, None, 0, decimals, None);
    assert ReadLedger(ledger.Core(), source) == Some(account.account);
    TokenAccountRoundTrip(account.data);
    assert codec.decodeTokenAccount(account.account.data) == DecodeTokenAccount(account.account.data);
    MintRoundTrip(stored.data);
    assert codec.decodeMint(stored.account.data) == DecodeMint(stored.account.data);
  }

  /** After a token account is set for a mint and the mint is set under
      `mintProgram`, `process_wrap_native` into that account syncs through
      the mint's program; under the token program it is the SPL
      processor. */
  lemma WrapNativeSyncsThroughMintProgram(w: Wrapped<LedgerState>, h: Wrapped<RentHolder>, codec: InterfaceCodec,
                                          accountProgram: Pubkey, destination: Pubkey, mint: Pubkey, owner: Pubkey, amount: U64,
                                          mintProgram: Pubkey, decimals: U8,
                                          c: TokenClient, payer: Signer, source: Signer, lamports: U64)
    requires w.Mutable() && ExtendsBaseLayout(codec) && destination != mint
    requires mint == NativeMintId ==> MinimumBalanceForRentExemption(h, TokenAccountLen) + amount <= U64Max
    requires var ledger := AccountThenMint(w, h, codec, accountProgram, destination, mint, owner, amount, mintProgram, decimals);
             && c.getter.Core().getAccount(destination) == Ok(ReadLedger(ledger, destination))
             && c.getter.Core().getAccount(mint) == Ok(ReadLedger(ledger, mint))
    ensures ProcessWrapNative(c, codec, payer, source, destination, lamports)
            == Send(c, [c.builders.systemTransfer(source.pubkey, destination, lamports),
                        c.builders.syncNative(mintProgram, destination)], payer, source)
    ensures mintProgram == TokenProgramId ==>
              ProcessWrapNative(c, codec, payer, source, destination, lamports) == Tokens.ProcessWrapNative(c, payer, source, destination, lamports)
  {
    var (withAccount, account) := SetTokenAccount(w, h, codec, accountProgram, destination, mint, owner, amount);
    var (ledger, stored) := SetMint(withAccount, h, codec, mintProgram, mint, None, 0, decimals, None);
    assert ReadLedger(ledger.Core(), destination) == Some(account.account);
    TokenAccountRoundTrip(account.data);
    assert codec.decodeTokenAccount(account.account.data) == DecodeTokenAccount(account.account.data);
    MintRoundTrip(stored.data);
    assert codec.decodeMint(stored.account.data) == DecodeMint(stored.account.data);
  }
}

=== FILE: token_state.dfy ===
/** The token program's mint and token-account states and their fixed
    `Pack` layouts, as the SPL token program lays them out (and as the
    token-2022 program lays out their base, extension-free form). These
    are what the token modules read and write. */
module TokenState {
  import opened Results
  import opened Ledger
  import opened Bytes
  import opened AnchorAccounts

  /** `Mint::LEN`. */
  const MintLen: nat := 82

  /** `Account::LEN`. */
  const TokenAccountLen: nat := 165

  /** Where a token account's owner starts in its data. */
  const TokenOwnerOffset: nat := 32

  datatype AccountState = Uninitialized | Initialized | Frozen

  datatype Mint = Mint(
    mintAuthority: Option<Pubkey>,
    supply: U64,
    decimals: U8,
    isInitialized: bool,
    freezeAuthority: Option<Pubkey>)

  datatype TokenAccount = TokenAccount(
    mint: Pubkey,
    owner: Pubkey,
    amount: U64,
    delegate: Option<Pubkey>,
    state: AccountState,
    isNative: Option<U64>,
    delegatedAmount: U64,
    closeAuthority: Option<Pubkey>)

  /** The four-byte tags of a `COption`. */
  const NoneTag: seq<Byte> := [0, 0, 0, 0]
  const SomeTag: seq<Byte> := [1, 0, 0, 0]

  /** `COption<Pubkey>`: the tag, then the key or 32 zero bytes. */
  function PackOptionKey(o: Option<Pubkey>): (b: seq<Byte>)
    ensures |b| == 36
  {
    match o
    case None => NoneTag + seq(32, _ => 0)
    case Some(k) => SomeTag + k
  }

  /** Reads a `COption<Pubkey>`; a tag other than the two is invalid and
      the body of `None` is ignored. */
  function UnpackOptionKey(b: seq<Byte>): (r: Option<Option<Pubkey>>)
    requires |b| == 36
    ensures r.Some? <==> b[..4] == NoneTag || b[..4] == SomeTag
  {
    if b[..4] == NoneTag then Some(None)
    else if b[..4] == SomeTag then Some(Some(b[4..]))
    else None
  }

  /** `COption<u64>`: the tag, then the value or 8 zero bytes. */
  function PackOptionU64(o: Option<U64>): (b: seq<Byte>)
    ensures |b| == 12
  {
    match o
    case None => NoneTag + seq(8, _ => 0)
    case Some(n) => SomeTag + U64Bytes(n)
  }

  function UnpackOptionU64(b: seq<Byte>): (r: Option<Option<U64>>)
    requires |b| == 12
    ensures r.Some? <==> b[..4] == NoneTag || b[..4] == SomeTag
  {
    if b[..4] == NoneTag then Some(None)
    else if b[..4] == SomeTag then Some(Some(ReadU64(b[4..])))
    else None
  }

  lemma OptionRoundTrips(k: Option<Pubkey>, n: Option<U64>)
    ensures UnpackOptionKey(PackOptionKey(k)) == Some(k)
    ensures UnpackOptionU64(PackOptionU64(n)) == Some(n)
  {
    var b := PackOptionKey(k);
    assert b[..4] == (if k.None? then NoneTag else SomeTag);
    if k.Some? {
      assert b[4..] == k.value;
    }
    var c := PackOptionU64(n);
    assert c[..4] == (if n.None? then NoneTag else SomeTag);
    if n.Some? {
      assert c[4..] == U64Bytes(n.value);
      FixedWidthRoundTrips(0, n.value);
    }
  }

  function BoolByte(b: bool): Byte {
    if b then 1 else 0
  }

  /** A bool byte other than 0 or 1 is invalid. */
  function UnpackBool(b: Byte): Option<bool> {
    if b == 0 then Some(false) else if b == 1 then Some(true) else None
  }

  function StateByte(s: AccountState): Byte {
    match s
    case Uninitialized => 0
    case Initialized => 1
    case Frozen => 2
  }

  function UnpackState(b: Byte): (r: Option<AccountState>)
    ensures r.Some? <==> b <= 2
    ensures r.Some? ==> StateByte(r.value) == b
  {
    if b == 0 then Some(Uninitialized) else if b == 1 then Some(Initialized) else if b == 2 then Some(Frozen) else None
  }

  /** `Mint::pack_into_slice`: authority, supply, decimals, initialised
      flag, freeze authority. */
  function PackMint(m: Mint): (b: seq<Byte>)
    ensures |b| == MintLen
  {
    PackOptionKey(m.mintAuthority) + U64Bytes(m.supply) + [m.decimals, BoolByte(m.isInitialized)]
      + PackOptionKey(m.freezeAuthority)
  }

  /** `Mint::unpack`: exactly `MintLen` bytes, every field valid, and the
      mint initialised. */
  function UnpackMint(b: seq<Byte>): (r: Option<Mint>)
    ensures r.Some? ==> |b| == MintLen && r.value.isInitialized
  {
    if |b| != MintLen then None
    else
      var mintAuthority :- UnpackOptionKey(b[0..36]);
      var isInitialized :- UnpackBool(b[45]);
      var freezeAuthority :- UnpackOptionKey(b[46..82]);
      if !isInitialized then None
      else Some(Mint(mintAuthority, ReadU64(b[36..44]), b[44], isInitialized, freezeAuthority))
  }

  /** An initialised mint unpacks from its packing; an uninitialised one
      never does. */
  lemma MintRoundTrip(m: Mint)
    ensures m.isInitialized ==> UnpackMint(PackMint(m)) == Some(m)
    ensures !m.isInitialized ==> UnpackMint(PackMint(m)).None?
  {
    var b := PackMint(m);
    assert b[0..36] == PackOptionKey(m.mintAuthority);
    assert b[36..44] == U64Bytes(m.supply);
    assert b[44] == m.decimals && b[45] == BoolByte(m.isInitialized);
    assert b[46..82] == PackOptionKey(m.freezeAuthority);
    OptionRoundTrips(m.mintAuthority, None);
    OptionRoundTrips(m.freezeAuthority, None);
    FixedWidthRoundTrips(0, m.supply);
  }

  /** `Account::pack_into_slice`: mint, owner, amount, delegate, state,
      native reserve, delegated amount, close authority. */
  function PackTokenAccount(a: TokenAccount): (b: seq<Byte>)
    ensures |b| == TokenAccountLen
    ensures b[..32] == a.mint && b[TokenOwnerOffset..TokenOwnerOffset + 32] == a.owner
  {
    var b := a.mint + a.owner + U64Bytes(a.amount) + PackOptionKey(a.delegate) + [StateByte(a.state)]
             + PackOptionU64(a.isNative) + U64Bytes(a.delegatedAmount) + PackOptionKey(a.closeAuthority);
    assert b[..32] == a.mint;
    assert b[32..64] == a.owner;
    b
  }

  /** `Account::unpack`: exactly `TokenAccountLen` bytes, every field
      valid, and the account not `Uninitialized`. */
  function UnpackTokenAccount(b: seq<Byte>): (r: Option<TokenAccount>)
    ensures r.Some? ==> |b| == TokenAccountLen && r.value.state != Uninitialized
  {
    if |b| != TokenAccountLen then None
    else
      var delegate :- UnpackOptionKey(b[72..108]);
      var state :- UnpackState(b[108]);
      var isNative :- UnpackOptionU64(b[109..121]);
      var closeAuthority :- UnpackOptionKey(b[129..165]);
      if state == Uninitialized then None
      else Some(TokenAccount(b[0..32], b[32..64], ReadU64(b[64..72]), delegate, state, isNative,
                             ReadU64(b[121..129]), closeAuthority))
  }

  /** An initialised or frozen token account unpacks from its packing; an
      uninitialised one never does. */
  lemma TokenAccountRoundTrip(a: TokenAccount)
    ensures a.state != Uninitialized ==> UnpackTokenAccount(PackTokenAccount(a)) == Some(a)
    ensures a.state == Uninitialized ==> UnpackTokenAccount(PackTokenAccount(a)).None?
  {
    var b := PackTokenAccount(a);
    assert b[0..32] == a.mint;
    assert b[32..64] == a.owner;
    assert b[64..72] == U64Bytes(a.amount);
    assert b[72..108] == PackOptionKey(a.delegate);
    assert b[108] == StateByte(a.state);
    assert b[109..121] == PackOptionU64(a.isNative);
    assert b[121..129] == U64Bytes(a.delegatedAmount);
    assert b[129..165] == PackOptionKey(a.closeAuthority);
    OptionRoundTrips(a.delegate, a.isNative);
    OptionRoundTrips(a.closeAuthority, None);
    FixedWidthRoundTrips(0, a.amount);
    FixedWidthRoundTrips(0, a.delegatedAmount);
  }

  /** The Anchor deserialisers of `Mint` and `TokenAccount`: the `Pack`
      decoders, any failure reported as a decode error. */
  function DecodeMint(b: seq<Byte>): (r: Result<Mint, AnchorError>)
    ensures r.Ok? <==> UnpackMint(b).Some?
    ensures r.Ok? ==> r.value == UnpackMint(b).value
  {
    UnpackMint(b).OkOr(AnchorError(0))
  }

  function DecodeTokenAccount(b: seq<Byte>): (r: Result<TokenAccount, AnchorError>)
    ensures r.Ok? <==> UnpackTokenAccount(b).Some?
    ensures r.Ok? ==> r.value == UnpackTokenAccount(b).value
  {
    UnpackTokenAccount(b).OkOr(AnchorError(0))
  }

  /** The balance and native reserve of a freshly set token account: a
      wrapped-SOL account holds its token amount in lamports on top of the
      rent reserve and records that reserve; any other account holds just
      the reserve. The Rust client adds without a check, so the sum must fit. */
  function NativeFunding(rentExempt: U64, amount: U64, isNativeMint: bool): (r: (U64, Option<U64>))
    requires isNativeMint ==> rentExempt + amount <= U64Max
    ensures isNativeMint ==> r == (rentExempt + amount, Some(rentExempt))
    ensures !isNativeMint ==> r == (rentExempt, None)
  {
    if isNativeMint then (rentExempt + amount, Some(rentExempt)) else (rentExempt, None)
  }

  /** A freshly set token account: initialised, with no delegate, nothing
      delegated and no close authority. */
  function FreshTokenAccount(mint: Pubkey, owner: Pubkey, amount: U64, isNative: Option<U64>): (a: TokenAccount)
    ensures a.mint == mint && a.owner == owner && a.amount == amount && a.isNative == isNative
    ensures a.state == Initialized && a.delegate.None? && a.delegatedAmount == 0 && a.closeAuthority.None?
  {
    TokenAccount(mint, owner, amount, None, Initialized, isNative, 0, None)
  }
}

=== FILE: transactions.dfy ===
/** Transaction-level SDK types the client layer handles without
    interpreting them: instructions, messages (legacy and version 0 with
    address-table lookups), versioned transactions, lookup tables and the
    ledger's transaction errors. */
module Transactions {
  import opened Results
  import opened Ledger

  /** The instruction-level failure carried by a transaction error; only
      the program-defined `Custom(code)` case is distinguished. */
  datatype InstructionError =
    | Custom(code: U32)
    | OtherInstructionError(kind: nat)

  /** A ledger-defined transaction failure. Only the instruction-error case
      is inspected by the client layer; every other cause is opaque. */
  datatype TransactionError =
    | InstructionError(index: U8, cause: InstructionError)
    | OtherTransactionError(kind: nat)

  datatype MessageHeader = MessageHeader(
    numRequiredSignatures: U8,
    numReadonlySignedAccounts: U8,
    numReadonlyUnsignedAccounts: U8)

  datatype AccountMeta = AccountMeta(pubkey: Pubkey, isSigner: bool, isWritable: bool)

  /** An uncompiled instruction as instruction builders produce it. */
  datatype Instruction = Instruction(programId: Pubkey, accounts: seq<AccountMeta>, data: seq<Byte>)

  /** An instruction inside a compiled message: indexes into the key list. */
  datatype CompiledInstruction = CompiledInstruction(programIdIndex: U8, accounts: seq<U8>, data: seq<Byte>)

  /** A version-0 message's reference to one on-chain lookup table. */
  datatype LookupTableRef = LookupTableRef(
    accountKey: Pubkey,
    writableIndexes: seq<U8>,
    readonlyIndexes: seq<U8>)

  datatype Message =
    | Legacy(
        header: MessageHeader,
        staticKeys: seq<Pubkey>,
        recentBlockhash: Hash,
        instructions: seq<CompiledInstruction>)
    | V0(
        header: MessageHeader,
        staticKeys: seq<Pubkey>,
        recentBlockhash: Hash,
        instructions: seq<CompiledInstruction>,
        lookups: seq<LookupTableRef>)
  {
    /** `VersionedMessage::address_table_lookups`: present for every
        version-0 message, even one with no lookups; absent for legacy. */
    function AddressTableLookups(): Option<seq<LookupTableRef>> {
      if V0? then Some(lookups) else None
    }
  }

  datatype VersionedTransaction = VersionedTransaction(signatures: seq<Signature>, message: Message)

  /** Addresses resolved through lookup tables. */
  datatype LoadedAddresses = LoadedAddresses(writable: seq<Pubkey>, readonly: seq<Pubkey>)

  /** A transaction together with its resolved addresses; its full account
      key list is the static keys, then every writable, then every readonly
      resolved address. */
  datatype SanitizedTransaction = SanitizedTransaction(
    transaction: VersionedTransaction,
    loaded: LoadedAddresses)
  {
    function AccountKeys(): seq<Pubkey> {
      transaction.message.staticKeys + loaded.writable + loaded.readonly
    }
  }

  /** Data a program returned from its last instruction. */
  datatype ReturnData = ReturnData(programId: Pubkey, data: seq<Byte>)

  /** Bookkeeping header of an on-chain address lookup table. */
  datatype LookupTableMeta = LookupTableMeta(
    deactivationSlot: U64,
    lastExtendedSlot: U64,
    lastExtendedSlotStartIndex: U8,
    authority: Option<Pubkey>)

  /** A decoded address lookup table. */
  datatype AddressLookupTable = AddressLookupTable(meta: LookupTableMeta, addresses: seq<Pubkey>)

  /** A lookup table as handed to the message compiler. */
  datatype AddressLookupTableAccount = AddressLookupTableAccount(key: Pubkey, addresses: seq<Pubkey>)

  /** The slot-hashes sysvar: recent (slot, hash) pairs, newest first. */
  datatype SlotHashes = SlotHashes(entries: seq<(U64, Hash)>)
}

=== FILE: wallet.dfy ===
/** Funding plain wallets in a writable ledger
    (client/client-sys/src/wallet.rs). The fresh keypair of `new_wallet`
    comes from a random source, so its public key is a parameter. */
module Wallets {
  import opened Results
  import opened Ledger
  import opened Capabilities

  /** The account of a wallet holding `lamports`: system-owned, no data,
      not executable, never collected. */
  function WalletAccount(lamports: U64): (a: Account)
    ensures a.lamports == lamports && a.owner == SystemProgramId && a.data == []
    ensures !a.executable && a.rentEpoch == U64Max
  {
    Account(lamports, [], SystemProgramId, false, U64Max)
  }

  /** `set_wallet`: stores the wallet account at `key`. */
  function SetWallet(w: Wrapped<LedgerState>, key: Pubkey, lamports: U64): (r: Wrapped<LedgerState>)
    requires w.Mutable()
    ensures r.Mutable() && r.Layers() == w.Layers()
    ensures r.Core() == w.Core()[key := WalletAccount(lamports)]
  {
    SetAccount(w, key, WalletAccount(lamports))
  }

  /** `new_wallet`: funds the fresh keypair's public key and hands the
      keypair back. */
  function NewWallet(w: Wrapped<LedgerState>, walletKey: Pubkey, lamports: U64): (r: (Wrapped<LedgerState>, Pubkey))
    requires w.Mutable()
    ensures r.1 == walletKey
    ensures r.0.Core() == w.Core()[walletKey := WalletAccount(lamports)]
  {
    (SetWallet(w, walletKey, lamports), walletKey)
  }

  /** A wallet reads back with its balance and nothing else, and it is the
      empty system account that a transaction would garbage-collect exactly
      when it holds no lamports. */
  lemma WalletReadsBack(w: Wrapped<LedgerState>, key: Pubkey, lamports: U64, other: Pubkey)
    requires w.Mutable()
    ensures ReadLedger(SetWallet(w, key, lamports).Core(), key) == Some(WalletAccount(lamports))
    ensures other != key ==> ReadLedger(SetWallet(w, key, lamports).Core(), other) == ReadLedger(w.Core(), other)
    ensures IsEmptySystemAccount(WalletAccount(lamports)) <==> lamports == 0
  {
    SetThenRead(w, key, WalletAccount(lamports), other);
  }
}
